=== FILE: README.md ===
# xicoWeb sales and catalog screens, modelled in Dafny

xicoWeb is a React front end over a Firestore database. Its sales staff use it
to follow prospects through a five-stage pipeline and to maintain a product
catalog. This project models the list, map and string logic behind the
following screens as pure Dafny functions over immutable values:

- **The pipeline board (`Funnel`).** Every live snapshot of the prospects
  collection is split into the columns `entrante`, `calificado`, `espera`,
  `perdido` and `ganado`. A drag-and-drop handler moves a card between columns
  and writes the new `state` field.
- **The WhatsApp drawer (`WhatsApp`).** It refuses blank messages and sends one
  relay request otherwise.
- **The dashboard (`Dashboard`).** It counts prospects per state value.
- **The prospect screens (`ProspectIntake`, `ProspectTable`).**
  - The creation form gives a new prospect a default stage.
  - The table holds inline edit state, a per-row menu, and the agent-name fallback.
- **The category form (`CategorySlug`).** It derives a slug from the category name.
- **The products page (`ProductsPage`).**
  - A live, case-insensitive search over name, category name and brand name (`Catalog`).
  - Two header dropdowns closed by a document-level outside-click listener.
  - The catalog PDFs: products grouped by category name with the fallback heading "Sin categoría" (`Grouping`, `CatalogPdf`), fed three ways: the menu's full-catalog entry draws every product, the catalog component's complete button draws the page's search result, and the two selection modals draw a selection.
- **The product-selection modal (`ProductSelection`).** It keeps a selection without repeated ids.
- **The global-discount modal (`GlobalDiscount`).** It builds an exclusion list and appends a discount to every eligible product.
- **The product forms (`EditProduct`, `NewProduct`).**
  - Both edit a discount list (`DiscountEditing`).
  - The browser's `required` checks gate submission.
  - Each form builds the document it writes.

Some modules are shared: `Base` (an option type, filtering, subsequences and
JavaScript's `splice`), `Text` (JavaScript white space, ASCII case mapping,
`trim` and `includes`), `Stages` (the five stage ids) and `Prospects` (the
prospect document).

Everything that talks to Firestore, Storage or the relay becomes a parameter:
- the outcome of an upload (`Upload`);
- the store's acknowledgement of a write (a `bool`);
- the documents a read returns.

Store writes are returned as values, such as `StateWrite`, `DiscountWrite`,
`EditPayload` and `NewRecord`.

React state updates that the source makes in one event handler are modelled as
one transition. An effect that re-runs because its dependencies changed is
applied right after the transition that changed them.

## Model

| member | source | states |
|---|---|---|
| Base.SpliceStart | src/components/Funnel.js:60-62 | The position `splice` acts on: the start itself when it lies inside the array, the end when it lies past it, counted from the end when negative, the front when it reaches before the first element, and never outside the array |
| Text.TrimEmptyIffAllSpace | src/components/Funnel.js:95 | `trim()` gives the empty string exactly when every character is white space |
| Text.ContainsIffOccurs | src/components/ProductsPage.js:118-122 | `includes` holds exactly when the needle occurs at some position of the haystack |
| Stages.StageIds | src/components/Funnel.js:25-31 | The board's keys are the five stage ids in board order, one per stage |
| Stages.OrderListsEveryStageOnce | src/components/Funnel.js:25-31 | Every stage occurs exactly once in the board order |
| Stages.Parse | src/components/Funnel.js:35 | A state value is recognised as a board key exactly when it is one of the five ids, and then it names the stage whose id it is |
| Stages.TitleRecoversId | src/components/Funnel.js:126 | A column heading has the id's length and lower-cases back to the id, so only the first letter's case changes |
| Stages.ColumnTitles | src/components/Funnel.js:126 | The headings shown are Entrante, Calificado, Espera, Perdido and Ganado |
| Funnel.Columns | src/components/Funnel.js:166 | The page renders exactly five columns, in board order, each with its id, its heading and its cards |
| Funnel.Place | src/components/Funnel.js:33-38 | One snapshot step that does not throw appends the prospect to the column its state names and leaves every other column as it was; a state that names no column changes nothing |
| Funnel.Bucket | src/components/Funnel.js:25-38 | When the loop runs to the end, each column of the rebuilt board holds exactly the snapshot's prospects of that stage, in snapshot order |
| Funnel.Collect | src/components/Funnel.js:33-38 | The loop stops with a thrown error exactly when some prospect's state names a member every object inherits, such as `constructor` or `toString`; otherwise it leaves the rebuilt board |
| Funnel.StageIdNeverThrows | src/components/Funnel.js:25-36 | A prospect whose state is one of the five column ids never makes the loop throw, since no column id is an inherited name |
| Funnel.CollectSnoc | src/components/Funnel.js:33-38 | A prospect that does not throw, appended to a snapshot, adds one placing step to a loop that ran to the end, and leaves a stopped loop stopped |
| Funnel.OnSnapshot | src/components/Funnel.js:24-41 | A snapshot with no inherited-name state replaces the board with its stage-by-stage buckets; one with such a state leaves the board shown before |
| Funnel.InheritedStateKeepsBoard | src/components/Funnel.js:33-40 | A snapshot holding a new `entrante` card and a card in state `constructor` leaves the previous board on screen, although the new card alone would have been shown |
| Funnel.SnapshotDropsUnknown | src/components/Funnel.js:24-41 | After any snapshot every card still sits in the column its state names; when the loop ran to the end, a prospect whose state is not a stage id appears in no column |
| Funnel.PlaceTotal | src/components/Funnel.js:35-37 | One snapshot step adds a card exactly when the state is recognised |
| Funnel.BucketTotal | src/components/Funnel.js:25-40 | The board holds as many cards as the snapshot has prospects with a recognised state |
| Funnel.OnDragEnd | src/components/Funnel.js:46-74 | A drop outside every column, or back onto its own place, does nothing and writes nothing. A source index with no card throws before anything is set or written. Every other drop is carried out, and it writes the moved card's id with the destination column's id |
| Funnel.CrossColumnMove | src/components/Funnel.js:57-73 | A move between two columns: the source loses exactly the card at the source index; the destination holds it, restamped, at the splice position; the other three columns are untouched; one write goes out |
| Funnel.CrossColumnConservesCards | src/components/Funnel.js:57-70 | A move between two columns keeps the number of cards and the multiset of card ids |
| Funnel.MovedCardLeavesSource | src/components/Funnel.js:57-66 | When the source column has no repeated ids, the moved id is no longer in it after a cross-column move |
| Funnel.SameColumnDuplicatesCard | src/components/Funnel.js:57-68 | A drop inside one column shows the column with the dragged card inserted once more. The column grows by one, the card appears twice, the board gains a card, and one write still goes out |
| Funnel.SameColumnCounterexample | src/components/Funnel.js:57-68 | Dragging the first of two cards one place down in `entrante` leaves three cards there, the first one twice |
| Funnel.WellFormedIffColumns | src/components/Funnel.js:33-38 | The board is well formed exactly when every column holds only cards of its own state |
| Funnel.DragKeepsWellFormed | src/components/Funnel.js:57-68 | After any drop every card still sits in the column its state names, because the moved card is restamped with its new column's id |
| Funnel.ReorderingOnDragEnd | src/components/Funnel.js:46-74 | The drop handler with a same-column drop done on one copy. It agrees with the handler on every drop between columns, ignores and throws on the same drops, and carries out every other drop |
| Funnel.ReorderingConservesCards | src/components/Funnel.js:57-70 | With the single-copy reorder, no drop changes the number of cards or the multiset of card ids |
| Funnel.ReorderingKeepsWellFormed | src/components/Funnel.js:57-68 | With the single-copy reorder, every card still sits in the column its state names |
| Funnel.ReorderingSwapsExample | src/components/Funnel.js:57-68 | On the duplication example, the single-copy reorder swaps the two cards and keeps two cards |
| WhatsApp.OpenDrawer | src/components/Funnel.js:85-88 | Opening the drawer on a card selects that prospect and keeps the typed message |
| WhatsApp.CloseDrawer | src/components/Funnel.js:90-92 | Closing the drawer keeps the message and the selection |
| WhatsApp.SendMessage | src/components/Funnel.js:94-116 | A message that trims to nothing makes no request and only asks for a message. Otherwise, with a selected prospect, exactly one request carries the untrimmed message to that prospect's phone. Only a reply whose `success` is set clears the message and closes the drawer; any other outcome leaves the drawer as it was |
| WhatsApp.SendAfterOpen | src/components/Funnel.js:94-116 | After opening the drawer on a card, a non-blank message goes to that card's phone in one request. A failed send keeps the message for a retry |
| WhatsApp.BlankMessageNeverSent | src/components/Funnel.js:95-98 | A message of white space only never reaches the relay, whatever the relay would answer |
| Dashboard.Keys | src/components/DashboardPage.js:17-19 | Each prospect is counted under its state value, in snapshot order; a missing state counts under "undefined" |
| Dashboard.Tally | src/components/DashboardPage.js:20-23 | One reduce step raises the count of its key by one and no other count |
| Dashboard.TallyStates | src/components/DashboardPage.js:20-22 | One reduce step keeps the existing keys in place and appends its key when it is new |
| Dashboard.TallyCounts | src/components/DashboardPage.js:20-23 | A reduce step never lowers a count, and a key it creates counts at least one |
| Dashboard.TallyStep | src/components/DashboardPage.js:18-25 | Tallying one more key extends a tally of the keys seen so far: distinct keys, counts equal to occurrences, every count at least one, and the total equal to the number of keys |
| Dashboard.Aggregate | src/components/DashboardPage.js:18-30 | The chart data has one entry per distinct state value and counts how often that value occurs. Unrecognised and missing states are counted too, every count is at least one, and the counts add up to the number of prospects |
| Dashboard.EntryCountsItsState | src/components/DashboardPage.js:18-30 | Each emitted entry's count is the number of prospects carrying its state |
| Dashboard.AbsentStateHasNoEntry | src/components/DashboardPage.js:27-30 | A state no prospect carries gets no entry |
| Dashboard.WithShares | src/components/DashboardPage.js:42-45 | One percentage entry per emitted entry, each computed against the sum of all counts |
| Dashboard.CountWithinTotal | src/components/DashboardPage.js:40 | No entry's count exceeds the total |
| Dashboard.SharesNeverDivideByZero | src/components/DashboardPage.js:40-45 | An empty snapshot yields no percentage entries, and every computed percentage has a total of at least one and at least its own count |
| ProspectIntake.StateOptionsArePlaceholderThenStages | src/components/ProspectModal.js:158-163 | The state select offers the empty placeholder, then exactly the five stage ids in board order |
| ProspectIntake.StoredState | src/components/ProspectModal.js:71 | The saved state is the chosen value verbatim, or `entrante` when none was chosen |
| ProspectIntake.RecordOf | src/components/ProspectModal.js:64-72 | The saved document has exactly the seven fields, copied from the form, with the given logo URL and the defaulted state |
| ProspectIntake.Submit | src/components/ProspectModal.js:32-80 | The browser blocks a form whose required fields are empty or whose phone is not ten digits. A failed logo upload writes nothing. Without a logo the document carries the empty URL, with one it carries the uploaded URL. The modal closes only when the store accepts the write |
| ProspectIntake.WrittenStateIsAColumn | src/components/ProspectModal.js:71 | Every written document names one of the board's columns, and the first column when no state was chosen |
| ProspectIntake.AsProspect | src/components/ProspectModal.js:64-72 | The prospect read back carries the written fields under the id the store gave it |
| ProspectIntake.CreatedProspectJoinsItsColumn | src/components/ProspectModal.js:64-72 | A created prospect arriving at the end of a snapshot never stops the board's loop by itself. When the loop runs to the end, the prospect becomes the last card of its state's column, and every other column is as before |
| ProspectTable.ResolveAgent | src/components/ProspectList.js:39-41 | Building the agent's document reference throws exactly when the id holds a doubled slash or an even number of segments, the empty id included. Otherwise a plain id with a user document resolves to that user's names, and a missing document resolves to the "N/A" placeholder |
| ProspectTable.PlainIdSegments | src/components/ProspectList.js:39 | An agent id without slashes is a single path segment when non-empty, so it makes a valid reference exactly when it is non-empty |
| ProspectTable.AgentRefExamples | src/components/ProspectList.js:39 | The ids `""`, `a/b` and `a//b` make the reference throw; `u1` and `/u1` are valid, and the leading slash is dropped |
| ProspectTable.AgentIndex | src/components/ProspectList.js:26-32 | The name index holds exactly the users whose role is "agente", with their names |
| ProspectTable.AgentCellShowsNameOnlyForNamedAgents | src/components/ProspectList.js:184-185 | The agent cell shows "nombre apellido" exactly when the agent is an "agente" user with both names non-empty, and "N/A" otherwise |
| ProspectTable.Rows | src/components/ProspectList.js:36-46 | The row building fails exactly when some prospect's agent id makes the reference throw. Otherwise there is one row per snapshot document, in snapshot order, each with its agent resolved or the placeholder |
| ProspectTable.ReceiveSnapshot | src/components/ProspectList.js:35-49 | A snapshot whose agent references can all be built replaces the listing with its rows. Any other snapshot leaves the listing as it was, and the first such snapshot leaves the loading text |
| ProspectTable.PlainAgentIdsAreListed | src/components/ProspectList.js:35-49 | When every agent id is plain and non-empty, every prospect is listed in order with its agent's names or the placeholder |
| ProspectTable.BlankAgentFreezesListing | src/components/ProspectList.js:35-49 | One prospect whose agent field is empty, as the table's free-text agent input can save it, leaves the listing on screen unchanged |
| ProspectTable.FormOf | src/components/ProspectList.js:57-60 | The edit form is the whole row: the editable fields plus the id and the merged agent object |
| ProspectTable.ToggleMenu | src/components/ProspectList.js:115-117 | Toggling a row's menu closes it when it is that row's, and otherwise opens that row's menu and no other; nothing else changes |
| ProspectTable.ToggleMenuTwice | src/components/ProspectList.js:115-117 | Toggling a row twice closes its menu again, and toggling another row moves the menu there |
| ProspectTable.InputChange | src/components/ProspectList.js:87-93 | An input change sets only the named field; every other field keeps its value |
| ProspectTable.EditClick | src/components/ProspectList.js:57-60 | Editing a row marks it as the row being edited and fills the form from it |
| ProspectTable.SaveClick | src/components/ProspectList.js:62-71 | A save writes the whole form for the row's id. Only an accepted write leaves edit mode and closes the menu; a refused write changes nothing |
| ProspectTable.CancelClick | src/components/ProspectList.js:73-76 | Cancelling leaves edit mode and closes the menu, keeping the form |
| ProspectTable.RowClick | src/components/ProspectList.js:95-108 | A row click is ignored while a row is edited. Otherwise it opens the drawer on the prospect's document with its agent resolved. It does nothing when the document is gone, or when the agent reference throws |
| ProspectTable.RowClickOpensIff | src/components/ProspectList.js:95-108 | From a closed drawer, a click opens it exactly when no row is edited, the document exists and its agent id makes a valid reference; an empty agent id never opens it |
| ProspectTable.SaveAfterEditWritesRowExtras | src/components/ProspectList.js:57-65 | Saving right after starting an edit writes back the row's id and merged agent object along with its fields |
| ProspectTable.CloseDrawer | src/components/ProspectList.js:110-113 | Closing the drawer clears the selection |
| ProspectTable.MenuActions | src/components/ProspectList.js:240-276 | An auditor is offered neither edit, save nor delete. Any other role gets delete, plus save while the row is edited or edit otherwise. Cancel is offered exactly while the row is edited |
| ProspectTable.CheckIconClick | src/components/ProspectList.js:219-228 | A click on the check icon of the row being edited writes the whole form and toggles the row's menu at once. An accepted write then leaves edit mode and closes the menu; a refused one leaves the toggled menu and the edit mode as they are |
| ProspectTable.CheckIconOpensMenuUntilSaved | src/components/ProspectList.js:219-228 | Saving through the icon with the menu closed opens the menu, which stays open over the row in edit mode when the write is refused. The result differs from the menu's own save button exactly on a refused write |
| ProspectTable.MenuEntryClick | src/components/ProspectList.js:220-276 | Any menu entry click closes the menu. Edit starts editing the row, cancel leaves edit mode, and save leaves it only when the store accepts the write |
| ProspectTable.EditOptionsAreTheStages | src/components/ProspectList.js:196-200 | The edit-mode state select offers exactly the five stage ids, in board order, each recognised by the board |
| CategorySlug.ReplaceRuns | src/components/CategoryModal.js:12 | Replacing white-space runs leaves no white space and never lengthens the text |
| CategorySlug.ReplaceRunsFixesWord | src/components/CategoryModal.js:12 | Text without white space passes through the replacement unchanged |
| CategorySlug.Slug | src/components/CategoryModal.js:12 | A slug has no white space and no upper-case letter, and is no longer than the trimmed name |
| CategorySlug.SlugHasNoSpace | src/components/CategoryModal.js:12 | No character of a slug is white space |
| CategorySlug.SlugEmptyIffBlank | src/components/CategoryModal.js:12 | The slug is empty exactly when the name is empty or all white space |
| CategorySlug.SlugIdempotent | src/components/CategoryModal.js:12 | Slugging a slug returns it unchanged |
| CategorySlug.SlugNoLonger | src/components/CategoryModal.js:12 | For ASCII names the slug is never longer than the name |
| CategorySlug.SlugJoinsWords | src/components/CategoryModal.js:12 | The slug equals the lower-cased name's white-space separated words joined by single hyphens, a definition independent of the replacement |
| CategorySlug.NameChange | src/components/CategoryModal.js:9-14 | A name change keeps the name verbatim and the slug in step with it |
| CategorySlug.TypingKeepsInSync | src/components/CategoryModal.js:9-14 | Whatever is typed, the form's slug is the slug of the name it shows, and the name is the last value typed |
| CategorySlug.SlugHint | src/components/CategoryModal.js:47 | The hint shows the slug, or a sample slug while the slug is empty |
| CategorySlug.Submit | src/components/CategoryModal.js:16-30 | An empty name is blocked by the browser. Otherwise the record holds the name verbatim and the current slug, and the form closes only when the store accepts it |
| CategorySlug.BlankNameSubmitsEmptySlug | src/components/CategoryModal.js:12-23 | A name of white space only passes the browser check and submits an empty slug |
| Catalog.Ids | src/components/ProductSelectionModal.js:26 | The ids of a product list, position by position |
| Catalog.Search | src/components/ProductsPage.js:117-124 | The search result lies within the catalog and holds only matching products |
| Catalog.SearchKeepsExactlyMatches | src/components/ProductsPage.js:117-122 | A product is kept exactly when the lower-cased query occurs in its lower-cased name, or in its category or brand name when that is present |
| Catalog.SearchIsSubsequence | src/components/ProductsPage.js:118 | The search result keeps the catalog's order |
| Catalog.EmptyQueryKeepsAll | src/components/ProductsPage.js:118-119 | An empty query keeps every product |
| Catalog.SearchByName | src/components/GlobalDiscountModal.js:14-17 | The name-only search keeps exactly the products whose lower-cased name contains the lower-cased query |
| Catalog.NameSearchWithinSearch | src/components/GlobalDiscountModal.js:14-17 | A name-only match is also a catalog-search match |
| Grouping.AddTo | src/components/CatalogPDFCreator.js:123-124 | A reduce step never removes a bucket |
| Grouping.AddToLabels | src/components/CatalogPDFCreator.js:123 | A reduce step keeps the existing headings in place and appends its heading when it is new |
| Grouping.AddToItems | src/components/CatalogPDFCreator.js:123-124 | A reduce step appends the element to its own heading's bucket and leaves every other bucket alone |
| Grouping.GroupBy | src/components/CatalogPDFCreator.js:121-126 | Each heading's bucket holds exactly the elements with that heading, in input order. The headings are the distinct labels in order of first occurrence |
| Grouping.FirstOccurrences | src/components/CatalogPDFCreator.js:123 | The headings created hold every label once and nothing else |
| Grouping.BucketIsFilter | src/components/CatalogPDFCreator.js:124 | A bucket holds exactly the elements carrying its heading, in input order |
| Grouping.HeadingsAreKeys | src/components/CatalogPDFCreator.js:121-126 | The headings are exactly the labels some element carries, each once |
| Grouping.GroupMembership | src/components/CatalogPDFCreator.js:121-126 | An element lies in a bucket exactly when it is in the input and carries the bucket's heading |
| Grouping.GroupIsWellLabelled | src/components/CatalogPDFCreator.js:124 | Every element of every bucket carries that bucket's heading |
| Grouping.FlattenIsPermutation | src/components/CatalogPDFCreator.js:128-165 | Visiting bucket by bucket yields every input element exactly as often as the input holds it |
| Grouping.VisitOrder | src/components/CatalogPDFCreator.js:128-165 | The visit holds each element once, and the elements under one heading appear in input order |
| Grouping.FirstOccurrencesOrder | src/components/CatalogPDFCreator.js:128 | The distinct labels are listed in the order of their first occurrence |
| Grouping.BucketsInFirstOccurrenceOrder | src/components/CatalogPDFCreator.js:128 | Buckets are visited in the order their labels first occur in the input |
| CatalogPdf.FindCategory | src/components/CatalogPDFCreator.js:122 | The category found has the product's category id. None is found exactly when no category has that id |
| CatalogPdf.FindCategoryIsFirst | src/components/CatalogPDFCreator.js:122 | The category found is the earliest one with that id |
| CatalogPdf.CategoryLabel | src/components/CatalogPDFCreator.js:122 | A product's heading is the first matching category's name when that name is non-empty, and "Sin categoría" otherwise |
| CatalogPdf.LabelIsANameOrFallback | src/components/CatalogPDFCreator.js:122 | A heading is a category name or the fallback; a product with no category reference, or with no matching category, is grouped under the fallback |
| CatalogPdf.ProductsByCategory | src/components/CatalogPDFCreator.js:121-126 | Each heading's group holds exactly the products with that heading, in input order |
| CatalogPdf.EachProductInOneGroup | src/components/CatalogPDFCreator.js:121-126 | A product lies in a group exactly when its heading is that group's, and the headings are distinct, so every product lands in exactly one group |
| CatalogPdf.RenderOrder | src/components/CatalogPDFCreator.js:128-165 | The products drawn are the products passed in, each exactly once |
| CatalogPdf.RenderKeepsOrderWithinHeading | src/components/CatalogPDFCreator.js:139-165 | Under each heading the products are drawn in their input order |
| CatalogPdf.HeadingsInFirstProductOrder | src/components/CatalogPDFCreator.js:128-137 | Headings are drawn in the order their first product occurs in the input |
| CatalogPdf.PdfProducts | src/components/CatalogPDFCreator.js:186-195 | The complete-catalog button draws the component's product list; the custom path draws the selection the modal hands over |
| ProductsPage.SearchEffect | src/components/ProductsPage.js:117-124 | The shown list becomes exactly the products matching the query, in catalog order; nothing else changes |
| ProductsPage.ReceiveSnapshot | src/components/ProductsPage.js:93-101 | A snapshot replaces the list. The shown list is then the snapshot's matching products, which is the whole snapshot for an empty query |
| ProductsPage.QueryChange | src/components/ProductsPage.js:443-448 | Typing changes the query, and the shown list follows it |
| ProductsPage.ListRun | src/components/ProductsPage.js:93-124 | With no events the page is unchanged |
| ProductsPage.AlwaysShowsSearch | src/components/ProductsPage.js:93-124 | Whatever snapshots and keystrokes arrive, the shown list is the search of the latest list for the latest query, and the whole list when the query is empty |
| ProductsPage.InitialPageShowsSearch | src/components/ProductsPage.js:93-124 | The empty page starts out showing the search of its list |
| ProductsPage.ToggleHandler | src/components/ProductsPage.js:66-72 | Each toggle flips only its own dropdown; other targets have no handler |
| ProductsPage.OutsideClick | src/components/ProductsPage.js:74-79 | A click outside every dropdown panel closes both dropdowns; a click inside one changes nothing |
| ProductsPage.Click | src/components/ProductsPage.js:66-91 | A click never touches the product list, the shown list or the query |
| ProductsPage.ClickOutcomes | src/components/ProductsPage.js:66-91 | A click inside a panel changes nothing. While a dropdown is open, any other click, a toggle included, closes both. With both closed, a toggle opens only its own dropdown and any other click changes nothing |
| ProductsPage.ClickRun | src/components/ProductsPage.js:66-91 | With no clicks the page is unchanged |
| ProductsPage.ClicksKeepAtMostOneOpen | src/components/ProductsPage.js:66-91 | No sequence of clicks opens both dropdowns at once, and no click changes the shown list |
| ProductsPage.MenuCatalogGroups | src/components/ProductsPage.js:462 | The menu's complete catalog groups every loaded product, whatever the query, each exactly once under its heading |
| ProductsPage.CustomCatalogGroups | src/components/ProductsPage.js:523-529 | The custom catalog groups exactly the products the selection modal hands over |
| ProductsPage.CatalogComponentDrawsShownList | src/components/ProductsPage.js:530 | The catalog component's complete button draws the products matching the current query, and every product when the query is empty |
| ProductSelection.QueryResults | src/components/ProductSelectionModal.js:12-23 | A query that trims to nothing lists no results; any other query lists the catalog search for the untrimmed query |
| ProductSelection.ResultsOnlyForNonBlankQuery | src/components/ProductSelectionModal.js:12-23 | A white-space-only query lists nothing. A query with a visible character lists exactly the matching products |
| ProductSelection.ProductsChanged | src/components/ProductSelectionModal.js:8-23 | A new product list recomputes the results for the current query and keeps the query and the selection |
| ProductSelection.QueryChanged | src/components/ProductSelectionModal.js:12-23 | Typing recomputes the results for the new query and keeps the selection |
| ProductSelection.ProductClick | src/components/ProductSelectionModal.js:25-31 | Clicking a product whose id is already selected leaves the selection alone; any other product is appended. Both the results and the query are cleared |
| ProductSelection.ClickKeepsIdsDistinct | src/components/ProductSelectionModal.js:25-28 | A click keeps the selection free of repeated ids, and afterwards the clicked id is selected |
| ProductSelection.RemoveProduct | src/components/ProductSelectionModal.js:33-35 | Removal deletes every entry with that id, keeps the others in order, and touches nothing else |
| ProductSelection.RemoveKeepsIdsDistinct | src/components/ProductSelectionModal.js:33-35 | Removal keeps the selection free of repeated ids |
| ProductSelection.Generate | src/components/ProductSelectionModal.js:37-40 | Generating hands over exactly the current selection and closes the modal |
| ProductSelection.Run | src/components/ProductSelectionModal.js:8-40 | With no actions the modal is unchanged |
| ProductSelection.OpenedModalNeverRepeatsIds | src/components/ProductsPage.js:523-529 | The modal is mounted afresh on each opening, so it starts from an empty selection, and whatever follows never hands over a repeated id |
| ProductSelection.SelectionNeverRepeatsIds | src/components/ProductSelectionModal.js:8-40 | Whatever the user does, the selection handed to the PDF generator never repeats an id |
| GlobalDiscount.SearchEffect | src/components/GlobalDiscountModal.js:12-24 | A non-empty query lists the name matches and opens the dropdown. An empty query lists nothing and closes it |
| GlobalDiscount.QueryChanged | src/components/GlobalDiscountModal.js:105-111 | Typing sets the query, and the search effect follows |
| GlobalDiscount.ExclusionSearchFindsNameMatches | src/components/GlobalDiscountModal.js:12-24 | After typing a non-empty query, the listed products are exactly the catalog products whose name contains it, ignoring case |
| GlobalDiscount.AddExcluded | src/components/GlobalDiscountModal.js:26-31 | Choosing a result appends it even when it is already excluded, and clears the query, the results and the dropdown |
| GlobalDiscount.AddExcludedSettles | src/components/GlobalDiscountModal.js:12-31 | The search effect that follows the cleared query leaves the cleared state as it is |
| GlobalDiscount.RemoveExcluded | src/components/GlobalDiscountModal.js:33-35 | Removal drops every excluded entry with that id, keeps the rest in order, and changes nothing else |
| GlobalDiscount.RemoveUndoesAdd | src/components/GlobalDiscountModal.js:26-35 | Adding a product and then removing its id leaves no entry with that id, and the other entries are as before |
| GlobalDiscount.DiscountWrites | src/components/GlobalDiscountModal.js:40-49 | One write per eligible stored product: its old discount list, or none, with the new discount appended last. Ineligible products get no write |
| GlobalDiscount.WholeNumberTextByParts | src/components/GlobalDiscountModal.js:81-86 | The percentage input (type number, no step, no min) lets a signed run of digits through exactly when it is non-empty, and digits, a point and digits exactly when the digits after the point are present and all 0 |
| GlobalDiscount.WholeNumberTextAcceptsWhole | src/components/GlobalDiscountModal.js:81-86 | The percentage input accepts 12 and -3 |
| GlobalDiscount.WholeNumberTextAcceptsZeroFraction | src/components/GlobalDiscountModal.js:81-86 | The percentage input accepts 12.0 and .0 |
| GlobalDiscount.WholeNumberTextRefusesOthers | src/components/GlobalDiscountModal.js:81-86 | The percentage input refuses 12.5, which is off the step of 1, and also the empty text, a lone minus sign and `1.` |
| GlobalDiscount.Submit | src/components/GlobalDiscountModal.js:37-86 | The browser blocks the submit when the concept is empty, or the percentage is empty or not a whole number. A failed product read writes nothing. Otherwise the writes are issued for the discount `{concept, percentage}` taken from the form |
| GlobalDiscount.FractionalPercentageIsBlocked | src/components/GlobalDiscountModal.js:62-86 | A 12.5 percentage is refused by the browser, so no discount is written, while 12 and 12.0 are sent |
| GlobalDiscount.ApplyWrites | src/components/GlobalDiscountModal.js:45-47 | Landing the writes keeps every product in place under its id |
| GlobalDiscount.AppliedDiscountLandsOnEligibleOnly | src/components/GlobalDiscountModal.js:43-47 | For a non-empty concept and a whole-number percentage, the form is applied, and after the writes land, an eligible product's discount list is its old list with the new discount last, and any other product is exactly as it was |
| GlobalDiscount.NoCategoryChosen | src/components/GlobalDiscountModal.js:43 | With no category chosen, a product without a category field gets the discount, and a product whose category field is empty does not |
| GlobalDiscount.ExcludedProductGetsNoWrite | src/components/GlobalDiscountModal.js:43 | An excluded product never receives a write, whatever its category |
| DiscountEditing.AddDiscount | src/components/EditProductModal.js:178-184 | With both inputs non-empty, the discount is appended last, the earlier entries stay, and both inputs clear. With either input empty, nothing changes |
| DiscountEditing.WithoutIndex | src/components/EditProductModal.js:187 | Filtering by position never lengthens the list |
| DiscountEditing.WithoutIndexMissing | src/components/EditProductModal.js:187 | Filtering out a position the list does not have leaves it as it is |
| DiscountEditing.WithoutIndexRemoves | src/components/EditProductModal.js:187 | Filtering out a position the list has removes exactly that element |
| DiscountEditing.EditRemove | src/components/EditProductModal.js:186-189 | The edit form's removal deletes exactly the element at the index and keeps the others in order. An index outside the list changes nothing |
| DiscountEditing.ModalRemove | src/components/ProductModal.js:142-146 | The creation form's removal deletes exactly the element at an index inside the list, deletes from the end for a negative index, and ignores an index past the end |
| DiscountEditing.RemovalsAgreeOnRenderedPositions | src/components/ProductModal.js:142-146 | At every rendered position the two forms' removals agree; they differ for index -1, where only `splice` removes the last discount |
| DiscountEditing.RemoveUndoesAdd | src/components/ProductModal.js:134-146 | In either form, removing the discount just added restores the list as it was |
| DiscountEditing.RemoveKeepsOthers | src/components/EditProductModal.js:186-189 | Removal takes out exactly the element at the index, and the others keep their relative order |
| EditProduct.OrEmpty | src/components/EditProductModal.js:42-45 | A truthy field keeps its text; a missing or empty field gives the empty string |
| EditProduct.NutritionForm | src/components/EditProductModal.js:42-45 | Each nutritional input shows the stored field, or the empty string when the field or the whole block is missing |
| EditProduct.InitEditForm | src/components/EditProductModal.js:34-46 | The form copies the product's fields. A missing discount list becomes the empty list, the discount inputs start empty, and both selects start read-only |
| EditProduct.StartEditingCategory | src/components/EditProductModal.js:247-248 | The change button shows the category select and changes nothing else |
| EditProduct.StartEditingBrand | src/components/EditProductModal.js:276-277 | The change button shows the brand select and changes nothing else |
| EditProduct.AddDiscountToForm | src/components/EditProductModal.js:178-184 | The add button changes only the discount list and its inputs |
| EditProduct.RemoveDiscountFromForm | src/components/EditProductModal.js:186-189 | The remove link deletes exactly the discount at the index and nothing else in the form; an index outside the list changes nothing |
| EditProduct.Payload | src/components/EditProductModal.js:140-154 | The update holds exactly the name, description, price, category, brand, image URL, the four nutritional fields and the discount list, taken from the form |
| EditProduct.Submit | src/components/EditProductModal.js:107-162 | The browser blocks a form with an empty name, description or price, or with an empty select that is being edited. A failed upload writes nothing. Without a new image the form's URL is written back, with one the uploaded URL. The form closes only when the store accepts the update |
| EditProduct.ApplyEdit | src/components/EditProductModal.js:140-154 | An update replaces the written fields and keeps the id and the stored category and brand names |
| EditProduct.NoNewImageKeepsUrl | src/components/EditProductModal.js:111-133 | Saving without a new image writes the product's own image URL back unchanged |
| EditProduct.UntouchedEditRoundTrips | src/components/EditProductModal.js:34-46 | A product whose nutritional fields and discount list are all present, empty strings included, comes back unchanged from an untouched save |
| EditProduct.UntouchedEditIsIdempotent | src/components/EditProductModal.js:34-46 | A second untouched save changes nothing after the first one |
| EditProduct.AddedDiscountIsWrittenLast | src/components/EditProductModal.js:178-184 | After an add, the update carries the stored discount list, or none, with the new discount last |
| NewProduct.ResetForm | src/components/ProductModal.js:116-132 | The reset form has every input empty, no image, no progress and no discounts |
| NewProduct.AddDiscountToNew | src/components/ProductModal.js:134-140 | The add button changes only the discount list and its inputs, appending only when both inputs are non-empty |
| NewProduct.RemoveDiscountFromNew | src/components/ProductModal.js:142-146 | The remove link changes only the discount list, deleting exactly the discount at an index inside the list |
| NewProduct.Record | src/components/ProductModal.js:85-101 | The added document maps the selected category and brand to `category` and `brand`, copies every other field from the form, and starts with no orders |
| NewProduct.Submit | src/components/ProductModal.js:53-110 | The browser blocks a form with any required control empty. A failed upload adds nothing. Without an image the document carries the empty URL. A successful add resets the form, and a failed one keeps it |
| NewProduct.StoredProduct | src/components/ProductModal.js:85-101 | The product read back carries the record's fields and ids, but no category or brand name |
| NewProduct.NoImageGivesEmptyUrl | src/components/ProductModal.js:57-100 | A product created without an image is stored with the empty image URL and no orders |
| NewProduct.CreatedProductFoundByNameOnly | src/components/ProductModal.js:85-101 | The catalog search finds a newly created product only through its name |
| NewProduct.CreatedProductEditsAsEntered | src/components/ProductModal.js:85-101 | Opening a created product in the edit form shows the name, description, price, category, brand, nutritional inputs and discounts as they were entered |
| NewProduct.ResetFormIsRefused | src/components/ProductModal.js:102-105 | After a successful creation, the reset form would be refused until it is filled in again. The form is never resubmitted as it is, since the modal closes right after the reset and the products page unmounts it (ProductsPage.js:516) |

## Left out

- Firestore, Storage, Auth and the relay server are not modelled. Reads, upload results and write acknowledgements are parameters, and writes are returned as values.
- The store's own checks are not modelled. For example, the store rejects a document holding an undefined field, so an edit of a product with no category would be refused; here every update is as good as the acknowledgement passed in.
- Each prospect's agent document is looked up separately for each snapshot. Here the users collection is one map for the whole snapshot, and a failed lookup is not modelled. Building the reference can still throw; that is modelled.
- ProspectTable.ResolveAgent: a valid agent id of three or more segments names a document below a user document. That is not a user document, so the model gives it the placeholder.
- The category and brand name look-ups of the edit form are left out; their names are display-only.
- Unawaited work is taken in program order. This covers the global discount's per-product writes and the upload callbacks. Interleavings and partial failure are not modelled.
- `getDownloadURL` failing after a finished upload is folded into `UploadFailed`.
- Upload progress is left out. It is floating-point arithmetic.
- Floating-point arithmetic is not modelled: discounted prices, dashboard percentages (only their denominators are), and the numeric value of number inputs. Prices and percentages are kept as the text the inputs hold; only the global-discount percentage's step check is modelled, on that text.
- The PDF layout is left out: coordinates, page breaks, images and banners. Only which products are drawn, and in what order, is modelled.
- The CSV import and the other context screens (login, users, brands, layout, routing) are not part of this model.
- Case mapping and white space are ASCII-only plus the JavaScript white-space set, with no Unicode case folding. The e-mail format check of the prospect form is not modelled.
- Plain-object key order is taken to be insertion order. JavaScript lists integer-like keys first, and names such as `constructor` or `__proto__` collide with `Object.prototype`. Neither is modelled for the dashboard's or the PDF's keys. The board's snapshot loop does model the collision (`Funnel.Collect`).
- Select values are taken to be among the offered options.
- The detail drawer's rendering and the prospect delete are left out. Delete is modelled as leaving the table state alone.
- There are two selection modals. The products page mounts its own only while it is open, so each opening starts from `ProductSelection.InitialSelection`. The catalog component's modal stays mounted and only hides, so its query, results and selection survive closing, reopening and generating. Opening and closing are not modelled as transitions; a resumed state is any state free of repeated ids.
- Funnel.OnDragEnd: the drag library is taken to report only the five rendered column ids, so droppable ids are modelled as stages.
- Funnel.OnDragEnd: in the same-column case both copies share the moved object, so the restamp is applied to both. Since the card already carries that state, the restamp changes nothing.
- Funnel.OnDragEnd: a write the store refuses is not rolled back, and nothing in the source does so.
- Funnel.Bucket: board order is not carried across snapshots. The board is rebuilt from every snapshot, as the source does.
- Dashboard.WithShares: records only the denominator each percentage uses, not the rounded percentage.
- GlobalDiscount.Submit: a percentage in exponent notation (such as `1e1`) is refused here, while the browser accepts it when its value is whole. A decimal too long for a double to tell apart from a whole number, such as `1.0000000000000001`, is refused here, while the browser rounds it and accepts it.
- GlobalDiscount.Submit: models the Enviar button only. The exclusion list's "x" buttons and "Cancelar" carry no `type`, so they are submit buttons of the form too (GlobalDiscountModal.js:134-139, 146), and they come before Enviar. Pressing Enter in a field clicks the first of them: it removes the first exclusion, or closes the modal when there is none. The form submit that such a click may also start is not modelled.
- NewProduct.Submit: requires the upload result to match whether a file was chosen. A chosen file always starts an upload, and no file never does.

## Findings

| source | as written | input that shows it | evidently intended | confidence | as-written member | corrected member |
|---|---|---|---|---|---|---|
| src/components/Funnel.js:57-68 | The source and destination columns are copied separately, even when they are the same column. The card is spliced out of the first copy and into the second, and the second copy is stored last. | `entrante` holds cards p, q; drag p from index 0 to index 1 of `entrante`; the column becomes p, p, q | Reorder inside one column, ending with q, p and keeping two cards | not executed | Funnel.SameColumnDuplicatesCard, Funnel.SameColumnCounterexample | Funnel.ReorderingOnDragEnd, Funnel.ReorderingConservesCards |

=== FILE: base.dfy ===
/** Shared building blocks: an optional value, order-preserving filtering,
    subsequences, and the index arithmetic of JavaScript's `Array.prototype.splice`. */
module Base {

  /** A value that may be absent (a missing document field, `null`, `undefined`). */
  datatype Option<T> = None | Some(value: T)

  /** JavaScript truthiness of an optional string field: present and non-empty. */
  predicate Truthy(o: Option<string>) {
    o.Some? && o.value != ""
  }

  /** The outcome of an upload to object storage that a form may start before it writes its record. */
  datatype Upload = NoFile | Uploaded(url: string) | UploadFailed

  /** `Array.prototype.filter`: keeps the elements satisfying `p`, in their original order. */
  function Filter<T>(xs: seq<T>, p: T -> bool): (r: seq<T>)
    ensures |r| <= |xs|
    ensures forall i :: 0 <= i < |r| ==> r[i] in xs && p(r[i])
    ensures forall i :: 0 <= i < |xs| && p(xs[i]) ==> xs[i] in r
  {
    if xs == [] then []
    else (if p(xs[0]) then [xs[0]] else []) + Filter(xs[1..], p)
  }

  /** `a` can be obtained from `b` by deleting elements (greedy matching decides this exactly). */
  predicate IsSubsequence<T(==)>(a: seq<T>, b: seq<T>)
    decreases |b|
  {
    if a == [] then true
    else if b == [] then false
    else if a[0] == b[0] then IsSubsequence(a[1..], b[1..])
    else IsSubsequence(a, b[1..])
  }

  lemma {:induction false} FilterIsSubsequence<T>(xs: seq<T>, p: T -> bool)
    ensures IsSubsequence(Filter(xs, p), xs)
  {
    if xs != [] {
      FilterIsSubsequence(xs[1..], p);
      var r := Filter(xs, p);
      if p(xs[0]) {
        assert r == [xs[0]] + Filter(xs[1..], p);
        assert r[0] == xs[0] && r[1..] == Filter(xs[1..], p);
      } else {
        assert r == Filter(xs[1..], p);
        SubsequenceOfTail(r, xs);
      }
    }
  }

  /** A subsequence of the tail is a subsequence of the whole. */
  lemma {:induction false} SubsequenceOfTail<T>(a: seq<T>, b: seq<T>)
    requires b != [] && IsSubsequence(a, b[1..])
    ensures IsSubsequence(a, b)
    decreases |b|, |a|
  {
    if a != [] && a[0] == b[0] {
      SubsequenceDropHead(a, b[1..]);
    }
  }

  /** Removing the first element of `a` keeps it a subsequence. */
  lemma {:induction false} SubsequenceDropHead<T>(a: seq<T>, b: seq<T>)
    requires a != [] && IsSubsequence(a, b)
    ensures IsSubsequence(a[1..], b)
    decreases |b|, |a|
  {
    if a[0] == b[0] {
      if a[1..] != [] {
        SubsequenceOfTail(a[1..], b);
      }
    } else {
      SubsequenceDropHead(a, b[1..]);
      if a[1..] != [] {
        SubsequenceOfTail(a[1..], b);
      }
    }
  }

  /** Filtering distributes over concatenation. */
  lemma {:induction false} FilterAppend<T>(a: seq<T>, b: seq<T>, p: T -> bool)
    ensures Filter(a + b, p) == Filter(a, p) + Filter(b, p)
  {
    if a == [] {
      assert a + b == b;
    } else {
      assert (a + b)[0] == a[0];
      assert (a + b)[1..] == a[1..] + b;
      FilterAppend(a[1..], b, p);
    }
  }

  /** Filtering one more element at the end appends it iff it qualifies (the shape of a `forEach`/`reduce` step). */
  lemma FilterSnoc<T>(xs: seq<T>, x: T, p: T -> bool)
    ensures Filter(xs + [x], p) == Filter(xs, p) + (if p(x) then [x] else [])
  {
    FilterAppend(xs, [x], p);
    assert Filter([x], p) == (if p(x) then [x] else []) + Filter([], p);
  }

  /** An element survives a filter exactly when it is in the input and passes. */
  lemma FilterMembership<T>(xs: seq<T>, p: T -> bool)
    ensures forall x :: x in Filter(xs, p) <==> x in xs && p(x)
  {
    forall x | x in xs && p(x)
      ensures x in Filter(xs, p)
    {
      var i :| 0 <= i < |xs| && xs[i] == x;
    }
  }

  /** A filter that every element passes returns its input. */
  lemma {:induction false} FilterKeepsAll<T>(xs: seq<T>, p: T -> bool)
    requires forall i :: 0 <= i < |xs| ==> p(xs[i])
    ensures Filter(xs, p) == xs
  {
    if xs != [] {
      FilterKeepsAll(xs[1..], p);
    }
  }

  /** A filter that no element passes returns nothing. */
  lemma {:induction false} FilterKeepsNone<T>(xs: seq<T>, p: T -> bool)
    requires forall i :: 0 <= i < |xs| ==> !p(xs[i])
    ensures Filter(xs, p) == []
  {
    if xs != [] {
      FilterKeepsNone(xs[1..], p);
    }
  }

  /** No value occurs twice. */
  predicate Distinct<T(==)>(s: seq<T>) {
    forall i, j :: 0 <= i < j < |s| ==> s[i] != s[j]
  }

  /** Putting a value that does not occur in front keeps a sequence free of repeats. */
  lemma DistinctCons<T>(x: T, s: seq<T>)
    requires Distinct(s) && x !in s
    ensures Distinct([x] + s)
  {
    forall i, j | 0 <= i < j < |[x] + s|
      ensures ([x] + s)[i] != ([x] + s)[j]
    {
      if i > 0 {
        assert ([x] + s)[i] == s[i - 1];
      }
      assert ([x] + s)[j] == s[j - 1];
    }
  }

  /** In a sequence free of repeats, the head does not recur in the tail, and the tail is free of
      repeats too. */
  lemma DistinctUncons<T>(s: seq<T>)
    requires Distinct(s) && s != []
    ensures s[0] !in s[1..] && Distinct(s[1..])
  {
    forall k | 0 <= k < |s[1..]|
      ensures s[1..][k] != s[0]
    {
      assert s[1..][k] == s[k + 1];
    }
  }

  /** `Array.prototype.splice`'s normalisation of its start argument for an array of length `len`. */
  function SpliceStart(len: nat, start: int): (k: nat)
    ensures k <= len
    ensures 0 <= start <= len ==> k == start
    ensures start > len ==> k == len
    ensures -(len as int) <= start < 0 ==> k == len + start
    ensures start < -(len as int) ==> k == 0
  {
    if start < 0 then (if len + start < 0 then 0 else len + start)
    else if start > len then len
    else start
  }

  /** `xs.splice(start, 1)` applied to a copy: the array that remains. */
  function SpliceRemoveOne<T>(xs: seq<T>, start: int): (r: seq<T>)
    ensures SpliceStart(|xs|, start) < |xs| ==> |r| == |xs| - 1
    ensures SpliceStart(|xs|, start) == |xs| ==> r == xs
  {
    var k := SpliceStart(|xs|, start);
    if k < |xs| then xs[..k] + xs[k + 1..] else xs
  }

  /** `xs.splice(start, 0, x)` applied to a copy: `x` inserted at the normalised position. */
  function SpliceInsert<T>(xs: seq<T>, start: int, x: T): (r: seq<T>)
    ensures |r| == |xs| + 1
    ensures r[SpliceStart(|xs|, start)] == x
    ensures r[..SpliceStart(|xs|, start)] == xs[..SpliceStart(|xs|, start)]
    ensures r[SpliceStart(|xs|, start) + 1..] == xs[SpliceStart(|xs|, start)..]
  {
    var k := SpliceStart(|xs|, start);
    assert xs == xs[..k] + xs[k..];
    xs[..k] + [x] + xs[k..]
  }

  /** The sequence without the element at `i`. */
  function RemoveAt<T>(xs: seq<T>, i: nat): (r: seq<T>)
    requires i < |xs|
    ensures |r| == |xs| - 1
    ensures forall j :: 0 <= j < i ==> r[j] == xs[j]
    ensures forall j :: i <= j < |r| ==> r[j] == xs[j + 1]
  {
    xs[..i] + xs[i + 1..]
  }

  /** Inserting adds exactly one occurrence of the inserted element. */
  lemma SpliceInsertMultiset<T>(xs: seq<T>, start: int, x: T)
    ensures multiset(SpliceInsert(xs, start, x)) == multiset(xs) + multiset{x}
  {
    var k := SpliceStart(|xs|, start);
    assert xs == xs[..k] + xs[k..];
  }

  /** A sequence is its prefix followed by the rest. */
  lemma SplitAt<T>(s: seq<T>, k: nat)
    requires k <= |s|
    ensures s == s[..k] + s[k..]
  {
  }

  lemma AppendAssoc<T>(a: seq<T>, b: seq<T>, c: seq<T>)
    ensures a + (b + c) == (a + b) + c
  {
  }
}

=== FILE: catalog.dfy ===
/** The product catalog as the live queries deliver it, and the
    case-insensitive substring searches the catalog screens filter it with. */
module Catalog {
  import opened Base
  import opened Text

  /** One entry of a product's discount list; the percentage is kept as the text the form held. */
  datatype Discount = Discount(concept: string, percentage: string)

  /** The nutritional block of a product document; each field may be missing. */
  datatype NutritionDoc = NutritionDoc(
    servingsPerContainer: Option<string>,
    caloriesPerServing: Option<string>,
    proteinsPerServing: Option<string>,
    servingSize: Option<string>)

  /** A product document merged with its store id.  Prices are kept as opaque text: no price
      arithmetic is modelled. */
  datatype Product = Product(
    id: string,
    name: string,
    description: string,
    price: string,
    category: Option<string>,
    brand: Option<string>,
    categoryName: Option<string>,
    brandName: Option<string>,
    imageUrl: Option<string>,
    infoNutrimental: Option<NutritionDoc>,
    discounts: Option<seq<Discount>>)

  /** A category document merged with its store id; its name may be missing. */
  datatype Category = Category(id: string, name: Option<string>)

  /** The store ids of a list of products, in order. */
  function Ids(products: seq<Product>): (r: seq<string>)
    ensures |r| == |products|
    ensures forall i :: 0 <= i < |products| ==> r[i] == products[i].id
  {
    seq(|products|, i requires 0 <= i < |products| => products[i].id)
  }

  /** The ids of a product followed by a list. */
  lemma IdsCons(p: Product, ps: seq<Product>)
    ensures Ids([p] + ps) == [p.id] + Ids(ps)
  {
  }

  /** The ids of a list's tail are the tail of its ids. */
  lemma IdsTail(ps: seq<Product>)
    requires ps != []
    ensures Ids(ps[1..]) == Ids(ps)[1..]
  {
  }

  /** An id that no product of a list carries is carried by no product kept by a filter. */
  lemma IdAbsentFromFilter(ps: seq<Product>, p: Product -> bool, id: string)
    requires id !in Ids(ps)
    ensures id !in Ids(Filter(ps, p))
  {
    var r := Filter(ps, p);
    forall k | 0 <= k < |r|
      ensures Ids(r)[k] != id
    {
      var j :| 0 <= j < |ps| && ps[j] == r[k];
      assert Ids(ps)[j] == r[k].id;
    }
  }

  /** The selector of the products whose id is not `id`. */
  function OtherThan(id: string): Product -> bool {
    (p: Product) => p.id != id
  }

  /** Whether an optional text field is truthy and contains the lower-cased query, ignoring case. */
  predicate FieldMatches(field: Option<string>, query: string) {
    Truthy(field) && Contains(ToLower(field.value), ToLower(query))
  }

  /** The catalog search: the query, lower-cased, occurs in the lower-cased name, or in the
      category or brand name when those are present. */
  predicate Matches(p: Product, query: string) {
    || Contains(ToLower(p.name), ToLower(query))
    || FieldMatches(p.categoryName, query)
    || FieldMatches(p.brandName, query)
  }

  function MatchesQuery(query: string): Product -> bool {
    (p: Product) => Matches(p, query)
  }

  /** The search used by the exclusion picker: the product name only. */
  predicate NameMatches(p: Product, query: string) {
    Contains(ToLower(p.name), ToLower(query))
  }

  function NameMatchesQuery(query: string): Product -> bool {
    (p: Product) => NameMatches(p, query)
  }

  /** The products the catalog search keeps, in catalog order. */
  function Search(products: seq<Product>, query: string): (r: seq<Product>)
    ensures |r| <= |products|
    ensures forall i :: 0 <= i < |r| ==> r[i] in products && Matches(r[i], query)
  {
    Filter(products, MatchesQuery(query))
  }

  /** A product is kept exactly when it matches: the query occurs, ignoring case, at some position
      of its name, or of its category or brand name when present. */
  lemma SearchKeepsExactlyMatches(products: seq<Product>, query: string)
    ensures forall p :: p in Search(products, query) <==> p in products && Matches(p, query)
    ensures forall p :: Matches(p, query) <==>
      (exists k :: OccursAt(ToLower(p.name), ToLower(query), k))
      || (Truthy(p.categoryName) && exists k :: OccursAt(ToLower(p.categoryName.value), ToLower(query), k))
      || (Truthy(p.brandName) && exists k :: OccursAt(ToLower(p.brandName.value), ToLower(query), k))
  {
    forall p
      ensures Matches(p, query) <==>
        (exists k :: OccursAt(ToLower(p.name), ToLower(query), k))
        || (Truthy(p.categoryName) && exists k :: OccursAt(ToLower(p.categoryName.value), ToLower(query), k))
        || (Truthy(p.brandName) && exists k :: OccursAt(ToLower(p.brandName.value), ToLower(query), k))
    {
      ContainsIffOccurs(ToLower(p.name), ToLower(query));
      if Truthy(p.categoryName) {
        ContainsIffOccurs(ToLower(p.categoryName.value), ToLower(query));
      }
      if Truthy(p.brandName) {
        ContainsIffOccurs(ToLower(p.brandName.value), ToLower(query));
      }
    }
    forall p | p in Search(products, query)
      ensures p in products && Matches(p, query)
    {
      var i :| 0 <= i < |Search(products, query)| && Search(products, query)[i] == p;
    }
  }

  /** The search keeps the catalog's order: its result is a subsequence of the catalog. */
  lemma SearchIsSubsequence(products: seq<Product>, query: string)
    ensures IsSubsequence(Search(products, query), products)
  {
    FilterIsSubsequence(products, MatchesQuery(query));
  }

  /** An empty query keeps the whole catalog. */
  lemma EmptyQueryKeepsAll(products: seq<Product>)
    ensures Search(products, "") == products
  {
    forall i | 0 <= i < |products|
      ensures MatchesQuery("")(products[i])
    {
      ContainsEmpty(ToLower(products[i].name));
    }
    FilterKeepsAll(products, MatchesQuery(""));
  }

  /** The name-only search, in catalog order. */
  function SearchByName(products: seq<Product>, query: string): (r: seq<Product>)
    ensures forall i :: 0 <= i < |r| ==> r[i] in products && NameMatches(r[i], query)
    ensures forall i :: 0 <= i < |products| && NameMatches(products[i], query) ==> products[i] in r
  {
    Filter(products, NameMatchesQuery(query))
  }

  /** A name match is a catalog-search match, so the name-only search never finds more. */
  lemma NameSearchWithinSearch(products: seq<Product>, query: string)
    ensures forall p :: p in SearchByName(products, query) ==> p in Search(products, query)
  {
    forall p | p in SearchByName(products, query)
      ensures p in Search(products, query)
    {
      var i :| 0 <= i < |SearchByName(products, query)| && SearchByName(products, query)[i] == p;
      var j :| 0 <= j < |products| && products[j] == p;
    }
  }
}

=== FILE: catalog_pdf.dfy ===
/** The category grouping behind the catalog PDFs and the order in which the
    render loop visits products.  Page geometry, images and prices are not
    modelled: only which products are drawn, under which heading, in which order. */
module CatalogPdf {
  import opened Base
  import opened Catalog
  import opened Grouping

  /** The heading used for a product whose category is unknown or has no name. */
  const Uncategorised: string := "Sin categoría"

  /** The first category whose id equals the product's category reference (`Array.prototype.find`);
      a product without a category reference matches none. */
  function FindCategory(categories: seq<Category>, ref: Option<string>): (r: Option<Category>)
    ensures r.Some? ==> r.value in categories && Some(r.value.id) == ref
    ensures r.None? <==> forall i :: 0 <= i < |categories| ==> Some(categories[i].id) != ref
  {
    if categories == [] then None
    else if Some(categories[0].id) == ref then Some(categories[0])
    else FindCategory(categories[1..], ref)
  }

  /** `find` returns the earliest match: every category before the returned one has another id. */
  lemma {:induction false} FindCategoryIsFirst(categories: seq<Category>, ref: Option<string>)
    ensures var r := FindCategory(categories, ref);
      r.Some? ==> exists k :: (0 <= k < |categories| && categories[k] == r.value
        && forall j :: 0 <= j < k ==> Some(categories[j].id) != ref)
  {
    if categories != [] && Some(categories[0].id) != ref {
      FindCategoryIsFirst(categories[1..], ref);
      var r := FindCategory(categories, ref);
      if r.Some? {
        var k :| 0 <= k < |categories[1..]| && categories[1..][k] == r.value
          && forall j :: 0 <= j < k ==> Some(categories[1..][j].id) != ref;
        assert categories[k + 1] == r.value;
        assert forall j :: 0 <= j < k + 1 ==> Some(categories[j].id) != ref by {
          forall j | 0 <= j < k + 1
            ensures Some(categories[j].id) != ref
          {
            if j > 0 {
              assert categories[j] == categories[1..][j - 1];
            }
          }
        }
      }
    }
  }

  /** The heading a product is grouped under: the found category's name when that is non-empty,
      otherwise "Sin categoría". */
  function CategoryLabel(categories: seq<Category>, p: Product): (r: string)
    ensures var c := FindCategory(categories, p.category);
      r == if c.Some? && Truthy(c.value.name) then c.value.name.value else Uncategorised
  {
    match FindCategory(categories, p.category)
    case Some(c) => if Truthy(c.name) then c.name.value else Uncategorised
    case None => Uncategorised
  }

  function LabelOf(categories: seq<Category>): Product -> string {
    (p: Product) => CategoryLabel(categories, p)
  }

  /** The headings a product can get: a category's non-empty name, or the fallback; a product whose
      category reference matches no category gets the fallback. */
  lemma LabelIsANameOrFallback(categories: seq<Category>, p: Product)
    ensures CategoryLabel(categories, p) == Uncategorised
      || exists c :: c in categories && Truthy(c.name) && CategoryLabel(categories, p) == c.name.value
    ensures p.category.None? ==> CategoryLabel(categories, p) == Uncategorised
    ensures (forall c :: c in categories ==> Some(c.id) != p.category) ==> CategoryLabel(categories, p) == Uncategorised
  {
  }

  /** `productsByCategory`: the products grouped under their headings. */
  function ProductsByCategory(categories: seq<Category>, products: seq<Product>): (r: seq<Group<Product>>)
    ensures forall l :: ItemsFor(r, l) == Filter(products, WithKey(LabelOf(categories), l))
  {
    GroupBy(products, LabelOf(categories))
  }

  /** Every product lands in exactly one group: the one headed by its label; the headings are
      distinct and no group is empty. */
  lemma EachProductInOneGroup(categories: seq<Category>, products: seq<Product>, i: nat)
    requires i < |ProductsByCategory(categories, products)|
    ensures var gs := ProductsByCategory(categories, products);
      && Distinct(Labels(gs))
      && gs[i].items != []
      && forall p :: p in gs[i].items <==> p in products && CategoryLabel(categories, p) == gs[i].heading
  {
    HeadingsAreKeys(products, LabelOf(categories));
    GroupMembership(products, LabelOf(categories), i);
  }

  /** The products in the order the render loop draws them: group by group, in group order. */
  function RenderOrder(categories: seq<Category>, products: seq<Product>): (r: seq<Product>)
    ensures multiset(r) == multiset(products)
  {
    var gs := ProductsByCategory(categories, products);
    FlattenIsPermutation(products, LabelOf(categories));
    Flatten(gs)
  }

  /** The render loop draws the products under one heading in their input order. */
  lemma RenderKeepsOrderWithinHeading(categories: seq<Category>, products: seq<Product>, heading: string)
    ensures Filter(RenderOrder(categories, products), WithKey(LabelOf(categories), heading))
         == Filter(products, WithKey(LabelOf(categories), heading))
  {
    VisitOrder(products, LabelOf(categories), heading);
  }

  /** Headings are drawn in the order their first product occurs in the input. */
  lemma HeadingsInFirstProductOrder(categories: seq<Category>, products: seq<Product>)
    ensures InFirstOccurrenceOrder(Keys(products, LabelOf(categories)), Labels(ProductsByCategory(categories, products)))
  {
    BucketsInFirstOccurrenceOrder(products, LabelOf(categories));
  }

  /** The two ways the PDF component is asked to draw: its "complete catalog" button, or the
      selection handed over by its product-selection modal. */
  datatype PdfRequest = CompleteButton | FromSelection(selected: seq<Product>)

  /** The products the PDF component draws: its `products` prop for the complete button, the
      modal's selection otherwise. */
  function PdfProducts(prop: seq<Product>, request: PdfRequest): (r: seq<Product>)
    ensures request == CompleteButton ==> r == prop
    ensures request.FromSelection? ==> r == request.selected
  {
    match request
    case CompleteButton => prop
    case FromSelection(selected) => selected
  }
}

=== FILE: category_slug.dfy ===
/** The category form: the slug derived from the category name on every
    keystroke, and the record it submits. */
module CategorySlug {
  import opened Base
  import opened Text

  /** The global replacement of every maximal white-space run by a single '-'. */
  function ReplaceRuns(s: string): (r: string)
    ensures NoSpace(r)
    ensures |r| <= |s|
    decreases |s|
  {
    if s == [] then []
    else if IsSpace(s[0]) then
      var rest := TrimStart(s);
      assert |rest| < |s| by {
        assert IsSpace(s[0]);
      }
      "-" + ReplaceRuns(rest)
    else
      [s[0]] + ReplaceRuns(s[1..])
  }

  /** A string without white space passes through unchanged. */
  lemma {:induction false} ReplaceRunsFixesWord(s: string)
    requires NoSpace(s)
    ensures ReplaceRuns(s) == s
    decreases |s|
  {
    if s != [] {
      ReplaceRunsFixesWord(s[1..]);
      assert s == [s[0]] + s[1..];
    }
  }

  /** The replacement introduces no upper-case letter. */
  lemma {:induction false} ReplaceRunsKeepsLower(s: string)
    requires NoUpper(s)
    ensures NoUpper(ReplaceRuns(s))
    decreases |s|
  {
    if s != [] {
      if IsSpace(s[0]) {
        var rest := TrimStart(s);
        assert NoUpper(rest) by {
          forall i | 0 <= i < |rest|
            ensures !IsUpperAscii(rest[i])
          {
            assert rest[i] == s[|s| - |rest| + i];
          }
        }
        ReplaceRunsKeepsLower(rest);
      } else {
        ReplaceRunsKeepsLower(s[1..]);
      }
    }
  }

  /** The slug of a category name: trimmed, lower-cased, white-space runs joined by '-'. */
  function Slug(name: string): (r: string)
    ensures NoSpace(r) && NoUpper(r)
    ensures |r| <= |Trim(name)|
  {
    ReplaceRunsKeepsLower(ToLower(Trim(name)));
    ReplaceRuns(ToLower(Trim(name)))
  }

  /** A slug never contains white space. */
  lemma SlugHasNoSpace(name: string)
    ensures forall i :: 0 <= i < |Slug(name)| ==> !IsSpace(Slug(name)[i])
  {
  }

  /** The slug is empty exactly when the name is empty or all white space. */
  lemma {:induction false} SlugEmptyIffBlank(name: string)
    ensures Slug(name) == [] <==> forall i :: 0 <= i < |name| ==> IsSpace(name[i])
  {
    TrimEmptyIffAllSpace(name);
    var t := ToLower(Trim(name));
    if t != [] {
      assert !IsSpace(Trim(name)[0]);
      ToLowerKeepsSpaces(Trim(name));
      assert !IsSpace(t[0]);
      assert ReplaceRuns(t) == [t[0]] + ReplaceRuns(t[1..]);
    }
  }

  /** Slugging a slug returns it unchanged. */
  lemma SlugIdempotent(name: string)
    ensures Slug(Slug(name)) == Slug(name)
  {
    var s := Slug(name);
    TrimNoSpace(s);
    ToLowerFixesLower(s);
    ReplaceRunsFixesWord(s);
  }

  /** Lower-casing here maps each character to one character, so the slug is never longer than
      the name; for ASCII names this is also what the browser's lower-casing does. */
  lemma SlugNoLonger(name: string)
    requires IsAscii(name)
    ensures |Slug(name)| <= |name|
  {
  }

  /** The longest prefix of `s` without white space. */
  function FirstWord(s: string): (w: string)
    ensures |w| <= |s| && w == s[..|w|]
    ensures NoSpace(w)
    ensures |w| == |s| || IsSpace(s[|w|])
  {
    if s == [] || IsSpace(s[0]) then [] else [s[0]] + FirstWord(s[1..])
  }

  /** A string that starts without white space starts with a non-empty word. */
  lemma FirstWordOfWordStart(t: string)
    requires t != [] && !IsSpace(t[0])
    ensures FirstWord(t) != []
  {
  }

  /** A word followed by nothing or by white space is the first word. */
  lemma {:induction false} FirstWordBeforeSpace(w: string, rest: string)
    requires NoSpace(w)
    requires rest == [] || IsSpace(rest[0])
    ensures FirstWord(w + rest) == w
  {
    if w == [] {
      assert w + rest == rest;
    } else {
      assert (w + rest)[0] == w[0];
      assert (w + rest)[1..] == w[1..] + rest;
      FirstWordBeforeSpace(w[1..], rest);
      assert w == [w[0]] + w[1..];
    }
  }

  /** The white-space separated words of `s`, in order: the maximal runs without white space. */
  function Words(s: string): (ws: seq<string>)
    decreases |s|
  {
    var t := TrimStart(s);
    if t == [] then []
    else
      FirstWordOfWordStart(t);
      var w := FirstWord(t);
      [w] + Words(t[|w|..])
  }

  /** The words joined with `sep` between consecutive words. */
  function Join(ws: seq<string>, sep: string): (r: string)
    ensures ws == [] ==> r == []
  {
    if ws == [] then []
    else if |ws| == 1 then ws[0]
    else ws[0] + sep + Join(ws[1..], sep)
  }

  /** A prefix without white space passes through the run replacement unchanged. */
  lemma {:induction false} ReplaceRunsWordPrefix(w: string, rest: string)
    requires NoSpace(w)
    ensures ReplaceRuns(w + rest) == w + ReplaceRuns(rest)
  {
    if w != [] {
      var s := w + rest;
      assert s[0] == w[0] && !IsSpace(w[0]);
      assert ReplaceRuns(s) == [w[0]] + ReplaceRuns(s[1..]);
      assert s[1..] == w[1..] + rest;
      ReplaceRunsWordPrefix(w[1..], rest);
      calc {
        ReplaceRuns(s);
        [w[0]] + ReplaceRuns(w[1..] + rest);
        [w[0]] + (w[1..] + ReplaceRuns(rest));
        { assert w == [w[0]] + w[1..]; }
        w + ReplaceRuns(rest);
      }
    } else {
      assert w + rest == rest;
      assert w + ReplaceRuns(rest) == ReplaceRuns(rest);
    }
  }

  /** A non-empty white-space run before a string that does not start with white space becomes
      one '-'. */
  lemma ReplaceRunsSpacePrefix(sp: string, v: string)
    requires sp != [] && forall i :: 0 <= i < |sp| ==> IsSpace(sp[i])
    requires v == [] || !IsSpace(v[0])
    ensures ReplaceRuns(sp + v) == "-" + ReplaceRuns(v)
  {
    assert (sp + v)[0] == sp[0];
    TrimStartAfterSpaces(sp, v);
  }

  /** The words of a string that starts with a word: that word, then the words after it. */
  lemma WordsStep(t: string)
    requires t != [] && !IsSpace(t[0])
    ensures Words(t) == [FirstWord(t)] + Words(TrimStart(t[|FirstWord(t)|..]))
  {
    assert TrimStart(t) == t;
  }

  /** Leading white space does not change the words. */
  lemma WordsSkipLeadingSpace(s: string)
    ensures Words(s) == Words(TrimStart(s))
  {
    var t := TrimStart(s);
    TrimStartAfterSpaces([], t);
    assert [] + t == t;
  }

  /** Dropping trailing white space from a string that has a non-space character keeps everything
      in front of it. */
  lemma TrimEndKeepsPrefix(a: string, u: string)
    requires TrimEnd(u) != []
    ensures TrimEnd(a + u) == a + TrimEnd(u)
  {
    var v := TrimEnd(u);
    var sp := u[|v|..];
    assert u == v + sp;
    assert a + u == (a + v) + sp;
    TrimEndBeforeSpaces(a + v, sp);
  }

  /** A word, a white-space run and a string starting without white space: the run becomes '-'. */
  lemma ReplaceRunsWordSpace(w: string, sp: string, v: string)
    requires NoSpace(w)
    requires sp != [] && forall i :: 0 <= i < |sp| ==> IsSpace(sp[i])
    requires v == [] || !IsSpace(v[0])
    ensures ReplaceRuns(w + sp + v) == w + "-" + ReplaceRuns(v)
  {
    assert w + sp + v == w + (sp + v);
    ReplaceRunsWordPrefix(w, sp + v);
    ReplaceRunsSpacePrefix(sp, v);
  }

  /** Joining a word in front of a non-empty list puts one separator after it. */
  lemma JoinCons(w: string, ws: seq<string>, sep: string)
    requires ws != []
    ensures Join([w] + ws, sep) == w + sep + Join(ws, sep)
  {
    assert ([w] + ws)[1..] == ws;
  }

  /** A single word followed only by white space. */
  lemma JoinsSingleWord(w: string, sp: string)
    requires w != [] && NoSpace(w)
    requires forall i :: 0 <= i < |sp| ==> IsSpace(sp[i])
    ensures ReplaceRuns(TrimEnd(w + sp)) == Join(Words(w + sp), "-")
  {
    var t := w + sp;
    assert t[0] == w[0];
    FirstWordBeforeSpace(w, sp);
    assert t[|w|..] == sp;
    TrimStartAfterSpaces(sp, []);
    assert sp + [] == sp;
    WordsStep(t);
    assert Words([]) == [];
    assert Join([w], "-") == w;
    TrimEndBeforeSpaces(w, sp);
    ReplaceRunsFixesWord(w);
  }

  /** One step of the correspondence: a word, a white-space run, then a string whose words
      already correspond. */
  lemma JoinsWordsStep(w: string, sp: string, u: string)
    requires w != [] && NoSpace(w)
    requires sp != [] && forall i :: 0 <= i < |sp| ==> IsSpace(sp[i])
    requires u != [] && !IsSpace(u[0])
    requires ReplaceRuns(TrimEnd(u)) == Join(Words(u), "-")
    ensures ReplaceRuns(TrimEnd(w + sp + u)) == Join(Words(w + sp + u), "-")
  {
    var t := w + sp + u;
    assert t == w + (sp + u);
    assert t[0] == w[0];
    FirstWordBeforeSpace(w, sp + u);
    assert t[|w|..] == sp + u;
    TrimStartAfterSpaces(sp, u);
    WordsStep(t);
    assert Words(t) == [w] + Words(u);
    assert Words(u) != [] by {
      assert TrimStart(u) == u;
    }
    JoinCons(w, Words(u), "-");
    var v := TrimEnd(u);
    assert v != [] && v[0] == u[0];
    TrimEndKeepsPrefix(w + sp, u);
    ReplaceRunsWordSpace(w, sp, v);
  }

  /** What follows the first word, with the white space after it dropped. */
  function AfterFirstWord(t: string): (u: string)
    ensures |u| <= |t| - |FirstWord(t)|
  {
    TrimStart(t[|FirstWord(t)|..])
  }

  /** The correspondence for one string, as the induction below states it. */
  ghost predicate JoinsWords(t: string) {
    ReplaceRuns(TrimEnd(t)) == Join(Words(t), "-")
  }

  /** The base case: a single word, then only white space. */
  lemma JoinsWordsLastWord(t: string)
    requires t != [] && !IsSpace(t[0]) && AfterFirstWord(t) == []
    ensures JoinsWords(t)
  {
    var w := FirstWord(t);
    SplitAt(t, |w|);
    FirstWordOfWordStart(t);
    JoinsSingleWord(w, t[|w|..]);
  }

  /** The inductive case: a word, white space, and a string for which the correspondence holds. */
  lemma JoinsWordsMoreWords(t: string)
    requires t != [] && !IsSpace(t[0]) && AfterFirstWord(t) != []
    requires JoinsWords(AfterFirstWord(t))
    ensures JoinsWords(t)
  {
    var w := FirstWord(t);
    var rest := t[|w|..];
    var u := AfterFirstWord(t);
    var sp := rest[..|rest| - |u|];
    FirstWordOfWordStart(t);
    SplitAt(t, |w|);
    SplitAt(rest, |rest| - |u|);
    assert sp != [] by {
      assert IsSpace(t[|w|]);
      assert rest[0] == t[|w|];
    }
    AppendAssoc(w, sp, u);
    JoinsWordsStep(w, sp, u);
  }

  /** For a string that does not start with white space, replacing the runs of what remains after
      dropping the trailing white space joins its words with '-'. */
  lemma {:induction false} ReplaceRunsJoinsWords(t: string)
    requires t == [] || !IsSpace(t[0])
    ensures ReplaceRuns(TrimEnd(t)) == Join(Words(t), "-")
    decreases |t|
  {
    if t != [] {
      FirstWordOfWordStart(t);
      if AfterFirstWord(t) == [] {
        JoinsWordsLastWord(t);
      } else {
        ReplaceRunsJoinsWords(AfterFirstWord(t));
        JoinsWordsMoreWords(t);
      }
    }
  }

  /** Lower-casing and dropping leading white space commute. */
  lemma TrimStartLower(s: string)
    ensures TrimStart(ToLower(s)) == ToLower(TrimStart(s))
  {
    var t := TrimStart(s);
    var lead := s[..|s| - |t|];
    assert s == lead + t;
    ToLowerAppend(lead, t);
    ToLowerKeepsSpaces(lead);
    ToLowerKeepsSpaces(t);
    TrimStartAfterSpaces(ToLower(lead), ToLower(t));
  }

  /** Lower-casing and dropping trailing white space commute. */
  lemma TrimEndLower(s: string)
    ensures TrimEnd(ToLower(s)) == ToLower(TrimEnd(s))
  {
    var e := TrimEnd(s);
    var trail := s[|e|..];
    assert s == e + trail;
    ToLowerAppend(e, trail);
    ToLowerKeepsSpaces(e);
    ToLowerKeepsSpaces(trail);
    TrimEndBeforeSpaces(ToLower(e), ToLower(trail));
  }

  /** The slug is the name's words, lower-cased, joined by single '-': an independent reading of
      the trim / lower-case / replace pipeline. */
  lemma SlugJoinsWords(name: string)
    ensures Slug(name) == Join(Words(ToLower(name)), "-")
  {
    var lt := ToLower(TrimStart(name));
    TrimEndLower(TrimStart(name));
    TrimStartLower(name);
    WordsSkipLeadingSpace(ToLower(name));
    ReplaceRunsJoinsWords(lt);
  }

  /** The category form's state. */
  datatype CategoryForm = CategoryForm(name: string, slug: string)

  const InitialCategoryForm: CategoryForm := CategoryForm("", "")

  /** The form keeps the slug of the name it shows. */
  predicate InSync(f: CategoryForm) {
    f.slug == Slug(f.name)
  }

  /** A change of the name input: the name is kept verbatim and the slug recomputed from it. */
  function NameChange(f: CategoryForm, name: string): (r: CategoryForm)
    ensures InSync(r) && r.name == name
  {
    CategoryForm(name, Slug(name))
  }

  /** Typing a sequence of values into the name input. */
  function Typing(f: CategoryForm, inputs: seq<string>): (r: CategoryForm)
    ensures inputs == [] ==> r == f
    decreases |inputs|
  {
    if inputs == [] then f else Typing(NameChange(f, inputs[0]), inputs[1..])
  }

  /** The form starts in sync and stays in sync whatever is typed: the submitted slug is always the
      slug of the submitted name. */
  lemma {:induction false} TypingKeepsInSync(f: CategoryForm, inputs: seq<string>)
    requires InSync(f)
    ensures InSync(Typing(f, inputs))
    ensures inputs != [] ==> Typing(f, inputs).name == inputs[|inputs| - 1]
    decreases |inputs|
  {
    if inputs != [] {
      TypingKeepsInSync(NameChange(f, inputs[0]), inputs[1..]);
      if |inputs| > 1 {
        assert inputs[1..][|inputs[1..]| - 1] == inputs[|inputs| - 1];
      }
    }
  }

  lemma InitialFormInSync()
    ensures InSync(InitialCategoryForm)
  {
    TrimEmptyIffAllSpace("");
  }

  /** The hint under the name input: the slug, or a sample slug while it is empty. */
  function SlugHint(f: CategoryForm): (r: string)
    ensures f.slug != "" ==> r == f.slug
    ensures f.slug == "" ==> r == "ejemplo-del-slug"
  {
    if f.slug != "" then f.slug else "ejemplo-del-slug"
  }

  /** The document added to the categories collection. */
  datatype CategoryRecord = CategoryRecord(name: string, slug: string)

  /** How a submission ended: blocked by the browser (the name input is required), or a write the
      store accepted (the modal closes) or refused (it stays open with an error alert). */
  datatype CategorySubmit = Blocked | Written(record: CategoryRecord, closes: bool)

  /** Submitting the form, with the store's acknowledgement as a parameter. */
  function Submit(f: CategoryForm, stored: bool): (r: CategorySubmit)
    ensures f.name == "" <==> r == Blocked
    ensures r.Written? ==> r.record.name == f.name && r.record.slug == f.slug && r.closes == stored
  {
    if f.name == "" then Blocked else Written(CategoryRecord(f.name, f.slug), stored)
  }

  /** A name of white space only is accepted by the browser and submits an empty slug. */
  lemma BlankNameSubmitsEmptySlug(f: CategoryForm, stored: bool)
    requires InSync(f) && f.name != ""
    requires forall i :: 0 <= i < |f.name| ==> IsSpace(f.name[i])
    ensures Submit(f, stored) == Written(CategoryRecord(f.name, ""), stored)
  {
    SlugEmptyIffBlank(f.name);
  }
}

=== FILE: dashboard.dfy ===
/** The dashboard's per-state tally of the prospect snapshot (the data behind
    its donut chart).  Unlike the board, it counts every `state` value it meets,
    including unrecognised ones and a missing one. */
module Dashboard {
  import opened Base
  import opened Prospects

  /** The accumulator key a prospect is counted under.  Object keys are strings, so a missing
      `state` is counted under "undefined". */
  function StateKey(p: Prospect): string {
    match p.state
    case None => "undefined"
    case Some(s) => s
  }

  function Keys(snapshot: seq<Prospect>): (r: seq<string>)
    ensures |r| == |snapshot|
    ensures forall i :: 0 <= i < |snapshot| ==> r[i] == StateKey(snapshot[i])
  {
    seq(|snapshot|, i requires 0 <= i < |snapshot| => StateKey(snapshot[i]))
  }

  /** One emitted chart entry. */
  datatype Entry = Entry(state: string, count: nat)

  function StatesOf(entries: seq<Entry>): (r: seq<string>)
    ensures |r| == |entries|
    ensures forall i :: 0 <= i < |entries| ==> r[i] == entries[i].state
  {
    seq(|entries|, i requires 0 <= i < |entries| => entries[i].state)
  }

  predicate DistinctStates(entries: seq<Entry>) {
    forall i, j :: 0 <= i < j < |entries| ==> entries[i].state != entries[j].state
  }

  /** The count held for `key`, or 0 when no entry has that key. */
  function CountOf(entries: seq<Entry>, key: string): nat {
    if entries == [] then 0
    else if entries[0].state == key then entries[0].count
    else CountOf(entries[1..], key)
  }

  /** Sum of the emitted counts (`totalProspects`). */
  function TotalProspects(entries: seq<Entry>): nat {
    if entries == [] then 0 else entries[0].count + TotalProspects(entries[1..])
  }

  /** One `reduce` step: create the key with 0 if it is not there yet, then increment it. */
  function Tally(entries: seq<Entry>, key: string): (r: seq<Entry>)
    ensures TotalProspects(r) == TotalProspects(entries) + 1
    ensures forall k :: CountOf(r, k) == CountOf(entries, k) + (if k == key then 1 else 0)
  {
    if entries == [] then [Entry(key, 1)]
    else if entries[0].state == key then [entries[0].(count := entries[0].count + 1)] + entries[1..]
    else [entries[0]] + Tally(entries[1..], key)
  }

  /** The keys of an entry followed by a list of entries. */
  lemma StatesCons(e: Entry, es: seq<Entry>)
    ensures StatesOf([e] + es) == [e.state] + StatesOf(es)
  {
  }

  /** A step keeps the existing keys in place and appends the key when it is new. */
  lemma {:induction false} TallyStates(entries: seq<Entry>, key: string)
    ensures StatesOf(Tally(entries, key))
         == if key in StatesOf(entries) then StatesOf(entries) else StatesOf(entries) + [key]
  {
    var r := Tally(entries, key);
    if entries == [] {
      assert StatesOf(r) == [key];
    } else {
      var e, tail := entries[0], entries[1..];
      assert entries == [e] + tail;
      StatesCons(e, tail);
      var st := StatesOf(tail);
      if e.state == key {
        assert r == [e.(count := e.count + 1)] + tail;
        StatesCons(e.(count := e.count + 1), tail);
      } else {
        var rest := Tally(tail, key);
        assert r == [e] + rest;
        TallyStates(tail, key);
        StatesCons(e, rest);
        assert key in StatesOf(entries) <==> key in st;
        if key !in st {
          assert [e.state] + (st + [key]) == ([e.state] + st) + [key];
        }
      }
    }
  }

  /** A step never lowers a count, and an appended entry counts at least one. */
  lemma {:induction false} TallyCounts(entries: seq<Entry>, key: string)
    ensures var r := Tally(entries, key);
      && |r| >= |entries|
      && (forall i :: 0 <= i < |entries| ==> r[i].count >= entries[i].count)
      && (forall i :: |entries| <= i < |r| ==> r[i].count >= 1)
  {
    if entries != [] && entries[0].state != key {
      TallyCounts(entries[1..], key);
      var r := Tally(entries, key);
      forall i | 0 < i < |r|
        ensures r[i] == Tally(entries[1..], key)[i - 1]
      {
      }
    }
  }

  /** The keys of a list with distinct keys are distinct. */
  lemma DistinctStatesIsDistinct(entries: seq<Entry>)
    ensures DistinctStates(entries) <==> Distinct(StatesOf(entries))
  {
  }

  /** Appending a new value keeps a sequence free of repeats. */
  lemma DistinctSnoc<T>(s: seq<T>, x: T)
    requires Distinct(s) && x !in s
    ensures Distinct(s + [x])
  {
  }

  /** In a list with distinct keys, an entry's own count is the count held for its key. */
  lemma {:induction false} CountOfDistinct(entries: seq<Entry>, i: nat)
    requires DistinctStates(entries) && i < |entries|
    ensures CountOf(entries, entries[i].state) == entries[i].count
  {
    if i > 0 {
      CountOfDistinct(entries[1..], i - 1);
    }
  }

  /** `entries` is the tally of `keys`: one entry per distinct key, holding how often the key occurs,
      no other entries, and counts summing to the number of keys. */
  ghost predicate IsTallyOf(entries: seq<Entry>, keys: seq<string>) {
    && DistinctStates(entries)
    && (forall key :: CountOf(entries, key) == multiset(keys)[key])
    && (forall s :: s in StatesOf(entries) <==> s in keys)
    && (forall i :: 0 <= i < |entries| ==> entries[i].count >= 1)
    && TotalProspects(entries) == |keys|
  }

  /** Tallying one more key extends a tally of the keys seen so far. */
  lemma TallyStep(acc: seq<Entry>, keys: seq<string>, key: string)
    requires IsTallyOf(acc, keys)
    ensures IsTallyOf(Tally(acc, key), keys + [key])
  {
    var r := Tally(acc, key);
    var ks := keys + [key];
    var sa, sr := StatesOf(acc), StatesOf(r);
    TallyStates(acc, key);
    TallyCounts(acc, key);
    assert DistinctStates(r) by {
      DistinctStatesIsDistinct(acc);
      DistinctStatesIsDistinct(r);
      if key !in sa {
        DistinctSnoc(sa, key);
      }
    }
    assert forall k :: CountOf(r, k) == multiset(ks)[k] by {
      assert multiset(ks) == multiset(keys) + multiset{key};
    }
    assert forall v :: v in sr <==> v in ks by {
      forall v
        ensures v in sr <==> v in ks
      {
        assert v in ks <==> v in keys || v == key;
        assert v in sr <==> v in sa || v == key;
      }
    }
    assert forall i :: 0 <= i < |r| ==> r[i].count >= 1 by {
      forall i | 0 <= i < |r|
        ensures r[i].count >= 1
      {
        if i < |acc| {
          assert r[i].count >= acc[i].count;
        }
      }
    }
  }


  /** The chart data computed from one snapshot. */
  function Aggregate(snapshot: seq<Prospect>): (r: seq<Entry>)
    ensures IsTallyOf(r, Keys(snapshot))
  {
    if |snapshot| == 0 then []
    else
      var init := snapshot[..|snapshot| - 1];
      var last := snapshot[|snapshot| - 1];
      assert Keys(snapshot) == Keys(init) + [StateKey(last)];
      TallyStep(Aggregate(init), Keys(init), StateKey(last));
      Tally(Aggregate(init), StateKey(last))
  }

  /** Each emitted entry counts exactly the prospects carrying its state, so states without
      prospects are absent and every emitted count is at least one. */
  lemma EntryCountsItsState(snapshot: seq<Prospect>, i: nat)
    requires i < |Aggregate(snapshot)|
    ensures var e := Aggregate(snapshot)[i];
      e.count == multiset(Keys(snapshot))[e.state] && e.count >= 1
  {
    CountOfDistinct(Aggregate(snapshot), i);
  }

  /** A state no prospect carries gets no entry. */
  lemma AbsentStateHasNoEntry(snapshot: seq<Prospect>, key: string)
    requires forall i :: 0 <= i < |snapshot| ==> StateKey(snapshot[i]) != key
    ensures key !in StatesOf(Aggregate(snapshot))
  {
    var ks := Keys(snapshot);
    assert key !in ks by {
      forall i | 0 <= i < |ks|
        ensures ks[i] != key
      {
      }
    }
  }

  /** An entry paired with the denominator its percentage is computed against. */
  datatype Share = Share(state: string, count: nat, total: nat)

  /** The entries the chart labels with a percentage: one per emitted entry, each against the total. */
  function WithShares(entries: seq<Entry>): (r: seq<Share>)
    ensures |r| == |entries|
    ensures forall i :: 0 <= i < |r| ==>
      r[i] == Share(entries[i].state, entries[i].count, TotalProspects(entries))
  {
    seq(|entries|, i requires 0 <= i < |entries| => Share(entries[i].state, entries[i].count, TotalProspects(entries)))
  }

  /** Each entry's count is part of the total. */
  lemma {:induction false} CountWithinTotal(entries: seq<Entry>, i: nat)
    requires i < |entries|
    ensures entries[i].count <= TotalProspects(entries)
  {
    if i > 0 {
      CountWithinTotal(entries[1..], i - 1);
    }
  }

  /** Percentages are only computed for emitted entries, and for those the denominator is the
      number of prospects and is never zero; an empty snapshot yields no shares at all. */
  lemma SharesNeverDivideByZero(snapshot: seq<Prospect>)
    ensures snapshot == [] ==> WithShares(Aggregate(snapshot)) == []
    ensures forall i :: 0 <= i < |WithShares(Aggregate(snapshot))| ==>
      var sh := WithShares(Aggregate(snapshot))[i];
      1 <= sh.count <= sh.total == |snapshot|
  {
    var r := Aggregate(snapshot);
    forall i | 0 <= i < |r|
      ensures r[i].count <= TotalProspects(r)
    {
      CountWithinTotal(r, i);
    }
  }
}

=== FILE: discounts.dfy ===
/** Editing a product's discount list in the product forms: the two inputs
    for a new discount, the add button, and removal by the rendered index
    (by index filtering in the edit form, by `splice` in the creation form). */
module DiscountEditing {
  import opened Base
  import opened Catalog

  /** The discount list being edited and the two inputs of the discount to add. */
  datatype DiscountEditor = DiscountEditor(discounts: seq<Discount>, concept: string, percentage: string)

  const EmptyEditor: DiscountEditor := DiscountEditor([], "", "")

  /** The add button: only when both inputs are non-empty is the discount appended last and are both
      inputs cleared; otherwise nothing changes. */
  function AddDiscount(e: DiscountEditor): (r: DiscountEditor)
    ensures e.concept != "" && e.percentage != "" ==>
      && |r.discounts| == |e.discounts| + 1
      && r.discounts[..|e.discounts|] == e.discounts
      && r.discounts[|e.discounts|] == Discount(e.concept, e.percentage)
      && r.concept == "" && r.percentage == ""
    ensures e.concept == "" || e.percentage == "" ==> r == e
  {
    if e.concept != "" && e.percentage != "" then
      DiscountEditor(e.discounts + [Discount(e.concept, e.percentage)], "", "")
    else e
  }

  /** The edit form's removal, `discounts.filter((_, i) => i !== index)`: the elements whose position,
      counted from `from`, differs from `index`. */
  function WithoutIndex<T>(xs: seq<T>, index: int, from: int): (r: seq<T>)
    ensures |r| <= |xs|
    decreases |xs|
  {
    if xs == [] then []
    else (if from != index then [xs[0]] else []) + WithoutIndex(xs[1..], index, from + 1)
  }

  /** Filtering out a position that is not among the positions leaves the list as it is. */
  lemma {:induction false} WithoutIndexMissing<T>(xs: seq<T>, index: int, from: int)
    requires index < from || index >= from + |xs|
    ensures WithoutIndex(xs, index, from) == xs
    decreases |xs|
  {
    if xs != [] {
      WithoutIndexMissing(xs[1..], index, from + 1);
    }
  }

  /** Filtering out a position among the positions removes exactly that element. */
  lemma {:induction false} WithoutIndexRemoves<T>(xs: seq<T>, index: int, from: int)
    requires from <= index < from + |xs|
    ensures WithoutIndex(xs, index, from) == RemoveAt(xs, index - from)
    decreases |xs|
  {
    if from == index {
      WithoutIndexMissing(xs[1..], index, from + 1);
      assert RemoveAt(xs, 0) == xs[1..];
    } else {
      WithoutIndexRemoves(xs[1..], index, from + 1);
      assert RemoveAt(xs, index - from) == [xs[0]] + RemoveAt(xs[1..], index - from - 1);
    }
  }

  /** The edit form's remove link for the discount rendered at `index`. */
  function EditRemove(e: DiscountEditor, index: int): (r: DiscountEditor)
    ensures 0 <= index < |e.discounts| ==> r.discounts == RemoveAt(e.discounts, index)
    ensures !(0 <= index < |e.discounts|) ==> r.discounts == e.discounts
    ensures r.concept == e.concept && r.percentage == e.percentage
  {
    if 0 <= index < |e.discounts| then
      WithoutIndexRemoves(e.discounts, index, 0);
      e.(discounts := WithoutIndex(e.discounts, index, 0))
    else
      WithoutIndexMissing(e.discounts, index, 0);
      e.(discounts := WithoutIndex(e.discounts, index, 0))
  }

  /** The creation form's remove link: `splice(index, 1)` on a copy of the list. */
  function ModalRemove(e: DiscountEditor, index: int): (r: DiscountEditor)
    ensures 0 <= index < |e.discounts| ==> r.discounts == RemoveAt(e.discounts, index)
    ensures index >= |e.discounts| ==> r.discounts == e.discounts
    ensures -|e.discounts| <= index < 0 ==> r.discounts == RemoveAt(e.discounts, |e.discounts| + index)
    ensures r.concept == e.concept && r.percentage == e.percentage
  {
    e.(discounts := SpliceRemoveOne(e.discounts, index))
  }

  /** The remove links are rendered at the positions 0 .. n-1, and there the two forms' removals agree;
      they differ only for negative positions, which `splice` counts from the end. */
  lemma RemovalsAgreeOnRenderedPositions(e: DiscountEditor, index: int)
    ensures 0 <= index < |e.discounts| ==> EditRemove(e, index) == ModalRemove(e, index)
    ensures index == -1 && e.discounts != [] ==>
      ModalRemove(e, index).discounts == e.discounts[..|e.discounts| - 1]
      && EditRemove(e, index).discounts == e.discounts
  {
  }

  /** Removing the discount just added restores the list as it was before the add. */
  lemma RemoveUndoesAdd(e: DiscountEditor)
    requires e.concept != "" && e.percentage != ""
    ensures EditRemove(AddDiscount(e), |e.discounts|).discounts == e.discounts
    ensures ModalRemove(AddDiscount(e), |e.discounts|).discounts == e.discounts
  {
    var a := AddDiscount(e).discounts;
    assert RemoveAt(a, |e.discounts|) == a[..|e.discounts|];
  }

  /** Removing keeps every other discount, in order: the list shrinks by exactly the removed one. */
  lemma RemoveKeepsOthers(e: DiscountEditor, index: nat)
    requires index < |e.discounts|
    ensures var r := EditRemove(e, index).discounts;
      && multiset(r) + multiset{e.discounts[index]} == multiset(e.discounts)
      && r == e.discounts[..index] + e.discounts[index + 1..]
  {
    var xs := e.discounts;
    assert xs == xs[..index] + [xs[index]] + xs[index + 1..];
  }
}

=== FILE: edit_product.dfy ===
/** The product edit form: its initialisation from the stored product, the
    discount list editing, the browser's required-field gate, and the update
    written on submit, with or without a new image. */
module EditProduct {
  import opened Base
  import opened Catalog
  import opened DiscountEditing

  /** The four nutritional inputs, as the form holds them. */
  datatype NutritionFields = NutritionFields(
    servingsPerContainer: string,
    caloriesPerServing: string,
    proteinsPerServing: string,
    servingSize: string)

  /** The edit form.  The category and brand selects and the image URL hold whatever the stored
      product had, possibly nothing. */
  datatype EditForm = EditForm(
    name: string,
    description: string,
    price: string,
    category: Option<string>,
    brand: Option<string>,
    imageUrl: Option<string>,
    nutrition: NutritionFields,
    editor: DiscountEditor,
    editingCategory: bool,
    editingBrand: bool)

  /** `value || ''` on an optional text field. */
  function OrEmpty(o: Option<string>): (r: string)
    ensures Truthy(o) ==> r == o.value
    ensures !Truthy(o) ==> r == ""
  {
    if Truthy(o) then o.value else ""
  }

  /** The nutritional inputs filled from the stored block: each missing or empty field, or a missing
      block, gives the empty input. */
  function NutritionForm(info: Option<NutritionDoc>): (r: NutritionFields)
    ensures info.None? ==> r == NutritionFields("", "", "", "")
    ensures info.Some? ==>
      && r.servingsPerContainer == OrEmpty(info.value.servingsPerContainer)
      && r.caloriesPerServing == OrEmpty(info.value.caloriesPerServing)
      && r.proteinsPerServing == OrEmpty(info.value.proteinsPerServing)
      && r.servingSize == OrEmpty(info.value.servingSize)
  {
    match info
    case None => NutritionFields("", "", "", "")
    case Some(n) => NutritionFields(OrEmpty(n.servingsPerContainer), OrEmpty(n.caloriesPerServing),
                                    OrEmpty(n.proteinsPerServing), OrEmpty(n.servingSize))
  }

  /** The initialisation effect: the product's fields copied, the nutritional inputs defaulting to
      empty text, a missing discount list to the empty list, both selects shown as read-only names. */
  function InitEditForm(p: Product): (r: EditForm)
    ensures r.name == p.name && r.description == p.description && r.price == p.price
    ensures r.category == p.category && r.brand == p.brand && r.imageUrl == p.imageUrl
    ensures r.nutrition == NutritionForm(p.infoNutrimental)
    ensures p.discounts.Some? ==> r.editor.discounts == p.discounts.value
    ensures p.discounts.None? ==> r.editor.discounts == []
    ensures r.editor.concept == "" && r.editor.percentage == ""
    ensures !r.editingCategory && !r.editingBrand
  {
    EditForm(p.name, p.description, p.price, p.category, p.brand, p.imageUrl,
             NutritionForm(p.infoNutrimental),
             DiscountEditor(if p.discounts.Some? then p.discounts.value else [], "", ""),
             false, false)
  }

  /** The "change" buttons next to the category and the brand swap the name for a required select. */
  function StartEditingCategory(f: EditForm): (r: EditForm)
    ensures r.editingCategory && r == f.(editingCategory := true)
  {
    f.(editingCategory := true)
  }

  function StartEditingBrand(f: EditForm): (r: EditForm)
    ensures r.editingBrand && r == f.(editingBrand := true)
  {
    f.(editingBrand := true)
  }

  /** The add and remove links act on the discount list alone. */
  function AddDiscountToForm(f: EditForm): (r: EditForm)
    ensures r == f.(editor := AddDiscount(f.editor))
    ensures f.editor.concept != "" && f.editor.percentage != "" ==>
      r.editor.discounts == f.editor.discounts + [Discount(f.editor.concept, f.editor.percentage)]
  {
    f.(editor := AddDiscount(f.editor))
  }

  function RemoveDiscountFromForm(f: EditForm, index: int): (r: EditForm)
    ensures r == f.(editor := EditRemove(f.editor, index))
    ensures 0 <= index < |f.editor.discounts| ==> r.editor.discounts == RemoveAt(f.editor.discounts, index)
    ensures !(0 <= index < |f.editor.discounts|) ==> r.editor == f.editor
  {
    f.(editor := EditRemove(f.editor, index))
  }

  /** The browser submits the form only when every required control has a value: the name, the
      description and the price always, each select only while it is shown. */
  predicate BrowserAccepts(f: EditForm) {
    && f.name != "" && f.description != "" && f.price != ""
    && (f.editingCategory ==> Truthy(f.category))
    && (f.editingBrand ==> Truthy(f.brand))
  }

  /** The update written to the product document: exactly these fields. */
  datatype EditPayload = EditPayload(
    name: string,
    description: string,
    price: string,
    category: Option<string>,
    brand: Option<string>,
    imageUrl: Option<string>,
    infoNutrimental: NutritionFields,
    discounts: seq<Discount>)

  function Payload(f: EditForm, imageUrl: Option<string>): (r: EditPayload)
    ensures r.name == f.name && r.description == f.description && r.price == f.price
    ensures r.category == f.category && r.brand == f.brand && r.imageUrl == imageUrl
    ensures r.infoNutrimental == f.nutrition && r.discounts == f.editor.discounts
  {
    EditPayload(f.name, f.description, f.price, f.category, f.brand, imageUrl, f.nutrition, f.editor.discounts)
  }

  /** What a submit leads to: nothing (the browser refused it), an aborted upload (no write, the
      form stays open), or a write that succeeded (the form closes) or failed (it stays open). */
  datatype EditOutcome = NotSubmitted | UploadAborted | Saved(payload: EditPayload) | SaveFailed(payload: EditPayload)

  predicate Closes(o: EditOutcome) {
    o.Saved?
  }

  /** Submitting: a new image replaces the URL once its upload finished; without one the form's URL is
      written back; a failed upload writes nothing. `writeOk` is the store's answer to the update. */
  function Submit(f: EditForm, upload: Upload, writeOk: bool): (r: EditOutcome)
    ensures !BrowserAccepts(f) <==> r == NotSubmitted
    ensures r == UploadAborted <==> BrowserAccepts(f) && upload == UploadFailed
    ensures Closes(r) <==> BrowserAccepts(f) && upload != UploadFailed && writeOk
    ensures (r.Saved? || r.SaveFailed?) ==>
      r.payload == Payload(f, if upload.Uploaded? then Some(upload.url) else f.imageUrl)
  {
    if !BrowserAccepts(f) then NotSubmitted
    else
      match upload
      case UploadFailed => UploadAborted
      case NoFile => if writeOk then Saved(Payload(f, f.imageUrl)) else SaveFailed(Payload(f, f.imageUrl))
      case Uploaded(url) => if writeOk then Saved(Payload(f, Some(url))) else SaveFailed(Payload(f, Some(url)))
  }

  /** The stored product after the update: the written fields replaced, the id and the denormalised
      category and brand names kept. */
  function ApplyEdit(stored: Product, w: EditPayload): (r: Product)
    ensures r.id == stored.id && r.categoryName == stored.categoryName && r.brandName == stored.brandName
    ensures r.name == w.name && r.description == w.description && r.price == w.price
    ensures r.category == w.category && r.brand == w.brand && r.imageUrl == w.imageUrl
    ensures r.discounts == Some(w.discounts)
    ensures r.infoNutrimental.Some? && NutritionForm(r.infoNutrimental) == w.infoNutrimental
  {
    var n := w.infoNutrimental;
    stored.(name := w.name, description := w.description, price := w.price, category := w.category,
            brand := w.brand, imageUrl := w.imageUrl,
            infoNutrimental := Some(NutritionDoc(Some(n.servingsPerContainer), Some(n.caloriesPerServing),
                                                 Some(n.proteinsPerServing), Some(n.servingSize))),
            discounts := Some(w.discounts))
  }

  /** Without a new image, a saved edit writes the product's own image URL back. */
  lemma NoNewImageKeepsUrl(p: Product, writeOk: bool)
    requires BrowserAccepts(InitEditForm(p))
    ensures var r := Submit(InitEditForm(p), NoFile, writeOk);
      (r.Saved? || r.SaveFailed?) && r.payload.imageUrl == p.imageUrl
  {
  }

  /** A product whose nutritional fields and discount list are all present (empty strings included)
      comes back unchanged when its edit form is submitted untouched. */
  lemma UntouchedEditRoundTrips(p: Product)
    requires p.infoNutrimental.Some? && p.discounts.Some?
    requires var n := p.infoNutrimental.value;
      n.servingsPerContainer.Some? && n.caloriesPerServing.Some?
      && n.proteinsPerServing.Some? && n.servingSize.Some?
    ensures ApplyEdit(p, Payload(InitEditForm(p), p.imageUrl)) == p
  {
  }

  /** Saving an untouched form normalises the product once: saving the result untouched again
      changes nothing. */
  lemma UntouchedEditIsIdempotent(p: Product)
    ensures var q := ApplyEdit(p, Payload(InitEditForm(p), p.imageUrl));
      ApplyEdit(q, Payload(InitEditForm(q), q.imageUrl)) == q
  {
    var q := ApplyEdit(p, Payload(InitEditForm(p), p.imageUrl));
    var n := NutritionForm(p.infoNutrimental);
    assert NutritionForm(q.infoNutrimental) == n;
    assert q.infoNutrimental == Some(NutritionDoc(Some(n.servingsPerContainer), Some(n.caloriesPerServing),
                                                  Some(n.proteinsPerServing), Some(n.servingSize)));
  }

  /** The discount list written is the one edited in the form: starting from the stored list, an add
      puts the new discount last. */
  lemma AddedDiscountIsWrittenLast(p: Product, concept: string, percentage: string)
    requires concept != "" && percentage != ""
    ensures var f := InitEditForm(p);
      var g := AddDiscountToForm(f.(editor := f.editor.(concept := concept, percentage := percentage)));
      Payload(g, g.imageUrl).discounts
        == (if p.discounts.Some? then p.discounts.value else []) + [Discount(concept, percentage)]
  {
  }
}

=== FILE: funnel.dfy ===
/** The sales-pipeline board: five fixed columns rebuilt from every live
    snapshot, and the drag-and-drop handler that moves a card and writes its
    new stage back to the store. */
module Funnel {
  import opened Base
  import opened Stages
  import opened Prospects

  /** The board state: one ordered column per stage. */
  datatype Board = Board(
    entrante: seq<Prospect>,
    calificado: seq<Prospect>,
    espera: seq<Prospect>,
    perdido: seq<Prospect>,
    ganado: seq<Prospect>)
  {
    /** The column keyed by stage `s`. */
    function Get(s: Stage): seq<Prospect> {
      match s
      case Entrante => entrante
      case Calificado => calificado
      case Espera => espera
      case Perdido => perdido
      case Ganado => ganado
    }

    /** The board with column `s` replaced; the other four keys keep their values. */
    function Set(s: Stage, col: seq<Prospect>): (r: Board)
      ensures r.Get(s) == col
      ensures forall t: Stage :: t != s ==> r.Get(t) == Get(t)
    {
      match s
      case Entrante => this.(entrante := col)
      case Calificado => this.(calificado := col)
      case Espera => this.(espera := col)
      case Perdido => this.(perdido := col)
      case Ganado => this.(ganado := col)
    }
  }

  /** The board every snapshot starts from: all five columns present and empty. */
  const EmptyBoard: Board := Board([], [], [], [], [])

  /** Number of cards on the board. */
  function Total(b: Board): nat {
    |b.entrante| + |b.calificado| + |b.espera| + |b.perdido| + |b.ganado|
  }

  /** The ids of the cards in a column, in order. */
  function IdsOf(col: seq<Prospect>): (r: seq<string>)
    ensures |r| == |col|
    ensures forall i :: 0 <= i < |col| ==> r[i] == col[i].id
  {
    seq(|col|, i requires 0 <= i < |col| => col[i].id)
  }

  /** The multiset of card ids on the whole board. */
  function BoardIds(b: Board): multiset<string> {
    multiset(IdsOf(b.entrante)) + multiset(IdsOf(b.calificado)) + multiset(IdsOf(b.espera))
    + multiset(IdsOf(b.perdido)) + multiset(IdsOf(b.ganado))
  }

  /** Every card sits in the column named by its own `state`. */
  ghost predicate WellFormed(b: Board) {
    forall s: Stage, i :: 0 <= i < |b.Get(s)| ==> b.Get(s)[i].state == Some(Id(s))
  }

  /** One rendered column: its droppable id, its heading and its cards. */
  datatype Column = Column(id: string, title: string, cards: seq<Prospect>)

  /** The columns as the page renders them: the board's keys in insertion order. */
  function Columns(b: Board): (r: seq<Column>)
    ensures |r| == 5
    ensures forall i :: 0 <= i < 5 ==>
      r[i].id == StageIds()[i] && r[i].title == Title(r[i].id) && r[i].cards == b.Get(Order[i])
  {
    seq(5, i requires 0 <= i < 5 => Column(Id(Order[i]), Title(Id(Order[i])), b.Get(Order[i])))
  }

  // ---------------------------------------------------------------------------
  // Bucketing a snapshot

  /** The selector of the cards whose `state` is stage `s`. */
  function InStage(s: Stage): Prospect -> bool {
    (p: Prospect) => p.state == Some(Id(s))
  }

  /** Whether a prospect's `state` names one of the five columns. */
  predicate Recognised(p: Prospect) {
    p.state.Some? && Parse(p.state.value).Some?
  }

  /** One `forEach` step: push the prospect onto its column when its state is a board key, else drop it. */
  function Place(b: Board, p: Prospect): (r: Board)
    ensures forall s: Stage :: r.Get(s) == b.Get(s) + (if InStage(s)(p) then [p] else [])
  {
    match p.state
    case None => b
    case Some(st) =>
      match Parse(st)
      case None => b
      case Some(s) => b.Set(s, b.Get(s) + [p])
  }

  lemma BucketStep(init: seq<Prospect>, last: Prospect)
    ensures forall s: Stage :: Filter(init + [last], InStage(s)) == Filter(init, InStage(s)) + (if InStage(s)(last) then [last] else [])
  {
    forall s: Stage {
      FilterSnoc(init, last, InStage(s));
    }
  }

  /** The board a `forEach` over the snapshot builds when no step throws, starting from five empty
      columns. */
  function Bucket(snapshot: seq<Prospect>): (r: Board)
    ensures forall s: Stage :: r.Get(s) == Filter(snapshot, InStage(s))
  {
    if |snapshot| == 0 then EmptyBoard
    else
      var init := snapshot[..|snapshot| - 1];
      var last := snapshot[|snapshot| - 1];
      assert snapshot == init + [last];
      BucketStep(init, last);
      Place(Bucket(init), last)
  }

  /** The names every plain object inherits from `Object.prototype`.  Looking one of them up on the
      board object finds a function (or, for `__proto__`, the prototype itself): a truthy value that
      has no `push` method. */
  const InheritedNames: set<string> := {
    "constructor", "__proto__", "__defineGetter__", "__defineSetter__", "__lookupGetter__",
    "__lookupSetter__", "hasOwnProperty", "isPrototypeOf", "propertyIsEnumerable",
    "toLocaleString", "toString", "valueOf"}

  /** Whether the bucketing step throws on this prospect: its state names an inherited member, which
      passes the truthiness test and then has no `push` to call. */
  predicate Throws(p: Prospect) {
    p.state.Some? && p.state.value in InheritedNames
  }

  /** No column id is an inherited name, so a prospect placed in a column never throws. */
  lemma StageIdNeverThrows(s: Stage, p: Prospect)
    requires p.state == Some(Id(s))
    ensures !Throws(p)
  {
    match s
    case Entrante =>
    case Calificado =>
    case Espera =>
    case Perdido =>
    case Ganado =>
  }

  /** The `forEach` over a snapshot as it runs: the board it leaves, or `None` when a step threw
      and the loop stopped. */
  function Collect(snapshot: seq<Prospect>): (r: Option<Board>)
    ensures r.None? <==> exists i :: 0 <= i < |snapshot| && Throws(snapshot[i])
    ensures r.Some? ==> r.value == Bucket(snapshot)
  {
    if |snapshot| == 0 then Some(EmptyBoard)
    else
      var init := snapshot[..|snapshot| - 1];
      var last := snapshot[|snapshot| - 1];
      assert snapshot == init + [last];
      assert forall i :: 0 <= i < |init| ==> init[i] == snapshot[i];
      match Collect(init)
      case None => None
      case Some(b) => if Throws(last) then None else Some(Place(b, last))
  }

  /** Appending a prospect that does not throw runs one more placing step, or keeps the loop stopped. */
  lemma CollectSnoc(snapshot: seq<Prospect>, p: Prospect)
    requires !Throws(p)
    ensures Collect(snapshot + [p]) == if Collect(snapshot).Some? then Some(Place(Collect(snapshot).value, p)) else None
  {
    var next := snapshot + [p];
    assert next[..|next| - 1] == snapshot;
    assert next[|next| - 1] == p;
  }

  /** The snapshot listener: a completed loop replaces the board shown; a step that throws ends the
      callback before the board is set, so the board shown stays the previous one. */
  function OnSnapshot(shown: Board, snapshot: seq<Prospect>): (r: Board)
    ensures (forall i :: 0 <= i < |snapshot| ==> !Throws(snapshot[i])) ==>
      forall s: Stage :: r.Get(s) == Filter(snapshot, InStage(s))
    ensures (exists i :: 0 <= i < |snapshot| && Throws(snapshot[i])) ==> r == shown
  {
    match Collect(snapshot)
    case None => shown
    case Some(b) => b
  }

  /** The board shown after a snapshot is well formed whenever the one before was; and when the
      snapshot is bucketed to the end, a prospect whose state is not a stage id lands in no column. */
  lemma SnapshotDropsUnknown(shown: Board, snapshot: seq<Prospect>, p: Prospect)
    requires WellFormed(shown)
    ensures WellFormed(OnSnapshot(shown, snapshot))
    ensures (forall i :: 0 <= i < |snapshot| ==> !Throws(snapshot[i])) && !Recognised(p) ==>
      forall s: Stage :: p !in OnSnapshot(shown, snapshot).Get(s)
  {
    var b := Bucket(snapshot);
    forall s: Stage, i | 0 <= i < |b.Get(s)|
      ensures b.Get(s)[i].state == Some(Id(s))
    {
      assert InStage(s)(b.Get(s)[i]);
    }
    if !Recognised(p) {
      forall s: Stage
        ensures p !in b.Get(s)
      {
        assert Parse(Id(s)) == Some(s);
      }
    }
  }

  /** A single card whose state is an inherited name freezes the board: even a snapshot that also
      brings a new `entrante` card leaves the previous board on screen, although a loop that skipped
      the offending card would have shown the new one. */
  lemma InheritedStateKeepsBoard(shown: Board, p: Prospect, q: Prospect)
    requires p.state == Some("entrante") && q.state == Some("constructor")
    ensures OnSnapshot(shown, [p, q]) == shown
    ensures Bucket([p, q]).Get(Entrante) == [p]
  {
    assert Throws([p, q][1]);
    assert Filter([p, q], InStage(Entrante)) == [p] by {
      assert Filter([q], InStage(Entrante)) == [];
    }
  }

  /** One bucketing step adds one card exactly when the prospect's state is recognised. */
  lemma PlaceTotal(b: Board, p: Prospect)
    ensures Total(Place(b, p)) == Total(b) + (if Recognised(p) then 1 else 0)
  {
    if Recognised(p) {
      var s := Parse(p.state.value).value;
      assert Place(b, p) == b.Set(s, b.Get(s) + [p]);
    }
  }

  /** The board holds exactly as many cards as the snapshot has prospects with a recognised state. */
  lemma {:induction false} BucketTotal(snapshot: seq<Prospect>)
    ensures Total(Bucket(snapshot)) == |Filter(snapshot, Recognised)|
  {
    if |snapshot| > 0 {
      var init := snapshot[..|snapshot| - 1];
      var last := snapshot[|snapshot| - 1];
      assert snapshot == init + [last];
      BucketTotal(init);
      FilterSnoc(init, last, Recognised);
      assert Bucket(snapshot) == Place(Bucket(init), last);
      PlaceTotal(Bucket(init), last);
    }
  }

  // ---------------------------------------------------------------------------
  // Drag and drop

  /** A position reported by the drag-and-drop library: a column (droppable id) and an index in it. */
  datatype Location = Location(column: Stage, index: nat)

  /** The library's drop result; the destination is absent when the card is dropped outside every column. */
  datatype DropResult = DropResult(source: Location, destination: Option<Location>)

  /** The single-field document update `{ state }` for one prospect. */
  datatype StateWrite = StateWrite(prospectId: string, state: string)

  /** What a drop does: nothing; a thrown error (the splice found no card, so nothing is set or written);
      or a new board together with one store write. */
  datatype DragOutcome = Ignored | Crashed | Moved(board: Board, write: StateWrite)

  /** The board shown after the handler ran. */
  function After(b: Board, o: DragOutcome): Board {
    if o.Moved? then o.board else b
  }

  /** The store writes the handler issued. */
  function Writes(o: DragOutcome): seq<StateWrite> {
    if o.Moved? then [o.write] else []
  }

  /** The drag-end handler as written.  Source and destination columns are copied separately;
      the card taken out of the source copy is the same object the destination copy still holds
      when both name one column, so its state change is visible in both; the destination copy
      is stored last and wins when the two keys coincide. */
  function OnDragEnd(b: Board, d: DropResult): (r: DragOutcome)
    ensures d.destination.None? ==> r == Ignored
    ensures d.destination.Some? && d.destination.value == d.source ==> r == Ignored
    ensures r.Crashed? <==> d.destination.Some? && d.destination.value != d.source && d.source.index >= |b.Get(d.source.column)|
    ensures r.Moved? <==> d.destination.Some? && d.destination.value != d.source && d.source.index < |b.Get(d.source.column)|
    ensures r.Moved? ==> r.write == StateWrite(b.Get(d.source.column)[d.source.index].id, Id(d.destination.value.column))
  {
    match d.destination
    case None => Ignored
    case Some(dst) =>
      if d.source.column == dst.column && d.source.index == dst.index then Ignored
      else
        var src := d.source;
        var sourceColumn := b.Get(src.column);
        var destColumn := b.Get(dst.column);
        if src.index >= |sourceColumn| then Crashed
        else
          var moved := sourceColumn[src.index].(state := Some(Id(dst.column)));
          var destCopy := if src.column == dst.column then destColumn[src.index := moved] else destColumn;
          var newSource := RemoveAt(sourceColumn, src.index);
          var newDest := SpliceInsert(destCopy, dst.index, moved);
          Moved(b.Set(src.column, newSource).Set(dst.column, newDest), StateWrite(moved.id, Id(dst.column)))
  }

  /** Taking ids commutes with concatenation. */
  lemma IdsOfAppend(a: seq<Prospect>, c: seq<Prospect>)
    ensures IdsOf(a + c) == IdsOf(a) + IdsOf(c)
  {
  }

  /** Ids of a column with one card removed, as multisets. */
  lemma IdsOfRemoveAt(col: seq<Prospect>, i: nat)
    requires i < |col|
    ensures multiset(IdsOf(RemoveAt(col, i))) + multiset{col[i].id} == multiset(IdsOf(col))
  {
    var a, c := col[..i], col[i + 1..];
    assert RemoveAt(col, i) == a + c;
    assert col == a + [col[i]] + c;
    IdsOfAppend(a + [col[i]], c);
    IdsOfAppend(a, [col[i]]);
    IdsOfAppend(a, c);
    var ia, ic := IdsOf(a), IdsOf(c);
    assert IdsOf([col[i]]) == [col[i].id];
    assert multiset(ia + [col[i].id] + ic) == multiset(ia) + multiset{col[i].id} + multiset(ic);
    assert multiset(ia + ic) == multiset(ia) + multiset(ic);
  }

  /** Ids of a column with one card inserted, as multisets. */
  lemma IdsOfSpliceInsert(col: seq<Prospect>, k: int, p: Prospect)
    ensures multiset(IdsOf(SpliceInsert(col, k, p))) == multiset(IdsOf(col)) + multiset{p.id}
  {
    var j := SpliceStart(|col|, k);
    var a, c := col[..j], col[j..];
    assert SpliceInsert(col, k, p) == a + [p] + c;
    IdsOfAround(a, p, c);
    assert col == a + c;
    IdsOfAppend(a, c);
  }

  /** The ids of a column with one card between two parts. */
  lemma IdsOfAround(a: seq<Prospect>, p: Prospect, c: seq<Prospect>)
    ensures IdsOf(a + [p] + c) == IdsOf(a) + [p.id] + IdsOf(c)
  {
    var l, r := IdsOf(a + [p] + c), IdsOf(a) + [p.id] + IdsOf(c);
    forall i | 0 <= i < |l|
      ensures l[i] == r[i]
    {
      if i < |a| {
      } else if i == |a| {
      } else {
        assert (a + [p] + c)[i] == c[i - |a| - 1];
      }
    }
  }

  /** Board ids and size after replacing one column. */
  lemma BoardIdsSet(b: Board, s: Stage, cs: seq<Prospect>)
    ensures BoardIds(b.Set(s, cs)) + multiset(IdsOf(b.Get(s))) == BoardIds(b) + multiset(IdsOf(cs))
    ensures Total(b.Set(s, cs)) + |b.Get(s)| == Total(b) + |cs|
  {
    var e, c, w, p, g := multiset(IdsOf(b.entrante)), multiset(IdsOf(b.calificado)),
      multiset(IdsOf(b.espera)), multiset(IdsOf(b.perdido)), multiset(IdsOf(b.ganado));
    var n := multiset(IdsOf(cs));
    assert BoardIds(b) == e + c + w + p + g;
    match s
    case Entrante =>
      assert BoardIds(b.Set(s, cs)) == n + c + w + p + g;
    case Calificado =>
      assert BoardIds(b.Set(s, cs)) == e + n + w + p + g;
    case Espera =>
      assert BoardIds(b.Set(s, cs)) == e + c + n + p + g;
    case Perdido =>
      assert BoardIds(b.Set(s, cs)) == e + c + w + n + g;
    case Ganado =>
      assert BoardIds(b.Set(s, cs)) == e + c + w + p + n;
  }


  /** Board ids and size, column by column, after replacing two distinct columns. */
  lemma BoardIdsTwoColumns(b: Board, s: Stage, cs: seq<Prospect>, t: Stage, ct: seq<Prospect>)
    requires s != t
    ensures BoardIds(b.Set(s, cs).Set(t, ct)) + multiset(IdsOf(b.Get(s))) + multiset(IdsOf(b.Get(t)))
         == BoardIds(b) + multiset(IdsOf(cs)) + multiset(IdsOf(ct))
    ensures Total(b.Set(s, cs).Set(t, ct)) + |b.Get(s)| + |b.Get(t)| == Total(b) + |cs| + |ct|
  {
    var mid := b.Set(s, cs);
    assert mid.Get(t) == b.Get(t);
    BoardIdsSet(b, s, cs);
    BoardIdsSet(mid, t, ct);
    AddChain(BoardIds(mid.Set(t, ct)), BoardIds(mid), BoardIds(b), multiset(IdsOf(b.Get(s))),
             multiset(IdsOf(b.Get(t))), multiset(IdsOf(cs)), multiset(IdsOf(ct)));
  }

  /** Two replacements in a row, as multisets: what each one removed and added adds up. */
  lemma AddChain<T>(x2: multiset<T>, x1: multiset<T>, x0: multiset<T>, a: multiset<T>, a': multiset<T>,
                    c: multiset<T>, c': multiset<T>)
    requires x1 + a == x0 + c
    requires x2 + a' == x1 + c'
    ensures x2 + a + a' == x0 + c + c'
  {
    forall x
      ensures (x2 + a + a')[x] == (x0 + c + c')[x]
    {
      assert (x1 + a)[x] == (x0 + c)[x];
      assert (x2 + a')[x] == (x1 + c')[x];
    }
  }

  /** The outcome of a drop that the handler carries out, spelled out. */
  lemma MovedOutcome(b: Board, d: DropResult)
    requires d.destination.Some? && d.destination.value != d.source
    requires d.source.index < |b.Get(d.source.column)|
    ensures var src := d.source.column; var dst := d.destination.value.column;
      var moved := b.Get(src)[d.source.index].(state := Some(Id(dst)));
      var destCopy := if src == dst then b.Get(dst)[d.source.index := moved] else b.Get(dst);
      OnDragEnd(b, d) == Moved(b.Set(src, RemoveAt(b.Get(src), d.source.index)).Set(dst, SpliceInsert(destCopy, d.destination.value.index, moved)),
                               StateWrite(moved.id, Id(dst)))
  {
  }

  /** A move between two different columns: the source loses exactly the card at the source index,
      the destination gains it, restamped with the destination stage, at the (clamped) destination
      index, and the other three columns are untouched. */
  lemma CrossColumnMove(b: Board, d: DropResult)
    requires d.destination.Some? && d.destination.value.column != d.source.column
    requires d.source.index < |b.Get(d.source.column)|
    ensures var r := OnDragEnd(b, d);
      var src := d.source.column; var dst := d.destination.value.column;
      var col := b.Get(src); var i := d.source.index;
      var k := SpliceStart(|b.Get(dst)|, d.destination.value.index);
      && r.Moved?
      && r.board.Get(src) == RemoveAt(col, i)
      && r.board.Get(dst) == SpliceInsert(b.Get(dst), d.destination.value.index, col[i].(state := Some(Id(dst))))
      && r.board.Get(dst)[k] == col[i].(state := Some(Id(dst)))
      && (forall t: Stage :: t != src && t != dst ==> r.board.Get(t) == b.Get(t))
      && Writes(r) == [StateWrite(col[i].id, Id(dst))]
  {
    MovedOutcome(b, d);
  }

  /** A move between two different columns neither creates nor loses a card. */
  lemma CrossColumnConservesCards(b: Board, d: DropResult)
    requires d.destination.Some? && d.destination.value.column != d.source.column
    requires d.source.index < |b.Get(d.source.column)|
    ensures var r := OnDragEnd(b, d);
      r.Moved? && Total(r.board) == Total(b) && BoardIds(r.board) == BoardIds(b)
  {
    var src := d.source.column;
    var dst := d.destination.value.column;
    var col := b.Get(src);
    var i := d.source.index;
    var moved := col[i].(state := Some(Id(dst)));
    var cs := RemoveAt(col, i);
    var ct := SpliceInsert(b.Get(dst), d.destination.value.index, moved);
    MovedOutcome(b, d);
    var after := b.Set(src, cs).Set(dst, ct);
    assert OnDragEnd(b, d).board == after;
    IdsOfRemoveAt(col, i);
    IdsOfSpliceInsert(b.Get(dst), d.destination.value.index, moved);
    BoardIdsTwoColumns(b, src, cs, dst, ct);
    MultisetCancel(BoardIds(after), BoardIds(b), multiset(IdsOf(col)), multiset(IdsOf(b.Get(dst))),
                   multiset(IdsOf(cs)), multiset(IdsOf(ct)), multiset{col[i].id});
  }

  /** The multiset bookkeeping of a move: one element leaves one part and joins another. */
  lemma MultisetCancel<T>(after: multiset<T>, before: multiset<T>, a: multiset<T>, c: multiset<T>,
                          a': multiset<T>, c': multiset<T>, e: multiset<T>)
    requires a' + e == a && c' == c + e
    requires after + a + c == before + a' + c'
    ensures after == before
  {
    forall x
      ensures after[x] == before[x]
    {
      assert (after + a + c)[x] == (before + a' + c')[x];
    }
  }

  /** After a move between columns whose source column has distinct ids, the moved id has left that column. */
  lemma MovedCardLeavesSource(b: Board, d: DropResult)
    requires d.destination.Some? && d.destination.value.column != d.source.column
    requires d.source.index < |b.Get(d.source.column)|
    requires var col := b.Get(d.source.column); forall i, j :: 0 <= i < j < |col| ==> col[i].id != col[j].id
    ensures var col := b.Get(d.source.column);
      forall p :: p in OnDragEnd(b, d).board.Get(d.source.column) ==> p.id != col[d.source.index].id
  {
    var col := b.Get(d.source.column);
    var i := d.source.index;
    var r := OnDragEnd(b, d).board.Get(d.source.column);
    assert r == RemoveAt(col, i);
    forall p | p in r
      ensures p.id != col[i].id
    {
      var j :| 0 <= j < |r| && r[j] == p;
      if j < i {
        assert p == col[j];
      } else {
        assert p == col[j + 1];
      }
    }
  }

  /** A drop inside one column on a well-formed board: the column becomes the original column with
      the dragged card inserted once more, so it grows by one and the card is shown twice; the other
      columns are untouched and one (unchanged-value) state write is still issued. */
  lemma SameColumnDuplicatesCard(b: Board, d: DropResult)
    requires WellFormed(b)
    requires d.destination.Some? && d.destination.value.column == d.source.column
    requires d.destination.value.index != d.source.index
    requires d.source.index < |b.Get(d.source.column)|
    ensures var r := OnDragEnd(b, d);
      var s := d.source.column; var col := b.Get(s); var card := col[d.source.index];
      && r.Moved?
      && r.board.Get(s) == SpliceInsert(col, d.destination.value.index, card)
      && |r.board.Get(s)| == |col| + 1
      && multiset(r.board.Get(s))[card] == multiset(col)[card] + 1
      && Total(r.board) == Total(b) + 1
      && (forall t: Stage :: t != s ==> r.board.Get(t) == b.Get(t))
      && Writes(r) == [StateWrite(card.id, Id(s))]
  {
    var s := d.source.column;
    var col := b.Get(s);
    var i := d.source.index;
    assert col[i].state == Some(Id(s));
    assert col[i].(state := Some(Id(s))) == col[i];
    assert col[i := col[i]] == col;
    SpliceInsertMultiset(col, d.destination.value.index, col[i]);
  }

  /** A concrete board showing the duplication: dragging the first of two cards one place down
      in `entrante` leaves three cards there, the first one twice. */
  lemma SameColumnCounterexample(p: Prospect, q: Prospect)
    requires p.state == Some("entrante") && q.state == Some("entrante")
    ensures var b := EmptyBoard.Set(Entrante, [p, q]);
      var r := OnDragEnd(b, DropResult(Location(Entrante, 0), Some(Location(Entrante, 1))));
      r.Moved? && r.board.Get(Entrante) == [p, p, q] && Total(r.board) == 3 && Total(b) == 2
  {
    var b := EmptyBoard.Set(Entrante, [p, q]);
    var r := OnDragEnd(b, DropResult(Location(Entrante, 0), Some(Location(Entrante, 1))));
    assert [p, q][0].(state := Some(Id(Entrante))) == p;
    assert RemoveAt([p, q], 0) == [q];
    assert SpliceInsert([p, q][0 := p], 1, p) == [p, p, q];
  }

  /** Every card of a column carries the given state. */
  predicate AllInState(col: seq<Prospect>, st: string) {
    forall i :: 0 <= i < |col| ==> col[i].state == Some(st)
  }

  lemma WellFormedIffColumns(b: Board)
    ensures WellFormed(b) <==> forall s: Stage :: AllInState(b.Get(s), Id(s))
  {
  }

  lemma RemoveAtKeepsState(col: seq<Prospect>, i: nat, st: string)
    requires AllInState(col, st) && i < |col|
    ensures AllInState(RemoveAt(col, i), st)
  {
    var r := RemoveAt(col, i);
    forall j | 0 <= j < |r|
      ensures r[j].state == Some(st)
    {
      if j >= i {
        assert r[j] == col[j + 1];
      }
    }
  }

  lemma SpliceInsertKeepsState(col: seq<Prospect>, k: int, p: Prospect, st: string)
    requires AllInState(col, st) && p.state == Some(st)
    ensures AllInState(SpliceInsert(col, k, p), st)
  {
    var j := SpliceStart(|col|, k);
    assert SpliceInsert(col, k, p) == col[..j] + [p] + col[j..];
  }

  /** Every drop keeps the board well formed: the moved card is restamped with its new column's id. */
  lemma DragKeepsWellFormed(b: Board, d: DropResult)
    requires WellFormed(b)
    ensures WellFormed(After(b, OnDragEnd(b, d)))
  {
    var r := OnDragEnd(b, d);
    WellFormedIffColumns(b);
    if r.Moved? {
      var src := d.source.column;
      var dst := d.destination.value.column;
      var moved := b.Get(src)[d.source.index].(state := Some(Id(dst)));
      var destCopy := if src == dst then b.Get(dst)[d.source.index := moved] else b.Get(dst);
      MovedOutcome(b, d);
      assert AllInState(destCopy, Id(dst));
      SpliceInsertKeepsState(destCopy, d.destination.value.index, moved, Id(dst));
      RemoveAtKeepsState(b.Get(src), d.source.index, Id(src));
      WellFormedIffColumns(r.board);
    }
  }

  // ---------------------------------------------------------------------------
  // Evidently intended behaviour of a drop inside one column

  /** The handler with a same-column drop handled on a single copy of the column: the card is
      taken out and reinserted, so the column is reordered rather than grown. */
  function ReorderingOnDragEnd(b: Board, d: DropResult): (r: DragOutcome)
    ensures d.destination.None? ==> r == Ignored
    ensures d.destination.Some? && d.destination.value == d.source ==> r == Ignored
    ensures r.Crashed? <==> d.destination.Some? && d.destination.value != d.source && d.source.index >= |b.Get(d.source.column)|
    ensures r.Moved? <==> d.destination.Some? && d.destination.value != d.source && d.source.index < |b.Get(d.source.column)|
    ensures d.destination.Some? && d.destination.value.column != d.source.column ==> r == OnDragEnd(b, d)
  {
    match d.destination
    case None => Ignored
    case Some(dst) =>
      if d.source.column != dst.column then OnDragEnd(b, d)
      else if d.source.index == dst.index then Ignored
      else
        var col := b.Get(dst.column);
        if d.source.index >= |col| then Crashed
        else
          var moved := col[d.source.index].(state := Some(Id(dst.column)));
          var reordered := SpliceInsert(RemoveAt(col, d.source.index), dst.index, moved);
          Moved(b.Set(dst.column, reordered), StateWrite(moved.id, Id(dst.column)))
  }

  /** With the single-copy reorder no drop ever creates or loses a card. */
  lemma ReorderingConservesCards(b: Board, d: DropResult)
    ensures var r := After(b, ReorderingOnDragEnd(b, d));
      Total(r) == Total(b) && BoardIds(r) == BoardIds(b)
  {
    var o := ReorderingOnDragEnd(b, d);
    if o.Moved? {
      var dst := d.destination.value.column;
      if d.source.column != dst {
        CrossColumnConservesCards(b, d);
      } else {
        var col := b.Get(dst);
        var i := d.source.index;
        var moved := col[i].(state := Some(Id(dst)));
        IdsOfRemoveAt(col, i);
        IdsOfSpliceInsert(RemoveAt(col, i), d.destination.value.index, moved);
        assert multiset(IdsOf(o.board.Get(dst))) == multiset(IdsOf(col));
        assert forall t: Stage :: t != dst ==> o.board.Get(t) == b.Get(t);
      }
    }
  }

  /** With the single-copy reorder every drop still keeps the board well formed. */
  lemma ReorderingKeepsWellFormed(b: Board, d: DropResult)
    requires WellFormed(b)
    ensures WellFormed(After(b, ReorderingOnDragEnd(b, d)))
  {
    var o := ReorderingOnDragEnd(b, d);
    if o.Moved? {
      var dst := d.destination.value.column;
      if d.source.column != dst {
        DragKeepsWellFormed(b, d);
      } else {
        var col := b.Get(dst);
        var i := d.source.index;
        var moved := col[i].(state := Some(Id(dst)));
        WellFormedIffColumns(b);
        RemoveAtKeepsState(col, i, Id(dst));
        SpliceInsertKeepsState(RemoveAt(col, i), d.destination.value.index, moved, Id(dst));
        WellFormedIffColumns(o.board);
      }
    }
  }

  /** On the board of the duplication example the single-copy reorder swaps the two cards. */
  lemma ReorderingSwapsExample(p: Prospect, q: Prospect)
    requires p.state == Some("entrante") && q.state == Some("entrante")
    ensures var b := EmptyBoard.Set(Entrante, [p, q]);
      var r := ReorderingOnDragEnd(b, DropResult(Location(Entrante, 0), Some(Location(Entrante, 1))));
      r.Moved? && r.board.Get(Entrante) == [q, p] && Total(r.board) == 2
  {
    assert [p, q][0].(state := Some(Id(Entrante))) == p;
    assert RemoveAt([p, q], 0) == [q];
    assert SpliceInsert([q], 1, p) == [q, p];
  }
}

=== FILE: global_discount.dfy ===
/** The global-discount modal: a name search for products to exclude, the
    exclusion list, and the rule that appends the new discount to every product
    neither in the excluded category nor on the exclusion list. */
module GlobalDiscount {
  import opened Base
  import opened Catalog
  import Text

  /** The modal's state: the excluded category id ("" when none is chosen), the exclusion query,
      its results, the exclusion list, and whether the results dropdown is open. */
  datatype DiscountState = DiscountState(
    excludedCategory: string,
    query: string,
    results: seq<Product>,
    excluded: seq<Product>,
    dropdownOpen: bool)

  const InitialDiscountState: DiscountState := DiscountState("", "", [], [], false)

  /** The search effect: a non-empty query lists the products whose name contains it, ignoring case,
      and opens the dropdown; an empty query lists nothing and closes it. */
  function SearchEffect(st: DiscountState, products: seq<Product>): (r: DiscountState)
    ensures st.query != "" ==> r.results == SearchByName(products, st.query) && r.dropdownOpen
    ensures st.query == "" ==> r.results == [] && !r.dropdownOpen
    ensures r.query == st.query && r.excluded == st.excluded && r.excludedCategory == st.excludedCategory
  {
    if st.query != "" then st.(results := SearchByName(products, st.query), dropdownOpen := true)
    else st.(results := [], dropdownOpen := false)
  }

  /** Typing in the exclusion search box. */
  function QueryChanged(st: DiscountState, products: seq<Product>, query: string): (r: DiscountState)
    ensures r == SearchEffect(st.(query := query), products)
  {
    SearchEffect(st.(query := query), products)
  }

  /** A product listed by the exclusion search has the query in its name, ignoring case, and every
      such product of the catalog is listed. */
  lemma ExclusionSearchFindsNameMatches(st: DiscountState, products: seq<Product>, query: string)
    requires query != ""
    ensures var r := QueryChanged(st, products, query);
      r.dropdownOpen && forall p :: p in r.results <==> p in products && NameMatches(p, query)
  {
    FilterMembership(products, NameMatchesQuery(query));
  }

  /** Whether the results dropdown is on screen. */
  predicate DropdownShown(st: DiscountState) {
    st.dropdownOpen && |st.results| > 0
  }

  /** Choosing a result: it is appended to the exclusion list (even if already there), and the query,
      the results and the dropdown are cleared. */
  function AddExcluded(st: DiscountState, p: Product): (r: DiscountState)
    ensures r.excluded == st.excluded + [p]
    ensures r.query == "" && r.results == [] && !r.dropdownOpen
    ensures r.excludedCategory == st.excludedCategory
  {
    st.(excluded := st.excluded + [p], query := "", results := [], dropdownOpen := false)
  }

  /** The search effect that follows the cleared query leaves the cleared state as it is. */
  lemma AddExcludedSettles(st: DiscountState, p: Product, products: seq<Product>)
    ensures SearchEffect(AddExcluded(st, p), products) == AddExcluded(st, p)
    ensures !DropdownShown(AddExcluded(st, p))
  {
  }

  /** Removing an exclusion: every entry with that id goes, the rest keep their order. */
  function RemoveExcluded(st: DiscountState, id: string): (r: DiscountState)
    ensures id !in Ids(r.excluded)
    ensures IsSubsequence(r.excluded, st.excluded)
    ensures forall p :: p in r.excluded <==> p in st.excluded && p.id != id
    ensures r == st.(excluded := r.excluded)
  {
    FilterIsSubsequence(st.excluded, OtherThan(id));
    FilterMembership(st.excluded, OtherThan(id));
    st.(excluded := Filter(st.excluded, OtherThan(id)))
  }

  /** Adding a product and then removing its id leaves no entry with that id, and the entries with
      other ids as they were. */
  lemma RemoveUndoesAdd(st: DiscountState, p: Product)
    ensures var r := RemoveExcluded(AddExcluded(st, p), p.id);
      r.excluded == Filter(st.excluded, OtherThan(p.id))
  {
    FilterSnoc(st.excluded, p, OtherThan(p.id));
  }

  /** Whether a stored product receives the discount: its category field differs from the excluded
      category (a missing field always differs), and no excluded entry has its id. */
  predicate Eligible(p: Product, excludedCategory: string, excluded: seq<Product>) {
    p.category != Some(excludedCategory) && p.id !in Ids(excluded)
  }

  /** The update written to one product: its whole new discount list. */
  datatype DiscountWrite = DiscountWrite(productId: string, discounts: seq<Discount>)

  /** A product's discount list, or the empty list when the field is missing. */
  function DiscountsOf(p: Product): seq<Discount> {
    if p.discounts.Some? then p.discounts.value else []
  }

  /** The writes issued while walking the stored products, in store order. */
  function DiscountWrites(stored: seq<Product>, excludedCategory: string, excluded: seq<Product>, d: Discount): (r: seq<DiscountWrite>)
    ensures |r| <= |stored|
    ensures forall w :: w in r <==> exists p :: (p in stored && Eligible(p, excludedCategory, excluded)
      && w == DiscountWrite(p.id, DiscountsOf(p) + [d]))
    decreases |stored|
  {
    if stored == [] then []
    else
      var rest := DiscountWrites(stored[1..], excludedCategory, excluded, d);
      var p := stored[0];
      assert forall q :: q in stored <==> q == p || q in stored[1..];
      if Eligible(p, excludedCategory, excluded) then [DiscountWrite(p.id, DiscountsOf(p) + [d])] + rest else rest
  }

  /** Where the first decimal point of `s` is, or `|s|` when it has none. */
  function PointAt(s: string): (k: nat)
    ensures k <= |s|
    ensures k < |s| ==> s[k] == '.'
  {
    if s == [] || s[0] == '.' then 0 else 1 + PointAt(s[1..])
  }

  /** The text after an optional leading minus sign. */
  function Unsigned(s: string): string {
    if |s| > 0 && s[0] == '-' then s[1..] else s
  }

  /** Whether every character of `s` is the digit 0. */
  predicate AllZeros(s: string) {
    forall i :: 0 <= i < |s| ==> s[i] == '0'
  }

  /** An unsigned decimal whose value is whole: digits, then optionally a point and one or more
      digits that are all 0, with at least one digit in all. */
  predicate WholeUnsigned(u: string) {
    var k := PointAt(u);
    && Text.AllDigits(u[..k])
    && (k == |u| ==> k > 0)
    && (k < |u| ==> k + 1 < |u| && AllZeros(u[k + 1..]))
  }

  /** Whether the percentage input lets its text through.  It is a number input with no `step` and no
      `min`, so the step is 1 from base 0: the text must be a decimal number (an optional minus sign,
      then digits, a point and digits, with at least one digit on either side of a point that is there)
      whose value is whole, which for a decimal means every digit after the point is 0. */
  predicate WholeNumberText(s: string) {
    WholeUnsigned(Unsigned(s))
  }

  /** A run of digits followed by anything: its first point is after the digits. */
  lemma {:induction false} PointAtAfterDigits(d: string, rest: string)
    requires Text.AllDigits(d)
    ensures PointAt(d + rest) == |d| + PointAt(rest)
    decreases |d|
  {
    if d != [] {
      assert (d + rest)[1..] == d[1..] + rest;
      PointAtAfterDigits(d[1..], rest);
    } else {
      assert d + rest == rest;
    }
  }

  /** A leading minus sign, or none, is what `Unsigned` drops. */
  lemma UnsignedDropsSign(sign: string, rest: string)
    requires sign == "" || sign == "-"
    requires rest == [] || rest[0] != '-'
    ensures Unsigned(sign + rest) == rest
  {
    if sign == "-" { assert (sign + rest)[1..] == rest; } else { assert sign + rest == rest; }
  }

  /** Digits with no point pass exactly when there is at least one. */
  lemma WholeNumberTextOfDigits(sign: string, d: string)
    requires sign == "" || sign == "-"
    requires Text.AllDigits(d)
    ensures WholeNumberText(sign + d) <==> |d| > 0
  {
    UnsignedDropsSign(sign, d);
    PointAtAfterDigits(d, []);
    assert d + [] == d;
  }

  /** Digits, a point and digits pass exactly when the digits after the point are there and all 0. */
  lemma WholeNumberTextOfPointed(sign: string, d: string, f: string)
    requires sign == "" || sign == "-"
    requires Text.AllDigits(d) && Text.AllDigits(f)
    ensures WholeNumberText(sign + d + "." + f) <==> |f| > 0 && AllZeros(f)
  {
    var u := d + "." + f;
    assert sign + d + "." + f == sign + u;
    UnsignedDropsSign(sign, u);
    assert PointAt(u) == |d| by {
      PointAtAfterDigits(d, "." + f);
      assert d + ("." + f) == u;
      assert ("." + f)[0] == '.';
    }
    assert u[..|d|] == d;
    assert u[|d| + 1..] == f;
  }

  /** The texts the percentage input lets through, described by their parts: with an optional minus
      sign in front, a run of digits passes exactly when it is not empty, and digits, a point and more
      digits pass exactly when the digits after the point are there and are all 0. */
  lemma WholeNumberTextByParts(sign: string, d: string, f: string)
    requires sign == "" || sign == "-"
    requires Text.AllDigits(d) && Text.AllDigits(f)
    ensures WholeNumberText(sign + d) <==> |d| > 0
    ensures WholeNumberText(sign + d + "." + f) <==> |f| > 0 && AllZeros(f)
  {
    WholeNumberTextOfDigits(sign, d);
    WholeNumberTextOfPointed(sign, d, f);
  }

  /** Whole numbers pass the percentage input, signed or not. */
  lemma WholeNumberTextAcceptsWhole()
    ensures WholeNumberText("12") && WholeNumberText("-3")
  {
    assert WholeNumberText("12") by { WholeNumberTextByParts("", "12", ""); assert "" + "12" == "12"; }
    assert WholeNumberText("-3") by { WholeNumberTextByParts("-", "3", ""); assert "-" + "3" == "-3"; }
  }

  /** Whole numbers written with zeros after the point pass the percentage input too. */
  lemma WholeNumberTextAcceptsZeroFraction()
    ensures WholeNumberText("12.0") && WholeNumberText(".0")
  {
    assert WholeNumberText("12.0") by { WholeNumberTextByParts("", "12", "0"); assert "" + "12" + "." + "0" == "12.0"; }
    assert WholeNumberText(".0") by { WholeNumberTextByParts("", "", "0"); assert "" + "" + "." + "0" == ".0"; }
  }

  /** A fractional percentage such as 12.5 does not pass the percentage input, and neither do the
      empty text, a lone minus sign or a point with no digits after it. */
  lemma WholeNumberTextRefusesOthers()
    ensures !WholeNumberText("12.5") && !WholeNumberText("") && !WholeNumberText("-") && !WholeNumberText("1.")
  {
    assert !WholeNumberText("12.5") by {
      WholeNumberTextByParts("", "12", "5");
      assert "" + "12" + "." + "5" == "12.5";
      assert !AllZeros("5") by { assert "5"[0] != '0'; }
    }
    assert !WholeNumberText("") by { WholeNumberTextByParts("", "", ""); assert "" + "" == ""; }
    assert !WholeNumberText("-") by { WholeNumberTextByParts("-", "", ""); assert "-" + "" == "-"; }
    assert !WholeNumberText("1.") by { WholeNumberTextByParts("", "1", ""); assert "" + "1" + "." + "" == "1."; }
  }

  /** What submitting the discount form leads to: the browser blocks it (a required field is empty,
      or the percentage is not a whole number), the product fetch fails (nothing is written and the
      modal stays open), or the writes are issued and the modal closes. */
  datatype ApplyOutcome = Blocked | FetchFailed | Applied(writes: seq<DiscountWrite>)

  /** Submitting the form through its Enviar button with the concept and percentage fields; `fetched`
      is the stored product list read when the form is submitted, or None when that read fails. */
  function Submit(st: DiscountState, concept: string, percentage: string, fetched: Option<seq<Product>>): (r: ApplyOutcome)
    ensures concept == "" || percentage == "" || !WholeNumberText(percentage) <==> r == Blocked
    ensures concept != "" && WholeNumberText(percentage) && fetched.None? ==> r == FetchFailed
    ensures r.Applied? ==> (fetched.Some?
      && r.writes == DiscountWrites(fetched.value, st.excludedCategory, st.excluded, Discount(concept, percentage)))
  {
    if concept == "" || percentage == "" || !WholeNumberText(percentage) then Blocked
    else match fetched
      case None => FetchFailed
      case Some(stored) => Applied(DiscountWrites(stored, st.excludedCategory, st.excluded, Discount(concept, percentage)))
  }

  /** A fractional percentage never reaches the store: the browser refuses 12.5 against the input's
      step of 1, while 12 and 12.0 are sent. */
  lemma FractionalPercentageIsBlocked(st: DiscountState, stored: seq<Product>)
    ensures Submit(st, "Verano", "12.5", Some(stored)) == Blocked
    ensures Submit(st, "Verano", "12", Some(stored)).Applied?
    ensures Submit(st, "Verano", "12.0", Some(stored)).Applied?
  {
    WholeNumberTextAcceptsWhole();
    WholeNumberTextAcceptsZeroFraction();
    WholeNumberTextRefusesOthers();
  }

  /** The discount list a product ends with once the writes have landed: the last write for its id,
      or its own list when there is none. */
  function LastWriteFor(writes: seq<DiscountWrite>, id: string): Option<seq<Discount>> {
    if writes == [] then None
    else if writes[|writes| - 1].productId == id then Some(writes[|writes| - 1].discounts)
    else LastWriteFor(writes[..|writes| - 1], id)
  }

  /** The stored products after the writes have landed. */
  function ApplyWrites(stored: seq<Product>, writes: seq<DiscountWrite>): (r: seq<Product>)
    ensures |r| == |stored|
    ensures forall i :: 0 <= i < |r| ==> r[i].id == stored[i].id
  {
    seq(|stored|, i requires 0 <= i < |stored| =>
      var w := LastWriteFor(writes, stored[i].id);
      if w.Some? then stored[i].(discounts := Some(w.value)) else stored[i])
  }

  /** The writes of a walk over `stored` name only products of `stored`, each once when ids are distinct. */
  lemma {:induction false} LastWriteOfWalk(stored: seq<Product>, excludedCategory: string, excluded: seq<Product>, d: Discount, i: nat)
    requires Distinct(Ids(stored)) && i < |stored|
    ensures var p := stored[i];
      LastWriteFor(DiscountWrites(stored, excludedCategory, excluded, d), p.id)
        == if Eligible(p, excludedCategory, excluded) then Some(DiscountsOf(p) + [d]) else None
    decreases |stored|
  {
    var ws := DiscountWrites(stored, excludedCategory, excluded, d);
    var rest := DiscountWrites(stored[1..], excludedCategory, excluded, d);
    assert Ids(stored[1..]) == Ids(stored)[1..];
    if i == 0 {
      NoWriteForAbsentId(stored[1..], excludedCategory, excluded, d, stored[0].id);
      if Eligible(stored[0], excludedCategory, excluded) {
        LastWriteForCons(DiscountWrite(stored[0].id, DiscountsOf(stored[0]) + [d]), rest, stored[0].id);
      }
    } else {
      LastWriteOfWalk(stored[1..], excludedCategory, excluded, d, i - 1);
      assert Ids(stored)[0] != Ids(stored)[i];
      if Eligible(stored[0], excludedCategory, excluded) {
        LastWriteForCons(DiscountWrite(stored[0].id, DiscountsOf(stored[0]) + [d]), rest, stored[i].id);
      }
    }
  }

  /** A write in front of the others decides only when no later write has the same id. */
  lemma {:induction false} LastWriteForCons(w: DiscountWrite, ws: seq<DiscountWrite>, id: string)
    ensures LastWriteFor([w] + ws, id)
      == if LastWriteFor(ws, id).Some? then LastWriteFor(ws, id)
         else if w.productId == id then Some(w.discounts) else None
    decreases |ws|
  {
    if ws != [] {
      var all := [w] + ws;
      assert all[..|all| - 1] == [w] + ws[..|ws| - 1];
      assert all[|all| - 1] == ws[|ws| - 1];
      LastWriteForCons(w, ws[..|ws| - 1], id);
    } else {
      assert ([w] + ws)[..0] == [];
    }
  }

  /** A walk over products none of which has `id` writes nothing for `id`. */
  lemma {:induction false} NoWriteForAbsentId(stored: seq<Product>, excludedCategory: string, excluded: seq<Product>, d: Discount, id: string)
    requires id !in Ids(stored)
    ensures LastWriteFor(DiscountWrites(stored, excludedCategory, excluded, d), id).None?
    decreases |stored|
  {
    if stored != [] {
      assert Ids(stored[1..]) == Ids(stored)[1..];
      assert stored[0].id == Ids(stored)[0];
      NoWriteForAbsentId(stored[1..], excludedCategory, excluded, d, id);
      if Eligible(stored[0], excludedCategory, excluded) {
        LastWriteForCons(DiscountWrite(stored[0].id, DiscountsOf(stored[0]) + [d]),
                         DiscountWrites(stored[1..], excludedCategory, excluded, d), id);
      }
    }
  }

  /** Once the writes of an applied global discount land, every eligible product's discount list is
      its old list (or the empty list) with the new discount appended last, and every other product
      is exactly as it was. */
  lemma AppliedDiscountLandsOnEligibleOnly(st: DiscountState, concept: string, percentage: string, stored: seq<Product>, i: nat)
    requires Distinct(Ids(stored)) && i < |stored|
    requires concept != "" && WholeNumberText(percentage)
    ensures var o := Submit(st, concept, percentage, Some(stored));
      var after := ApplyWrites(stored, o.writes)[i];
      && o.Applied?
      && (Eligible(stored[i], st.excludedCategory, st.excluded) ==>
            after == stored[i].(discounts := Some(DiscountsOf(stored[i]) + [Discount(concept, percentage)])))
      && (!Eligible(stored[i], st.excludedCategory, st.excluded) ==> after == stored[i])
  {
    LastWriteOfWalk(stored, st.excludedCategory, st.excluded, Discount(concept, percentage), i);
  }

  /** With no category chosen, the excluded category is "": products without a category field get
      the discount, while products whose category field is the empty string do not. */
  lemma NoCategoryChosen(p: Product, excluded: seq<Product>)
    requires p.id !in Ids(excluded)
    ensures p.category.None? ==> Eligible(p, "", excluded)
    ensures p.category == Some("") ==> !Eligible(p, "", excluded)
  {
  }

  /** An excluded product never receives the discount, whatever its category. */
  lemma ExcludedProductGetsNoWrite(st: DiscountState, concept: string, percentage: string, stored: seq<Product>, p: Product)
    requires p in st.excluded
    ensures var o := Submit(st, concept, percentage, Some(stored));
      o.Applied? ==> forall w :: w in o.writes ==> w.productId != p.id
  {
    var i :| 0 <= i < |st.excluded| && st.excluded[i] == p;
    assert Ids(st.excluded)[i] == p.id;
  }
}

=== FILE: grouping.dfy ===
/** Grouping a list into labelled buckets the way a `reduce` into a plain
    object does: a bucket is created the first time its heading is met, each
    element is pushed onto its heading's bucket, and the buckets are visited in
    the order their labels were created. */
module Grouping {
  import opened Base

  /** One bucket: its heading and the elements pushed onto it, in push order. */
  datatype Group<T> = Group(heading: string, items: seq<T>)

  function Labels<T>(gs: seq<Group<T>>): (r: seq<string>)
    ensures |r| == |gs|
    ensures forall i :: 0 <= i < |gs| ==> r[i] == gs[i].heading
  {
    seq(|gs|, i requires 0 <= i < |gs| => gs[i].heading)
  }

  /** The elements of the bucket labelled `heading`; none when there is no such bucket. */
  function ItemsFor<T>(gs: seq<Group<T>>, heading: string): seq<T> {
    if gs == [] then []
    else if gs[0].heading == heading then gs[0].items
    else ItemsFor(gs[1..], heading)
  }

  /** All elements, bucket after bucket: the order a nested `for … in` / `for … of` loop visits them. */
  function Flatten<T>(gs: seq<Group<T>>): (r: seq<T>)
    ensures gs == [] ==> r == []
  {
    if gs == [] then [] else gs[0].items + Flatten(gs[1..])
  }

  /** One `reduce` step: create the bucket for `heading` if it is missing, then push `x` onto it. */
  function AddTo<T>(gs: seq<Group<T>>, heading: string, x: T): (r: seq<Group<T>>)
    ensures |r| >= |gs|
  {
    if gs == [] then [Group(heading, [x])]
    else if gs[0].heading == heading then [gs[0].(items := gs[0].items + [x])] + gs[1..]
    else [gs[0]] + AddTo(gs[1..], heading, x)
  }

  /** The headings of a group followed by a list of groups. */
  lemma LabelsCons<T>(g: Group<T>, gs: seq<Group<T>>)
    ensures Labels([g] + gs) == [g.heading] + Labels(gs)
  {
  }

  /** Adding keeps the existing headings in place and appends the heading when it is new. */
  lemma {:induction false} AddToLabels<T>(gs: seq<Group<T>>, heading: string, x: T)
    ensures Labels(AddTo(gs, heading, x))
         == if heading in Labels(gs) then Labels(gs) else Labels(gs) + [heading]
  {
    var r := AddTo(gs, heading, x);
    if gs == [] {
      assert Labels(r) == [heading];
    } else {
      var g, tail := gs[0], gs[1..];
      assert gs == [g] + tail;
      LabelsCons(g, tail);
      var lt := Labels(tail);
      if g.heading == heading {
        assert r == [g.(items := g.items + [x])] + tail;
        LabelsCons(g.(items := g.items + [x]), tail);
      } else {
        var rest := AddTo(tail, heading, x);
        assert r == [g] + rest;
        AddToLabels(tail, heading, x);
        LabelsCons(g, rest);
        assert heading in Labels(gs) <==> heading in lt;
        if heading !in lt {
          assert [g.heading] + (lt + [heading]) == ([g.heading] + lt) + [heading];
        }
      }
    }
  }

  /** Adding appends the element to its heading's bucket and leaves the other buckets alone. */
  lemma {:induction false} AddToItems<T>(gs: seq<Group<T>>, heading: string, x: T)
    ensures forall l :: ItemsFor(AddTo(gs, heading, x), l) == ItemsFor(gs, l) + (if l == heading then [x] else [])
  {
    if gs != [] && gs[0].heading != heading {
      var r := AddTo(gs, heading, x);
      AddToItems(gs[1..], heading, x);
      assert r[1..] == AddTo(gs[1..], heading, x);
    } else if gs != [] {
      var r := AddTo(gs, heading, x);
      assert r[1..] == gs[1..];
    }
  }


  /** The labels of a list's elements, in list order. */
  function Keys<T>(xs: seq<T>, key: T -> string): (r: seq<string>)
    ensures |r| == |xs|
    ensures forall i :: 0 <= i < |xs| ==> r[i] == key(xs[i])
  {
    seq(|xs|, i requires 0 <= i < |xs| => key(xs[i]))
  }

  /** The selector of the elements whose heading is `heading`. */
  function WithKey<T>(key: T -> string, heading: string): T -> bool {
    (x: T) => key(x) == heading
  }

  /** The distinct values of `s`, each kept where it first occurs. */
  function FirstOccurrences(s: seq<string>): (r: seq<string>)
    ensures forall v :: v in r <==> v in s
    ensures Distinct(r)
  {
    if s == [] then []
    else
      var d := FirstOccurrences(s[..|s| - 1]);
      assert s == s[..|s| - 1] + [s[|s| - 1]];
      if s[|s| - 1] in d then d else d + [s[|s| - 1]]
  }

  /** One more element joins the bucket of its own heading only. */
  lemma GroupStep<T>(init: seq<T>, last: T, key: T -> string)
    ensures forall l :: (Filter(init + [last], WithKey(key, l))
      == Filter(init, WithKey(key, l)) + (if l == key(last) then [last] else []))
  {
    forall l {
      FilterSnoc(init, last, WithKey(key, l));
    }
  }

  /** One more element adds its heading at the end of the headings. */
  lemma KeysSnoc<T>(init: seq<T>, last: T, key: T -> string)
    ensures Keys(init + [last], key) == Keys(init, key) + [key(last)]
  {
  }

  /** The buckets built from `xs`: each heading's bucket holds exactly the elements carrying that heading,
      in list order, and the buckets come in the order their labels first occur. */
  function GroupBy<T>(xs: seq<T>, key: T -> string): (r: seq<Group<T>>)
    ensures forall l :: ItemsFor(r, l) == Filter(xs, WithKey(key, l))
    ensures Labels(r) == FirstOccurrences(Keys(xs, key))
  {
    if |xs| == 0 then []
    else
      var init := xs[..|xs| - 1];
      var last := xs[|xs| - 1];
      assert xs == init + [last];
      GroupStep(init, last, key);
      KeysSnoc(init, last, key);
      AddToLabels(GroupBy(init, key), key(last), last);
      AddToItems(GroupBy(init, key), key(last), last);
      AddTo(GroupBy(init, key), key(last), last)
  }

  /** In buckets with distinct labels, a bucket's elements are the ones held for its heading. */
  lemma {:induction false} ItemsForDistinct<T>(gs: seq<Group<T>>, i: nat)
    requires Distinct(Labels(gs)) && i < |gs|
    ensures ItemsFor(gs, gs[i].heading) == gs[i].items
  {
    if i > 0 {
      assert Labels(gs)[0] != Labels(gs)[i];
      assert Labels(gs[1..]) == Labels(gs)[1..];
      ItemsForDistinct(gs[1..], i - 1);
    }
  }

  /** No bucket is held for a heading none of the buckets carries. */
  lemma {:induction false} ItemsForAbsent<T>(gs: seq<Group<T>>, heading: string)
    requires heading !in Labels(gs)
    ensures ItemsFor(gs, heading) == []
  {
    if gs != [] {
      assert Labels(gs) == [gs[0].heading] + Labels(gs[1..]);
      ItemsForAbsent(gs[1..], heading);
    }
  }

  /** Every element of every bucket carries that bucket's heading. */
  ghost predicate WellLabelled<T>(gs: seq<Group<T>>, key: T -> string) {
    forall i, j :: 0 <= i < |gs| && 0 <= j < |gs[i].items| ==> key(gs[i].items[j]) == gs[i].heading
  }

  /** A bucket of a grouping holds exactly the elements carrying its heading, in list order. */
  lemma BucketIsFilter<T>(xs: seq<T>, key: T -> string, i: nat)
    requires i < |GroupBy(xs, key)|
    ensures var g := GroupBy(xs, key)[i]; g.items == Filter(xs, WithKey(key, g.heading))
  {
    ItemsForDistinct(GroupBy(xs, key), i);
  }

  /** A label occurs among the keys exactly when some element carries it. */
  lemma InKeys<T>(xs: seq<T>, key: T -> string, l: string)
    ensures l in Keys(xs, key) <==> exists i :: 0 <= i < |xs| && key(xs[i]) == l
  {
    if exists i :: 0 <= i < |xs| && key(xs[i]) == l {
      var i :| 0 <= i < |xs| && key(xs[i]) == l;
      assert Keys(xs, key)[i] == l;
    }
  }

  /** The headings of a grouping are exactly the labels its elements carry, each once. */
  lemma HeadingsAreKeys<T>(xs: seq<T>, key: T -> string)
    ensures Distinct(Labels(GroupBy(xs, key)))
    ensures forall l :: l in Labels(GroupBy(xs, key)) <==> exists i :: 0 <= i < |xs| && key(xs[i]) == l
  {
    var ks := Keys(xs, key);
    assert Labels(GroupBy(xs, key)) == FirstOccurrences(ks);
    forall l
      ensures l in FirstOccurrences(ks) <==> exists i :: 0 <= i < |xs| && key(xs[i]) == l
    {
      InKeys(xs, key, l);
    }
  }

  /** An element lies in a bucket exactly when it is in the list and carries the bucket's heading;
      with distinct headings, every element therefore lies in exactly one bucket, and no bucket is empty. */
  lemma GroupMembership<T>(xs: seq<T>, key: T -> string, i: nat)
    requires i < |GroupBy(xs, key)|
    ensures var g := GroupBy(xs, key)[i];
      && g.items != []
      && (forall x :: x in g.items <==> x in xs && key(x) == g.heading)
  {
    var r := GroupBy(xs, key);
    var g := r[i];
    BucketIsFilter(xs, key, i);
    FilterMembership(xs, WithKey(key, g.heading));
    HeadingsAreKeys(xs, key);
    assert g.heading in Labels(r) by {
      assert Labels(r)[i] == g.heading;
    }
    var k :| 0 <= k < |xs| && key(xs[k]) == g.heading;
    assert xs[k] in g.items;
  }

  /** Every bucket of a grouping holds only elements carrying its heading. */
  lemma GroupIsWellLabelled<T>(xs: seq<T>, key: T -> string)
    ensures WellLabelled(GroupBy(xs, key), key)
  {
    var r := GroupBy(xs, key);
    forall i, j | 0 <= i < |r| && 0 <= j < |r[i].items|
      ensures key(r[i].items[j]) == r[i].heading
    {
      BucketIsFilter(xs, key, i);
      assert WithKey(key, r[i].heading)(r[i].items[j]);
    }
  }

  /** The visit order restricted to one heading is the list order restricted to it: buckets never
      reorder the elements that share a heading. */
  lemma {:induction false} FilterFlatten<T>(gs: seq<Group<T>>, key: T -> string, heading: string)
    requires Distinct(Labels(gs)) && WellLabelled(gs, key)
    ensures Filter(Flatten(gs), WithKey(key, heading)) == ItemsFor(gs, heading)
  {
    if gs != [] {
      var rest := gs[1..];
      assert Labels(rest) == Labels(gs)[1..];
      assert WellLabelled(rest, key) by {
        forall i, j | 0 <= i < |rest| && 0 <= j < |rest[i].items|
          ensures key(rest[i].items[j]) == rest[i].heading
        {
          assert rest[i] == gs[i + 1];
        }
      }
      FilterFlatten(rest, key, heading);
      FilterAppend(gs[0].items, Flatten(rest), WithKey(key, heading));
      if gs[0].heading == heading {
        FilterKeepsAll(gs[0].items, WithKey(key, heading));
        forall i | 0 <= i < |rest|
          ensures Labels(rest)[i] != heading
        {
          assert Labels(gs)[0] != Labels(gs)[i + 1];
        }
        ItemsForAbsent(rest, heading);
      } else {
        FilterKeepsNone(gs[0].items, WithKey(key, heading));
      }
    }
  }

  /** Pushing one element adds exactly that element to the visit order's contents. */
  lemma {:induction false} FlattenAddTo<T>(gs: seq<Group<T>>, heading: string, x: T)
    ensures multiset(Flatten(AddTo(gs, heading, x))) == multiset(Flatten(gs)) + multiset{x}
  {
    if gs != [] && gs[0].heading != heading {
      var r := AddTo(gs, heading, x);
      assert r == [gs[0]] + AddTo(gs[1..], heading, x);
      assert r[1..] == AddTo(gs[1..], heading, x);
      FlattenAddTo(gs[1..], heading, x);
    } else if gs != [] {
      var r := AddTo(gs, heading, x);
      assert r[1..] == gs[1..];
    }
  }

  /** The buckets visited in order yield every element exactly as often as the list holds it. */
  lemma {:induction false} FlattenIsPermutation<T>(xs: seq<T>, key: T -> string)
    ensures multiset(Flatten(GroupBy(xs, key))) == multiset(xs)
  {
    if |xs| > 0 {
      var init := xs[..|xs| - 1];
      var last := xs[|xs| - 1];
      assert xs == init + [last];
      assert GroupBy(xs, key) == AddTo(GroupBy(init, key), key(last), last);
      FlattenIsPermutation(init, key);
      FlattenAddTo(GroupBy(init, key), key(last), last);
      assert multiset(xs) == multiset(init) + multiset{last};
    }
  }

  /** The visit order of a grouping: each element once, and the elements of one heading in list order. */
  lemma VisitOrder<T>(xs: seq<T>, key: T -> string, heading: string)
    ensures multiset(Flatten(GroupBy(xs, key))) == multiset(xs)
    ensures Filter(Flatten(GroupBy(xs, key)), WithKey(key, heading)) == Filter(xs, WithKey(key, heading))
  {
    FlattenIsPermutation(xs, key);
    HeadingsAreKeys(xs, key);
    GroupIsWellLabelled(xs, key);
    FilterFlatten(GroupBy(xs, key), key, heading);
  }

  /** Where a value first occurs in a list; the list's length when it does not occur. */
  function FirstIndex(s: seq<string>, v: string): (k: nat)
    ensures k <= |s|
    ensures k < |s| <==> v in s
    ensures k < |s| ==> s[k] == v
    ensures forall j :: 0 <= j < k ==> s[j] != v
  {
    if s == [] then 0
    else if s[0] == v then 0
    else 1 + FirstIndex(s[1..], v)
  }

  lemma FirstIndexSnoc(s: seq<string>, x: string, v: string)
    ensures v in s ==> FirstIndex(s + [x], v) == FirstIndex(s, v)
    ensures v !in s ==> FirstIndex(s + [x], v) >= |s|
  {
    var k := FirstIndex(s, v);
    if v in s {
      assert (s + [x])[k] == v;
      assert forall j :: 0 <= j < k ==> (s + [x])[j] == s[j];
    } else {
      assert forall j :: 0 <= j < |s| ==> (s + [x])[j] != v;
    }
  }

  /** Values listed in the order of their first occurrence in `s`. */
  ghost predicate InFirstOccurrenceOrder(s: seq<string>, d: seq<string>) {
    forall i, j :: 0 <= i < j < |d| ==> FirstIndex(s, d[i]) < FirstIndex(s, d[j])
  }

  lemma FirstOccurrencesOrderStep(init: seq<string>, x: string)
    requires InFirstOccurrenceOrder(init, FirstOccurrences(init))
    ensures InFirstOccurrenceOrder(init + [x], FirstOccurrences(init + [x]))
  {
    var s := init + [x];
    var d0 := FirstOccurrences(init);
    var d := FirstOccurrences(s);
    assert s[..|s| - 1] == init;
    assert d == if x in d0 then d0 else d0 + [x];
    forall i, j | 0 <= i < j < |d|
      ensures FirstIndex(s, d[i]) < FirstIndex(s, d[j])
    {
      assert d[i] == d0[i] && d0[i] in init;
      FirstIndexSnoc(init, x, d0[i]);
      if j < |d0| {
        assert d[j] == d0[j] && d0[j] in init;
        FirstIndexSnoc(init, x, d0[j]);
      } else {
        assert d[j] == x && x !in init;
        FirstIndexSnoc(init, x, x);
      }
    }
  }

  /** The first-occurrence list orders values by where they first occur. */
  lemma {:induction false} FirstOccurrencesOrder(s: seq<string>)
    ensures InFirstOccurrenceOrder(s, FirstOccurrences(s))
  {
    if s != [] {
      var init := s[..|s| - 1];
      assert s == init + [s[|s| - 1]];
      FirstOccurrencesOrder(init);
      FirstOccurrencesOrderStep(init, s[|s| - 1]);
    }
  }

  /** Buckets are visited in the order their labels first occur in the list. */
  lemma BucketsInFirstOccurrenceOrder<T>(xs: seq<T>, key: T -> string)
    ensures InFirstOccurrenceOrder(Keys(xs, key), Labels(GroupBy(xs, key)))
  {
    FirstOccurrencesOrder(Keys(xs, key));
  }
}

=== FILE: new_product.dfy ===
/** The product creation form: the discount list editing, the browser's
    required-field gate, the record added on submit, and the reset after a
    successful save. */
module NewProduct {
  import opened Base
  import opened Catalog
  import opened DiscountEditing
  import EditProduct

  /** The creation form; `hasImage` says whether a file was chosen. */
  datatype NewForm = NewForm(
    name: string,
    internalId: string,
    price: string,
    description: string,
    hasImage: bool,
    progress: nat,
    selectedCategory: string,
    selectedBrand: string,
    nutrition: EditProduct.NutritionFields,
    editor: DiscountEditor)

  /** Every input empty, no file, no progress, no discounts. */
  const BlankForm: NewForm := NewForm("", "", "", "", false, 0, "", "", EditProduct.NutritionFields("", "", "", ""), EmptyEditor)

  /** `resetForm`, run after a successful save. */
  function ResetForm(f: NewForm): (r: NewForm)
    ensures r == BlankForm
    ensures r.name == "" && r.internalId == "" && r.price == "" && r.description == ""
    ensures !r.hasImage && r.progress == 0 && r.selectedCategory == "" && r.selectedBrand == ""
    ensures r.nutrition == EditProduct.NutritionFields("", "", "", "")
    ensures r.editor.discounts == [] && r.editor.concept == "" && r.editor.percentage == ""
  {
    BlankForm
  }

  /** The add and remove links act on the discount list alone. */
  function AddDiscountToNew(f: NewForm): (r: NewForm)
    ensures r == f.(editor := AddDiscount(f.editor))
    ensures f.editor.concept != "" && f.editor.percentage != "" ==>
      r.editor.discounts == f.editor.discounts + [Discount(f.editor.concept, f.editor.percentage)]
  {
    f.(editor := AddDiscount(f.editor))
  }

  function RemoveDiscountFromNew(f: NewForm, index: int): (r: NewForm)
    ensures r == f.(editor := ModalRemove(f.editor, index))
    ensures 0 <= index < |f.editor.discounts| ==> r.editor.discounts == RemoveAt(f.editor.discounts, index)
  {
    f.(editor := ModalRemove(f.editor, index))
  }

  /** The browser submits the form only when every required control has a value: name, price,
      description, both selects and the four nutritional inputs.  The internal id is optional. */
  predicate NewBrowserAccepts(f: NewForm) {
    && f.name != "" && f.price != "" && f.description != ""
    && f.selectedCategory != "" && f.selectedBrand != ""
    && f.nutrition.servingsPerContainer != "" && f.nutrition.caloriesPerServing != ""
    && f.nutrition.proteinsPerServing != "" && f.nutrition.servingSize != ""
  }

  /** The record added to the products collection: exactly these fields. */
  datatype NewRecord = NewRecord(
    name: string,
    internalId: string,
    price: string,
    description: string,
    imageUrl: string,
    category: string,
    brand: string,
    infoNutrimental: EditProduct.NutritionFields,
    discounts: seq<Discount>,
    NumPedidos: int)

  function Record(f: NewForm, imageUrl: string): (r: NewRecord)
    ensures r.name == f.name && r.internalId == f.internalId && r.price == f.price
    ensures r.description == f.description && r.imageUrl == imageUrl
    ensures r.category == f.selectedCategory && r.brand == f.selectedBrand
    ensures r.infoNutrimental == f.nutrition && r.discounts == f.editor.discounts
    ensures r.NumPedidos == 0
  {
    NewRecord(f.name, f.internalId, f.price, f.description, imageUrl, f.selectedCategory, f.selectedBrand,
              f.nutrition, f.editor.discounts, 0)
  }

  /** What a submit leads to: nothing (the browser refused it), an aborted upload, or an add that
      succeeded (the form is reset and closes) or failed (the form stays as it was). */
  datatype CreateOutcome = NotSubmitted | UploadAborted | Created(record: NewRecord, form: NewForm) | CreateFailed(record: NewRecord)

  /** Submitting: the image URL is the uploaded file's URL, or empty text without a file; a failed upload
      adds nothing. `upload` must be `NoFile` exactly when no file was chosen; `addOk` is the store's
      answer to the add. */
  function Submit(f: NewForm, upload: Upload, addOk: bool): (r: CreateOutcome)
    requires f.hasImage <==> !upload.NoFile?
    ensures !NewBrowserAccepts(f) <==> r == NotSubmitted
    ensures r == UploadAborted <==> NewBrowserAccepts(f) && upload == UploadFailed
    ensures r.Created? <==> NewBrowserAccepts(f) && upload != UploadFailed && addOk
    ensures (r.Created? || r.CreateFailed?) ==>
      r.record == Record(f, if upload.Uploaded? then upload.url else "")
    ensures r.Created? ==> r.form == BlankForm
  {
    if !NewBrowserAccepts(f) then NotSubmitted
    else
      match upload
      case UploadFailed => UploadAborted
      case NoFile => if addOk then Created(Record(f, ""), ResetForm(f)) else CreateFailed(Record(f, ""))
      case Uploaded(url) => if addOk then Created(Record(f, url), ResetForm(f)) else CreateFailed(Record(f, url))
  }

  /** The product the catalog later reads back for a created record under the store id `id`. The
      record carries no category or brand name. */
  function StoredProduct(id: string, w: NewRecord): (r: Product)
    ensures r.id == id && r.name == w.name && r.description == w.description && r.price == w.price
    ensures r.category == Some(w.category) && r.brand == Some(w.brand)
    ensures r.categoryName.None? && r.brandName.None?
    ensures r.imageUrl == Some(w.imageUrl) && r.discounts == Some(w.discounts)
    ensures r.infoNutrimental.Some? && EditProduct.NutritionForm(r.infoNutrimental) == w.infoNutrimental
  {
    var n := w.infoNutrimental;
    Product(id, w.name, w.description, w.price, Some(w.category), Some(w.brand), None, None, Some(w.imageUrl),
            Some(NutritionDoc(Some(n.servingsPerContainer), Some(n.caloriesPerServing),
                              Some(n.proteinsPerServing), Some(n.servingSize))),
            Some(w.discounts))
  }

  /** A product created without an image is stored with the empty image URL and no orders. */
  lemma NoImageGivesEmptyUrl(f: NewForm)
    requires NewBrowserAccepts(f) && !f.hasImage
    ensures var r := Submit(f, NoFile, true);
      r.Created? && r.record.imageUrl == "" && r.record.NumPedidos == 0
  {
  }

  /** A created product is found by the catalog search only through its name: the record stores the
      category and brand ids but not their names. */
  lemma CreatedProductFoundByNameOnly(id: string, w: NewRecord, query: string)
    ensures Matches(StoredProduct(id, w), query) <==> NameMatches(StoredProduct(id, w), query)
  {
  }

  /** Opening the created product in the edit form shows what was entered: the nutritional inputs and
      the discount list come back as they were submitted. */
  lemma CreatedProductEditsAsEntered(id: string, f: NewForm, url: string)
    ensures var e := EditProduct.InitEditForm(StoredProduct(id, Record(f, url)));
      && e.name == f.name && e.description == f.description && e.price == f.price
      && e.category == Some(f.selectedCategory) && e.brand == Some(f.selectedBrand)
      && e.nutrition == f.nutrition && e.editor.discounts == f.editor.discounts
  {
  }

  /** A successful creation leaves a form from which a submit would be refused until it is filled in
      again.  The form is never submitted as it is: the save closes the modal right after resetting
      it, and the products page unmounts a closed modal, so the next opening starts afresh. */
  lemma ResetFormIsRefused(f: NewForm, upload: Upload, addOk: bool)
    requires f.hasImage <==> !upload.NoFile?
    requires Submit(f, upload, addOk).Created?
    ensures !NewBrowserAccepts(Submit(f, upload, addOk).form)
  {
  }
}

=== FILE: product_selection.dfy ===
/** The product-selection modal of the custom catalog: a search box whose
    results can be clicked into a selection that never holds the same product
    id twice, removal by id, and handing the selection to the PDF generator. */
module ProductSelection {
  import opened Base
  import opened Text
  import opened Catalog

  /** The modal's state: the query typed, the results listed under it, and the selection. */
  datatype SelectionState = SelectionState(query: string, results: seq<Product>, selected: seq<Product>)

  const InitialSelection: SelectionState := SelectionState("", [], [])

  /** The results the search effect computes: nothing for a query that is blank after trimming,
      otherwise the catalog search with the query as typed (untrimmed). */
  function QueryResults(products: seq<Product>, query: string): (r: seq<Product>)
    ensures Trim(query) == [] ==> r == []
    ensures Trim(query) != [] ==> r == Search(products, query)
  {
    if Trim(query) != [] then Search(products, query) else []
  }

  /** A blank query lists nothing; a query containing a non-space character lists exactly the
      products the catalog search keeps for it, surrounding spaces included. */
  lemma ResultsOnlyForNonBlankQuery(products: seq<Product>, query: string)
    ensures QueryResults(products, query) == [] <== forall i :: 0 <= i < |query| ==> IsSpace(query[i])
    ensures (exists i :: 0 <= i < |query| && !IsSpace(query[i])) ==>
      forall p :: p in QueryResults(products, query) <==> p in products && Matches(p, query)
  {
    TrimEmptyIffAllSpace(query);
    SearchKeepsExactlyMatches(products, query);
  }

  /** A new product list: the first effect empties the results, then the search effect, which also
      depends on the list, recomputes them for the current query. */
  function ProductsChanged(st: SelectionState, products: seq<Product>): (r: SelectionState)
    ensures r.query == st.query && r.selected == st.selected
    ensures r.results == QueryResults(products, st.query)
  {
    var cleared := st.(results := []);
    cleared.(results := QueryResults(products, cleared.query))
  }

  /** Typing in the search box: the query changes and the search effect recomputes the results. */
  function QueryChanged(st: SelectionState, products: seq<Product>, query: string): (r: SelectionState)
    ensures r.query == query && r.selected == st.selected
    ensures r.results == QueryResults(products, query)
  {
    st.(query := query, results := QueryResults(products, query))
  }

  /** Whether the result list is on screen: a non-empty query with at least one result. */
  predicate ResultsShown(st: SelectionState) {
    st.query != "" && |st.results| > 0
  }

  /** Clicking a result: it joins the end of the selection unless a product with its id is already
      selected; either way the results and the query are cleared. */
  function ProductClick(st: SelectionState, p: Product): (r: SelectionState)
    ensures p.id in Ids(st.selected) ==> r.selected == st.selected
    ensures p.id !in Ids(st.selected) ==> r.selected == st.selected + [p]
    ensures r.results == [] && r.query == ""
    ensures !ResultsShown(r)
  {
    var selected := if p.id in Ids(st.selected) then st.selected else st.selected + [p];
    SelectionState("", [], selected)
  }

  /** Clicking a result keeps the selection free of repeated ids, and afterwards its id is selected. */
  lemma ClickKeepsIdsDistinct(st: SelectionState, p: Product)
    requires Distinct(Ids(st.selected))
    ensures Distinct(Ids(ProductClick(st, p).selected))
    ensures p.id in Ids(ProductClick(st, p).selected)
  {
    var r := ProductClick(st, p).selected;
    if p.id !in Ids(st.selected) {
      assert Ids(r) == Ids(st.selected) + [p.id];
    }
  }

  /** Removing a product: every selected entry with that id goes, the others keep their order. */
  function RemoveProduct(st: SelectionState, id: string): (r: SelectionState)
    ensures r.query == st.query && r.results == st.results
    ensures id !in Ids(r.selected)
    ensures IsSubsequence(r.selected, st.selected)
    ensures forall p :: p in r.selected <==> p in st.selected && p.id != id
  {
    FilterIsSubsequence(st.selected, OtherThan(id));
    FilterMembership(st.selected, OtherThan(id));
    st.(selected := Filter(st.selected, OtherThan(id)))
  }

  /** Removal keeps the selection free of repeated ids. */
  lemma {:induction false} RemoveKeepsIdsDistinct(selected: seq<Product>, id: string)
    requires Distinct(Ids(selected))
    ensures Distinct(Ids(Filter(selected, OtherThan(id))))
  {
    if selected != [] {
      var head := selected[0];
      var tail := selected[1..];
      var rest := Filter(tail, OtherThan(id));
      IdsTail(selected);
      DistinctUncons(Ids(selected));
      RemoveKeepsIdsDistinct(tail, id);
      if head.id != id {
        assert Filter(selected, OtherThan(id)) == [head] + rest;
        IdAbsentFromFilter(tail, OtherThan(id), head.id);
        IdsCons(head, rest);
        DistinctCons(head.id, Ids(rest));
      } else {
        assert Filter(selected, OtherThan(id)) == rest;
      }
    }
  }

  /** Generating the PDF hands exactly the current selection over, and the modal closes. */
  datatype GenerateOutcome = GenerateOutcome(handedOver: seq<Product>, closes: bool)

  function Generate(st: SelectionState): (r: GenerateOutcome)
    ensures r.handedOver == st.selected && r.closes
  {
    GenerateOutcome(st.selected, true)
  }

  /** The user's actions in the modal. */
  datatype SelectionAction = Type(query: string) | Click(product: Product) | Remove(id: string) | NewProducts(products: seq<Product>)

  /** One action; `products` is the list the modal currently receives. */
  function Step(st: SelectionState, products: seq<Product>, a: SelectionAction): SelectionState {
    match a
    case Type(q) => QueryChanged(st, products, q)
    case Click(p) => ProductClick(st, p)
    case Remove(id) => RemoveProduct(st, id)
    case NewProducts(ps) => ProductsChanged(st, ps)
  }

  function Run(st: SelectionState, products: seq<Product>, actions: seq<SelectionAction>): (r: SelectionState)
    ensures actions == [] ==> r == st
    decreases |actions|
  {
    if actions == [] then st
    else
      var next := Step(st, products, actions[0]);
      Run(next, if actions[0].NewProducts? then actions[0].products else products, actions[1..])
  }

  /** Whatever the user does from the opened modal, the selection handed to the PDF generator never
      holds two products with the same id. */
  lemma {:induction false} SelectionNeverRepeatsIds(st: SelectionState, products: seq<Product>, actions: seq<SelectionAction>)
    requires Distinct(Ids(st.selected))
    ensures Distinct(Ids(Generate(Run(st, products, actions)).handedOver))
    decreases |actions|
  {
    if actions != [] {
      var next := Step(st, products, actions[0]);
      match actions[0] {
        case Type(q) =>
        case Click(p) => ClickKeepsIdsDistinct(st, p);
        case Remove(id) => RemoveKeepsIdsDistinct(st.selected, id);
        case NewProducts(ps) =>
      }
      SelectionNeverRepeatsIds(next, if actions[0].NewProducts? then actions[0].products else products, actions[1..]);
    }
  }

  /** The products page mounts its modal only while it is open, so each of its openings starts from
      the initial state; whatever happens from there, the selection handed over never repeats an id.
      The catalog component's modal stays mounted and resumes its previous state on reopening, which
      `SelectionNeverRepeatsIds` covers, since it starts from any selection free of repeated ids. */
  lemma OpenedModalNeverRepeatsIds(products: seq<Product>, actions: seq<SelectionAction>)
    ensures Distinct(Ids(Generate(Run(InitialSelection, products, actions)).handedOver))
  {
    assert Ids(InitialSelection.selected) == [];
    SelectionNeverRepeatsIds(InitialSelection, products, actions);
  }
}

=== FILE: products_page.dfy ===
/** The products page: the live product list and its search-filtered view,
    the two header dropdowns with their outside-click listener, and which
    product list each catalog PDF path receives. */
module ProductsPage {
  import opened Base
  import opened Catalog
  import opened Grouping
  import opened CatalogPdf

  /** The page state that the list and the dropdowns depend on. */
  datatype PageState = PageState(
    products: seq<Product>,
    filtered: seq<Product>,
    query: string,
    moreOpen: bool,
    pdfOpen: bool)

  const InitialPage: PageState := PageState([], [], "", false, false)

  /** The search effect, run whenever the query or the product list changes: the shown list becomes
      the products matching the query, in catalog order. */
  function SearchEffect(st: PageState): (r: PageState)
    ensures r.products == st.products && r.query == st.query
    ensures r.moreOpen == st.moreOpen && r.pdfOpen == st.pdfOpen
    ensures forall p :: p in r.filtered <==> p in st.products && Matches(p, st.query)
    ensures IsSubsequence(r.filtered, st.products)
  {
    SearchKeepsExactlyMatches(st.products, st.query);
    SearchIsSubsequence(st.products, st.query);
    st.(filtered := Search(st.products, st.query))
  }

  /** A products snapshot: the handler sets both the list and the shown list to the snapshot, then the
      search effect re-runs because the list changed. */
  function ReceiveSnapshot(st: PageState, list: seq<Product>): (r: PageState)
    ensures r.products == list && r.query == st.query
    ensures r.moreOpen == st.moreOpen && r.pdfOpen == st.pdfOpen
    ensures st.query == "" ==> r.filtered == list
    ensures forall p :: p in r.filtered <==> p in list && Matches(p, st.query)
  {
    EmptyQueryKeepsAll(list);
    SearchEffect(st.(products := list, filtered := list))
  }

  /** Typing in the search box: the query changes and the search effect re-runs. */
  function QueryChange(st: PageState, query: string): (r: PageState)
    ensures r.query == query && r.products == st.products
    ensures r.moreOpen == st.moreOpen && r.pdfOpen == st.pdfOpen
    ensures forall p :: p in r.filtered <==> p in st.products && Matches(p, query)
    ensures IsSubsequence(r.filtered, st.products)
  {
    SearchEffect(st.(query := query))
  }

  /** The shown list is the search of the current list for the current query. */
  predicate ShowsSearch(st: PageState) {
    st.filtered == Search(st.products, st.query)
  }

  /** A snapshot or a keystroke. */
  datatype ListEvent = Snapshot(list: seq<Product>) | Typed(query: string)

  function ListStep(st: PageState, e: ListEvent): PageState {
    match e
    case Snapshot(list) => ReceiveSnapshot(st, list)
    case Typed(q) => QueryChange(st, q)
  }

  function ListRun(st: PageState, events: seq<ListEvent>): (r: PageState)
    ensures events == [] ==> r == st
    decreases |events|
  {
    if events == [] then st else ListRun(ListStep(st, events[0]), events[1..])
  }

  /** Whatever snapshots and keystrokes arrive, the page shows exactly the search of the latest list for
      the latest query; with an empty query that is the whole list. */
  lemma {:induction false} AlwaysShowsSearch(st: PageState, events: seq<ListEvent>)
    requires ShowsSearch(st)
    ensures ShowsSearch(ListRun(st, events))
    ensures var r := ListRun(st, events); r.query == "" ==> r.filtered == r.products
    decreases |events|
  {
    if events != [] {
      AlwaysShowsSearch(ListStep(st, events[0]), events[1..]);
    } else {
      EmptyQueryKeepsAll(st.products);
    }
  }

  lemma InitialPageShowsSearch()
    ensures ShowsSearch(InitialPage)
  {
    EmptyQueryKeepsAll([]);
  }

  /** Where a click lands: one of the two toggle buttons, anything inside an open dropdown panel, or
      anywhere else on the document. */
  datatype Target = MoreToggle | PdfToggle | InsideDropdown | Elsewhere

  /** The React handler of the clicked element: each toggle flips its own flag. */
  function ToggleHandler(st: PageState, t: Target): (r: PageState)
    ensures t == MoreToggle ==> r.moreOpen == !st.moreOpen && r.pdfOpen == st.pdfOpen
    ensures t == PdfToggle ==> r.pdfOpen == !st.pdfOpen && r.moreOpen == st.moreOpen
    ensures t == InsideDropdown || t == Elsewhere ==> r == st
    ensures r.products == st.products && r.filtered == st.filtered && r.query == st.query
  {
    match t
    case MoreToggle => st.(moreOpen := !st.moreOpen)
    case PdfToggle => st.(pdfOpen := !st.pdfOpen)
    case InsideDropdown => st
    case Elsewhere => st
  }

  /** The outside-click listener is registered on the document exactly while a dropdown is open. */
  predicate ListenerActive(st: PageState) {
    st.moreOpen || st.pdfOpen
  }

  /** The document listener: a click outside every dropdown panel closes both dropdowns. */
  function OutsideClick(st: PageState, t: Target): (r: PageState)
    ensures t == InsideDropdown ==> r == st
    ensures t != InsideDropdown ==> !r.moreOpen && !r.pdfOpen
    ensures r.products == st.products && r.filtered == st.filtered && r.query == st.query
  {
    if t != InsideDropdown then st.(moreOpen := false, pdfOpen := false) else st
  }

  /** A whole click: the element's handler runs first, then the document listener if it was registered
      before the click. The toggle buttons lie outside the panels. */
  function Click(st: PageState, t: Target): (r: PageState)
    ensures r.products == st.products && r.filtered == st.filtered && r.query == st.query
  {
    var handled := ToggleHandler(st, t);
    if ListenerActive(st) then OutsideClick(handled, t) else handled
  }

  /** The effect of a click on the dropdowns: a click inside a panel changes nothing; with a dropdown
      open, every other click, toggles included, closes both; with both closed, a toggle opens only
      its own dropdown and any other click changes nothing. */
  lemma ClickOutcomes(st: PageState, t: Target)
    ensures t == InsideDropdown ==> Click(st, t) == st
    ensures ListenerActive(st) && t != InsideDropdown ==> !Click(st, t).moreOpen && !Click(st, t).pdfOpen
    ensures !ListenerActive(st) && t == MoreToggle ==> Click(st, t).moreOpen && !Click(st, t).pdfOpen
    ensures !ListenerActive(st) && t == PdfToggle ==> Click(st, t).pdfOpen && !Click(st, t).moreOpen
    ensures !ListenerActive(st) && t == Elsewhere ==> Click(st, t) == st
  {
  }

  /** Never both dropdowns open. */
  predicate AtMostOneOpen(st: PageState) {
    !(st.moreOpen && st.pdfOpen)
  }

  function ClickRun(st: PageState, clicks: seq<Target>): (r: PageState)
    ensures clicks == [] ==> r == st
    decreases |clicks|
  {
    if clicks == [] then st else ClickRun(Click(st, clicks[0]), clicks[1..])
  }

  /** From the closed page, no sequence of clicks opens both dropdowns at once, and the shown list is
      never touched by a click. */
  lemma {:induction false} ClicksKeepAtMostOneOpen(st: PageState, clicks: seq<Target>)
    requires AtMostOneOpen(st)
    ensures AtMostOneOpen(ClickRun(st, clicks))
    ensures ClickRun(st, clicks).filtered == st.filtered
    decreases |clicks|
  {
    if clicks != [] {
      ClickOutcomes(st, clicks[0]);
      ClicksKeepAtMostOneOpen(Click(st, clicks[0]), clicks[1..]);
    }
  }

  /** The PDF menu's complete-catalog item groups every loaded product, filtered or not. */
  function MenuCatalogGroups(st: PageState, categories: seq<Category>): (r: seq<Group<Product>>)
    ensures multiset(Flatten(r)) == multiset(st.products)
    ensures forall l :: ItemsFor(r, l) == Filter(st.products, WithKey(LabelOf(categories), l))
  {
    FlattenIsPermutation(st.products, LabelOf(categories));
    ProductsByCategory(categories, st.products)
  }

  /** The custom-catalog path groups exactly the products handed over by the selection modal. */
  function CustomCatalogGroups(selected: seq<Product>, categories: seq<Category>): (r: seq<Group<Product>>)
    ensures multiset(Flatten(r)) == multiset(selected)
    ensures forall l :: ItemsFor(r, l) == Filter(selected, WithKey(LabelOf(categories), l))
  {
    FlattenIsPermutation(selected, LabelOf(categories));
    ProductsByCategory(categories, selected)
  }

  /** The catalog component below the header receives the shown list, so its complete-catalog button
      draws the products matching the current query, and every product once the query is empty. */
  lemma CatalogComponentDrawsShownList(st: PageState)
    requires ShowsSearch(st)
    ensures forall p :: p in PdfProducts(st.filtered, CompleteButton) <==> p in st.products && Matches(p, st.query)
    ensures st.query == "" ==> PdfProducts(st.filtered, CompleteButton) == st.products
  {
    SearchKeepsExactlyMatches(st.products, st.query);
    EmptyQueryKeepsAll(st.products);
  }
}

=== FILE: prospect_intake.dfy ===
/** The prospect-creation form: the browser's field checks, the optional logo
    upload, and the document it adds, whose state defaults to the board's first
    column. */
module ProspectIntake {
  import opened Base
  import opened Stages
  import opened Prospects
  import Funnel
  import Text

  /** The form's fields; `state` is "" until a state is chosen. */
  datatype ProspectForm = ProspectForm(
    businessName: string,
    contactPerson: string,
    agent: string,
    phone: string,
    email: string,
    state: string)

  const EmptyForm: ProspectForm := ProspectForm("", "", "", "", "", "")

  /** The options of the state select, in order: the "choose a state" placeholder, then the board's
      five column ids. */
  const StateOptions: seq<string> := ["", "entrante", "calificado", "espera", "perdido", "ganado"]

  lemma StateOptionsArePlaceholderThenStages()
    ensures StateOptions == [""] + StageIds()
  {
  }

  /** The phone input's pattern: exactly ten decimal digits. */
  predicate TenDigits(s: string) {
    |s| == 10 && Text.AllDigits(s)
  }

  /** What the browser checks before it lets the form submit: the required fields are non-empty
      and the phone matches its pattern.  (The e-mail format check is not modelled.) */
  predicate BrowserAccepts(f: ProspectForm) {
    && f.businessName != ""
    && f.contactPerson != ""
    && f.agent != ""
    && f.email != ""
    && TenDigits(f.phone)
  }

  /** The document added to the prospects collection. */
  datatype ProspectRecord = ProspectRecord(
    businessName: string,
    logoURL: string,
    contactPerson: string,
    agent: string,
    phone: string,
    email: string,
    state: string)

  /** The stored state: the chosen one, or the first column when none was chosen. */
  function StoredState(chosen: string): (r: string)
    ensures chosen != "" ==> r == chosen
    ensures chosen == "" ==> r == Id(Entrante)
  {
    if chosen != "" then chosen else "entrante"
  }

  /** The document saved for a form and a logo URL ("" when no logo was chosen). */
  function RecordOf(f: ProspectForm, logoURL: string): (r: ProspectRecord)
    ensures r.businessName == f.businessName && r.contactPerson == f.contactPerson
    ensures r.agent == f.agent && r.phone == f.phone && r.email == f.email
    ensures r.logoURL == logoURL && r.state == StoredState(f.state)
  {
    ProspectRecord(f.businessName, logoURL, f.contactPerson, f.agent, f.phone, f.email, StoredState(f.state))
  }

  /** How a submission ended: blocked by the browser, stopped by a failed logo upload, or a
      document write that the store accepted or refused. */
  datatype SubmitOutcome =
    | Blocked
    | UploadStopped
    | Written(record: ProspectRecord, stored: bool)

  /** Whether the modal closes: only after the store accepted the document. */
  predicate Closes(o: SubmitOutcome) {
    o.Written? && o.stored
  }

  /** Submitting the form, with the logo upload's result and the store's acknowledgement as
      parameters.  Without a file the document goes out with an empty logo URL; with one it goes out
      only once the upload finished, carrying the uploaded file's URL. */
  function Submit(f: ProspectForm, logo: Upload, stored: bool): (r: SubmitOutcome)
    ensures !BrowserAccepts(f) <==> r == Blocked
    ensures BrowserAccepts(f) && logo == UploadFailed ==> r == UploadStopped
    ensures BrowserAccepts(f) && logo == NoFile ==> r == Written(RecordOf(f, ""), stored)
    ensures BrowserAccepts(f) && logo.Uploaded? ==> r == Written(RecordOf(f, logo.url), stored)
    ensures Closes(r) <==> BrowserAccepts(f) && logo != UploadFailed && stored
  {
    if !BrowserAccepts(f) then Blocked
    else match logo
      case NoFile => Written(RecordOf(f, ""), stored)
      case Uploaded(url) => Written(RecordOf(f, url), stored)
      case UploadFailed => UploadStopped
  }

  /** A written document always carries one of the board's column ids: the select only offers
      those or the placeholder, and the placeholder becomes the first column. */
  lemma WrittenStateIsAColumn(f: ProspectForm, logo: Upload, stored: bool)
    requires f.state in StateOptions
    ensures Submit(f, logo, stored).Written? ==>
      Parse(Submit(f, logo, stored).record.state).Some?
    ensures Submit(f, logo, stored).Written? && f.state == "" ==>
      Parse(Submit(f, logo, stored).record.state) == Some(Entrante)
  {
  }

  /** The prospect the live queries deliver for a stored document under the id the store gave it. */
  function AsProspect(rec: ProspectRecord, id: string): (p: Prospect)
    ensures p.id == id && p.businessName == rec.businessName && p.agent == rec.agent
    ensures p.state == Some(rec.state) && p.logoURL == Some(rec.logoURL)
  {
    Prospect(id, rec.businessName, rec.contactPerson, rec.agent, rec.phone, rec.email,
             Some(rec.state), Some(rec.logoURL))
  }

  /** Once a created prospect appears at the end of the board's snapshot, the snapshot is bucketed
      to the end exactly when the one before it was (a stage id is never an inherited name), and then
      the prospect is the last card of the column its state names (the first column when no state
      was chosen), every other column being as before. */
  lemma CreatedProspectJoinsItsColumn(snapshot: seq<Prospect>, f: ProspectForm, logo: Upload, id: string, s: Stage)
    requires f.state in StateOptions && Submit(f, logo, true).Written?
    requires Parse(StoredState(f.state)) == Some(s)
    ensures var p := AsProspect(Submit(f, logo, true).record, id);
      && (Funnel.Collect(snapshot + [p]).Some? <==> Funnel.Collect(snapshot).Some?)
      && (Funnel.Collect(snapshot).Some? ==>
           && Funnel.Collect(snapshot + [p]).value.Get(s) == Funnel.Collect(snapshot).value.Get(s) + [p]
           && (forall t :: t != s ==> Funnel.Collect(snapshot + [p]).value.Get(t) == Funnel.Collect(snapshot).value.Get(t)))
  {
    var rec := Submit(f, logo, true).record;
    var p := AsProspect(rec, id);
    assert p.state == Some(Id(s));
    Funnel.StageIdNeverThrows(s, p);
    Funnel.CollectSnoc(snapshot, p);
    var c := Funnel.Collect(snapshot);
    if c.Some? {
      assert Funnel.InStage(s)(p);
      assert forall t :: t != s ==> !Funnel.InStage(t)(p);
    }
  }
}

=== FILE: prospect_table.dfy ===
/** The prospect table: agent-name resolution, the per-row action menu, the
    inline edit form and its save/cancel flow, the row-click detail drawer, and
    the role gate on edit/delete. */
module ProspectTable {
  import opened Base
  import opened Stages
  import opened Prospects

  /** The name fields of a user document; either may be missing. */
  datatype AgentData = AgentData(nombre: Option<string>, apellido: Option<string>)

  /** A user document: its name fields and its role ("admin", "agente" or "auditor"). */
  datatype User = User(name: AgentData, role: string)

  /** The placeholder shown for an agent document that does not exist. */
  const MissingAgent: AgentData := AgentData(Some("N/A"), Some("N/A"))

  // ---------------------------------------------------------------------------
  // Agent document references

  /** The pieces of `s` between slashes, starting with the piece `cur` already read; empty pieces
      are dropped. */
  function SplitFrom(s: string, cur: string): seq<string>
    decreases |s|
  {
    if s == [] then (if cur == [] then [] else [cur])
    else if s[0] == '/' then (if cur == [] then [] else [cur]) + SplitFrom(s[1..], [])
    else SplitFrom(s[1..], cur + [s[0]])
  }

  /** The path segments a document reference takes from one argument: the string split at every
      slash, with empty pieces dropped. */
  function Segments(s: string): seq<string> {
    SplitFrom(s, [])
  }

  /** Whether the argument holds two slashes in a row, which a document reference refuses outright. */
  predicate HasDoubleSlash(s: string) {
    exists i :: 0 <= i < |s| - 1 && s[i] == '/' && s[i + 1] == '/'
  }

  /** Whether `doc(db, 'users', agentId)` builds a reference instead of throwing: no doubled slash,
      and an odd number of segments, so that with `users` in front the path names a document. */
  predicate ValidAgentRef(agentId: string) {
    !HasDoubleSlash(agentId) && |Segments(agentId)| % 2 == 1
  }

  /** Read from a string without slashes, the pieces are the pending piece and the rest as one. */
  lemma {:induction false} SplitFromNoSlash(s: string, cur: string)
    requires '/' !in s
    ensures SplitFrom(s, cur) == if cur + s == [] then [] else [cur + s]
    decreases |s|
  {
    if s != [] {
      assert s[0] != '/';
      assert '/' !in s[1..] by {
        forall k | 0 <= k < |s[1..]|
          ensures s[1..][k] != '/'
        {
          assert s[1..][k] == s[k + 1];
        }
      }
      SplitFromNoSlash(s[1..], cur + [s[0]]);
      assert (cur + [s[0]]) + s[1..] == cur + s;
    } else {
      assert cur + s == cur;
    }
  }

  /** An id without slashes is one segment when non-empty and no segment at all when empty; so it
      makes a valid reference exactly when it is non-empty. */
  lemma PlainIdSegments(agentId: string)
    ensures '/' !in agentId ==> Segments(agentId) == if agentId == [] then [] else [agentId]
    ensures '/' !in agentId ==> (ValidAgentRef(agentId) <==> agentId != [])
  {
    if '/' !in agentId {
      SplitFromNoSlash(agentId, []);
      assert [] + agentId == agentId;
    }
  }

  /** The agent ids the table's free-text input can produce that break the reference: the empty id,
      and an id with one slash; a leading slash is dropped, so `/u1` reaches the same user as `u1`. */
  lemma AgentRefExamples()
    ensures !ValidAgentRef("") && !ValidAgentRef("a/b") && !ValidAgentRef("a//b")
    ensures ValidAgentRef("u1") && ValidAgentRef("/u1") && Segments("/u1") == ["u1"]
  {
    PlainIdSegments("");
    PlainIdSegments("u1");
    PlainIdSegments("b");
    assert "a/b"[1..] == "/b" && "/b"[1..] == "b";
    assert SplitFrom("/b", "a") == ["a"] + SplitFrom("b", []);
    assert Segments("a/b") == SplitFrom("/b", [] + ['a']);
    assert "a//b"[1] == '/' && "a//b"[2] == '/';
    assert "/u1"[1..] == "u1";
    assert Segments("/u1") == [] + SplitFrom("u1", []);
  }

  /** Looking an agent up by id in the users collection: `None` when building the reference throws;
      otherwise the user's names when the reference names a user document (a single segment), and
      the placeholder when no such document exists. */
  function ResolveAgent(users: map<string, User>, agentId: string): (r: Option<AgentData>)
    ensures r.None? <==> !ValidAgentRef(agentId)
    ensures '/' !in agentId && agentId != "" ==>
      r == Some(if agentId in users then users[agentId].name else MissingAgent)
  {
    PlainIdSegments(agentId);
    if !ValidAgentRef(agentId) then None
    else
      var segs := Segments(agentId);
      if |segs| == 1 && segs[0] in users then Some(users[segs[0]].name) else Some(MissingAgent)
  }

  /** The name index the table renders from: only users whose role is "agente". */
  function AgentIndex(users: map<string, User>): (r: map<string, AgentData>)
    ensures forall id :: id in r <==> id in users && users[id].role == "agente"
    ensures forall id :: id in r ==> r[id] == users[id].name
  {
    map id | id in users && users[id].role == "agente" :: users[id].name
  }

  /** The agent cell of a row that is not being edited. */
  function AgentCell(agents: map<string, AgentData>, agentId: string): string {
    if agentId in agents && Truthy(agents[agentId].nombre) && Truthy(agents[agentId].apellido)
    then agents[agentId].nombre.value + " " + agents[agentId].apellido.value
    else "N/A"
  }

  /** The agent cell shows "nombre apellido" exactly when the prospect's agent is a user with role
      "agente" whose two name fields are both non-empty, and "N/A" in every other case. */
  lemma AgentCellShowsNameOnlyForNamedAgents(users: map<string, User>, agentId: string)
    ensures var cell := AgentCell(AgentIndex(users), agentId);
      if agentId in users && users[agentId].role == "agente"
         && Truthy(users[agentId].name.nombre) && Truthy(users[agentId].name.apellido)
      then cell == users[agentId].name.nombre.value + " " + users[agentId].name.apellido.value
      else cell == "N/A"
  {
  }

  /** A table row: the prospect document merged with its resolved agent. */
  datatype Row = Row(prospect: Prospect, agentData: AgentData)

  /** Every agent id of a snapshot makes a valid reference. */
  predicate AllAgentRefsValid(snapshot: seq<Prospect>) {
    forall i :: 0 <= i < |snapshot| ==> ValidAgentRef(snapshot[i].agent)
  }

  /** The rows built from one snapshot of the prospects collection, in snapshot order, each with
      its agent looked up; `None` when building some agent's reference throws, which rejects the
      whole `Promise.all`. */
  function Rows(snapshot: seq<Prospect>, users: map<string, User>): (r: Option<seq<Row>>)
    ensures r.None? <==> exists i :: 0 <= i < |snapshot| && !ValidAgentRef(snapshot[i].agent)
    ensures r.Some? ==> |r.value| == |snapshot|
    ensures r.Some? ==> forall i :: 0 <= i < |snapshot| ==>
      r.value[i].prospect == snapshot[i] && ResolveAgent(users, snapshot[i].agent) == Some(r.value[i].agentData)
  {
    if AllAgentRefsValid(snapshot) then
      Some(seq(|snapshot|, i requires 0 <= i < |snapshot| => Row(snapshot[i], ResolveAgent(users, snapshot[i].agent).value)))
    else None
  }

  /** What the table shows: the loading text until a snapshot is first turned into rows, then rows. */
  datatype Listing = Loading | Loaded(rows: seq<Row>)

  /** The snapshot listener: the rows replace the listing when every agent reference could be built;
      a thrown reference rejects the callback before the rows are set, so the listing stays as it
      was, still the loading text when it is the first snapshot. */
  function ReceiveSnapshot(shown: Listing, snapshot: seq<Prospect>, users: map<string, User>): (r: Listing)
    ensures AllAgentRefsValid(snapshot) ==> r.Loaded? && |r.rows| == |snapshot|
    ensures AllAgentRefsValid(snapshot) ==> forall i :: 0 <= i < |snapshot| ==> r.rows[i].prospect == snapshot[i]
    ensures !AllAgentRefsValid(snapshot) ==> r == shown
  {
    match Rows(snapshot, users)
    case None => shown
    case Some(rows) => Loaded(rows)
  }

  /** When every agent id is a plain non-empty id, the table lists every prospect, in order, with its
      agent's names, or the placeholder when the users collection has no such document. */
  lemma PlainAgentIdsAreListed(shown: Listing, snapshot: seq<Prospect>, users: map<string, User>)
    requires forall i :: 0 <= i < |snapshot| ==> snapshot[i].agent != "" && '/' !in snapshot[i].agent
    ensures var r := ReceiveSnapshot(shown, snapshot, users);
      && r.Loaded? && |r.rows| == |snapshot|
      && forall i :: 0 <= i < |snapshot| ==>
           r.rows[i].prospect == snapshot[i]
           && r.rows[i].agentData == (if snapshot[i].agent in users then users[snapshot[i].agent].name else MissingAgent)
  {
    forall i | 0 <= i < |snapshot|
      ensures ValidAgentRef(snapshot[i].agent)
    {
      PlainIdSegments(snapshot[i].agent);
    }
  }

  /** One prospect whose agent field was saved empty freezes the table: the listing on screen, or
      the loading text, stays whatever the rest of the snapshot holds. */
  lemma BlankAgentFreezesListing(shown: Listing, snapshot: seq<Prospect>, users: map<string, User>, i: nat)
    requires i < |snapshot| && snapshot[i].agent == ""
    ensures ReceiveSnapshot(shown, snapshot, users) == shown
  {
    PlainIdSegments(snapshot[i].agent);
  }

  /** A value held by the edit form: text from an input, or the row's agent object, which the form
      inherits from the row when editing starts. */
  datatype Field = Text(text: string) | AgentObject(agent: AgentData)

  /** The inline edit form: field name to value. */
  type Form = map<string, Field>

  /** The form a row's edit action starts from: the whole row, so besides the editable fields it
      carries the id, the optional fields the document has, and the agent object. */
  function FormOf(row: Row): (f: Form)
    ensures f.Keys == {"id", "businessName", "contactPerson", "agent", "phone", "email", "agentData"}
      + (if row.prospect.state.Some? then {"state"} else {})
      + (if row.prospect.logoURL.Some? then {"logoURL"} else {})
    ensures f["businessName"] == Text(row.prospect.businessName) && f["contactPerson"] == Text(row.prospect.contactPerson)
    ensures f["agent"] == Text(row.prospect.agent) && f["phone"] == Text(row.prospect.phone)
    ensures f["id"] == Text(row.prospect.id) && f["agentData"] == AgentObject(row.agentData)
    ensures row.prospect.state.Some? ==> f["state"] == Text(row.prospect.state.value)
  {
    var p := row.prospect;
    var base := map["id" := Text(p.id), "businessName" := Text(p.businessName),
                    "contactPerson" := Text(p.contactPerson), "agent" := Text(p.agent),
                    "phone" := Text(p.phone), "email" := Text(p.email), "agentData" := AgentObject(row.agentData)];
    var withState := if p.state.Some? then base["state" := Text(p.state.value)] else base;
    if p.logoURL.Some? then withState["logoURL" := Text(p.logoURL.value)] else withState
  }

  /** The empty form the table starts with. */
  const InitialForm: Form := map["businessName" := Text(""), "contactPerson" := Text(""), "agent" := Text(""),
                                 "phone" := Text(""), "email" := Text(""), "state" := Text("")]

  /** The table's UI state. */
  datatype TableState = TableState(
    editing: Option<string>,
    form: Form,
    menu: Option<string>,
    drawerOpen: bool,
    selected: Option<Row>)

  const InitialTable: TableState := TableState(None, InitialForm, None, false, None)

  /** The row-menu toggle: closes the menu if it is this row's, otherwise opens this row's
      (which closes any other, since only one id is held). */
  function ToggleMenu(st: TableState, id: string): (r: TableState)
    ensures r.menu == Some(id) <==> st.menu != Some(id)
    ensures r.menu != Some(id) ==> r.menu == None
    ensures r == st.(menu := r.menu)
  {
    st.(menu := if st.menu == Some(id) then None else Some(id))
  }

  /** Toggling the same row twice from a closed menu closes it again; toggling another row while one
      menu is open leaves exactly that other row's menu open. */
  lemma ToggleMenuTwice(st: TableState, id: string, other: string)
    requires st.menu == None && id != other
    ensures ToggleMenu(ToggleMenu(st, id), id).menu == None
    ensures ToggleMenu(ToggleMenu(st, id), other).menu == Some(other)
  {
  }

  /** A controlled-input change: only the named field of the form takes the new value. */
  function InputChange(st: TableState, name: string, value: string): (r: TableState)
    ensures r.form.Keys == st.form.Keys + {name}
    ensures r.form[name] == Text(value)
    ensures forall k :: k in st.form && k != name ==> r.form[k] == st.form[k]
    ensures r == st.(form := r.form)
  {
    st.(form := st.form[name := Text(value)])
  }

  /** The edit action on a row: that row becomes the one being edited, its fields fill the form. */
  function EditClick(st: TableState, row: Row): (r: TableState)
    ensures r.editing == Some(row.prospect.id) && r.form == FormOf(row)
    ensures r.menu == st.menu && r.drawerOpen == st.drawerOpen && r.selected == st.selected
  {
    st.(editing := Some(row.prospect.id), form := FormOf(row))
  }

  /** The document update a save sends: the whole form, for the given id. */
  datatype FormWrite = FormWrite(prospectId: string, fields: Form)

  /** Saving the row being edited, with the store's acknowledgement as a parameter: the form is
      written; a success leaves edit mode and closes the menu; a failure changes nothing. */
  function SaveClick(st: TableState, id: string, stored: bool): (r: (TableState, FormWrite))
    ensures r.1 == FormWrite(id, st.form)
    ensures stored ==> r.0 == st.(editing := None, menu := None)
    ensures !stored ==> r.0 == st
  {
    (if stored then st.(editing := None, menu := None) else st, FormWrite(id, st.form))
  }

  /** Cancelling edit mode: leaves edit mode and closes the menu; the form keeps its values. */
  function CancelClick(st: TableState): (r: TableState)
    ensures r.editing == None && r.menu == None
    ensures r.form == st.form && r.drawerOpen == st.drawerOpen && r.selected == st.selected
  {
    st.(editing := None, menu := None)
  }

  /** Whether some row is being edited, as the row-click guard tests it (an empty id is falsy). */
  predicate EditingAny(st: TableState) {
    st.editing.Some? && st.editing.value != ""
  }

  /** A row click, with the prospects and users collections as parameters: ignored while a row is
      being edited; otherwise, when the prospect document exists and its agent reference can be
      built, the drawer opens on it with its agent resolved (a missing agent becomes the
      placeholder).  A reference that throws rejects the handler before the drawer opens. */
  function RowClick(st: TableState, id: string, prospects: map<string, Prospect>, users: map<string, User>): (r: TableState)
    ensures EditingAny(st) ==> r == st
    ensures !EditingAny(st) && id in prospects && ValidAgentRef(prospects[id].agent) ==>
      r == st.(drawerOpen := true, selected := Some(Row(prospects[id], ResolveAgent(users, prospects[id].agent).value)))
    ensures id in prospects && !ValidAgentRef(prospects[id].agent) ==> r == st
    ensures id !in prospects ==> r == st
  {
    if EditingAny(st) then st
    else if id in prospects then
      var p := prospects[id];
      match ResolveAgent(users, p.agent)
      case None => st
      case Some(agent) => st.(drawerOpen := true, selected := Some(Row(p, agent)))
    else st
  }

  /** From a closed drawer, a row click opens it exactly when no row is being edited, the prospect
      document exists, and its agent id makes a valid reference; an empty agent id never opens it. */
  lemma RowClickOpensIff(st: TableState, id: string, prospects: map<string, Prospect>, users: map<string, User>)
    requires !st.drawerOpen
    ensures RowClick(st, id, prospects, users).drawerOpen <==>
      !EditingAny(st) && id in prospects && ValidAgentRef(prospects[id].agent)
    ensures id in prospects && prospects[id].agent == "" ==> !RowClick(st, id, prospects, users).drawerOpen
  {
    if id in prospects {
      PlainIdSegments(prospects[id].agent);
    }
  }

  /** Saving right after starting to edit, with no input changed, writes back to the document the
      id and the agent object the row was merged with, besides the fields it already had. */
  lemma SaveAfterEditWritesRowExtras(st: TableState, row: Row, stored: bool)
    ensures var w := SaveClick(EditClick(st, row), row.prospect.id, stored).1;
      && w.prospectId == row.prospect.id
      && w.fields["id"] == Text(row.prospect.id)
      && w.fields["agentData"] == AgentObject(row.agentData)
      && w.fields["businessName"] == Text(row.prospect.businessName)
  {
  }

  /** Closing the detail drawer clears the selection. */
  function CloseDrawer(st: TableState): (r: TableState)
    ensures !r.drawerOpen && r.selected.None?
  {
    st.(drawerOpen := false, selected := None)
  }

  /** The entries of an open row menu. */
  datatype Action = Save | Edit | Delete | Cancel

  /** The menu of a row for a user of `role`: save (while this row is edited) or edit, and delete,
      unless the role is "auditor"; cancel whenever this row is edited. */
  function MenuActions(role: string, editingThisRow: bool): (r: seq<Action>)
    ensures role == "auditor" ==> Edit !in r && Delete !in r && Save !in r
    ensures role != "auditor" ==> Delete in r && (Edit in r <==> !editingThisRow) && (Save in r <==> editingThisRow)
    ensures Cancel in r <==> editingThisRow
  {
    (if role != "auditor" then [if editingThisRow then Save else Edit, Delete] else [])
    + (if editingThisRow then [Cancel] else [])
  }

  /** A click on a menu entry of `row`, whose menu is open: the entry's handler runs, and the click
      then reaches the menu cell, whose toggle reads the menu state of the same render (still this
      row's).  Save and delete depend on the store and are given as their results. */
  function MenuEntryClick(st: TableState, row: Row, entry: Action, stored: bool): (r: TableState)
    requires st.menu == Some(row.prospect.id)
    ensures r.menu == None
    ensures entry == Edit ==> r.editing == Some(row.prospect.id) && r.form == FormOf(row)
    ensures entry == Cancel ==> r.editing == None && r.form == st.form
    ensures entry == Save ==> r.form == st.form && (r.editing == None <==> stored || st.editing == None)
    ensures entry == Delete ==> r.editing == st.editing && r.form == st.form
  {
    var handled := match entry
      case Edit => EditClick(st, row)
      case Save => SaveClick(st, row.prospect.id, stored).0
      case Cancel => CancelClick(st)
      case Delete => st;
    handled.(menu := ToggleMenu(st, row.prospect.id).menu)
  }

  /** A click on the check icon shown in place of the menu dots while `row` is edited.  The icon's
      handler starts the save, and the click then reaches the menu cell, whose toggle runs at once;
      the save's own state changes land when the store answers, after the toggle. */
  function CheckIconClick(st: TableState, row: Row, stored: bool): (r: (TableState, FormWrite))
    ensures r.1 == FormWrite(row.prospect.id, st.form)
    ensures stored ==> r.0.editing == None && r.0.menu == None
    ensures !stored ==> r.0.editing == st.editing && (r.0.menu == Some(row.prospect.id) <==> st.menu != Some(row.prospect.id))
    ensures r.0.form == st.form && r.0.drawerOpen == st.drawerOpen && r.0.selected == st.selected
  {
    SaveClick(ToggleMenu(st, row.prospect.id), row.prospect.id, stored)
  }

  /** Saving through the check icon with the menu closed opens the row's menu; it closes again only
      when the store accepts the write, so a refused write leaves the menu open over a row still in
      edit mode. */
  lemma CheckIconOpensMenuUntilSaved(st: TableState, row: Row, stored: bool)
    requires st.menu == None && st.editing == Some(row.prospect.id)
    ensures var r := CheckIconClick(st, row, stored).0;
      && (stored ==> r.menu == None && r.editing == None)
      && (!stored ==> r.menu == Some(row.prospect.id) && r.editing == Some(row.prospect.id))
    ensures var r := CheckIconClick(st, row, stored).0;
      r.menu != MenuEntryClick(st.(menu := Some(row.prospect.id)), row, Save, stored).menu <==> !stored
  {
  }

  /** The options of the edit-mode state select, in order. */
  const EditStateOptions: seq<string> := ["entrante", "calificado", "espera", "perdido", "ganado"]

  /** The edit-mode select offers exactly the board's five column ids, in board order, so a state
      chosen there always puts the prospect on the board. */
  lemma EditOptionsAreTheStages()
    ensures EditStateOptions == StageIds()
    ensures forall o :: o in EditStateOptions ==> Parse(o).Some?
  {
  }
}

=== FILE: prospects.dfy ===
/** A prospect document as the live query delivers it: the store-assigned id
    merged with the document's fields.  `state` and `logoURL` may be missing. */
module Prospects {
  import opened Base

  datatype Prospect = Prospect(
    id: string,
    businessName: string,
    contactPerson: string,
    agent: string,
    phone: string,
    email: string,
    state: Option<string>,
    logoURL: Option<string>)
}

=== FILE: stages.dfy ===
/** The fixed, ordered set of pipeline stages.  The board shows one column
    per stage, the prospect form offers them as options, and a prospect's
    `state` field holds one of their identifiers. */
module Stages {
  import opened Base
  import opened Text

  datatype Stage = Entrante | Calificado | Espera | Perdido | Ganado

  /** The identifier stored in a prospect's `state` field and used as the board key. */
  function Id(s: Stage): string {
    match s
    case Entrante => "entrante"
    case Calificado => "calificado"
    case Espera => "espera"
    case Perdido => "perdido"
    case Ganado => "ganado"
  }

  /** The column order of the board, the initial stage first. */
  const Order: seq<Stage> := [Entrante, Calificado, Espera, Perdido, Ganado]

  /** The stage identifiers in board order. */
  function StageIds(): (r: seq<string>)
    ensures |r| == |Order| == 5
    ensures forall i :: 0 <= i < |r| ==> r[i] == Id(Order[i])
  {
    ["entrante", "calificado", "espera", "perdido", "ganado"]
  }

  /** Every stage occurs exactly once in the board order. */
  lemma OrderListsEveryStageOnce(s: Stage)
    ensures s in Order
    ensures forall i, j :: 0 <= i < j < |Order| ==> Order[i] != Order[j]
  {
  }

  /** Recognising an identifier: the stage whose identifier it is, if any. */
  function Parse(id: string): (r: Option<Stage>)
    ensures r.Some? <==> id in StageIds()
    ensures forall s: Stage :: r == Some(s) <==> Id(s) == id
  {
    if id == "entrante" then Some(Entrante)
    else if id == "calificado" then Some(Calificado)
    else if id == "espera" then Some(Espera)
    else if id == "perdido" then Some(Perdido)
    else if id == "ganado" then Some(Ganado)
    else None
  }

  /** A column heading: the identifier with its first character upper-cased and the rest kept. */
  function Title(id: string): string {
    if id == "" then "" else [UpperChar(id[0])] + id[1..]
  }

  /** A heading differs from its identifier only in the case of its first letter,
      so lower-casing a heading made from a lower-case identifier gives the identifier back. */
  lemma {:induction false} TitleRecoversId(id: string)
    requires NoUpper(id)
    ensures |Title(id)| == |id|
    ensures ToLower(Title(id)) == id
  {
    if id != "" {
      var t := Title(id);
      forall i | 0 <= i < |id|
        ensures ToLower(t)[i] == id[i]
      {
        if i == 0 {
          assert LowerChar(UpperChar(id[0])) == LowerChar(id[0]) == id[0];
        } else {
          assert t[i] == id[i];
        }
      }
    }
  }

  /** The column heading displayed for each stage. */
  function Heading(s: Stage): string {
    match s
    case Entrante => "Entrante"
    case Calificado => "Calificado"
    case Espera => "Espera"
    case Perdido => "Perdido"
    case Ganado => "Ganado"
  }

  /** The five column headings as displayed. */
  lemma ColumnTitles(s: Stage)
    ensures Title(Id(s)) == Heading(s)
  {
    var id := Id(s);
    assert Title(id) == [UpperChar(id[0])] + id[1..];
    match s
    case Entrante => assert id[0] == 'e' && id[1..] == "ntrante";
    case Calificado => assert id[0] == 'c' && id[1..] == "alificado";
    case Espera => assert id[0] == 'e' && id[1..] == "spera";
    case Perdido => assert id[0] == 'p' && id[1..] == "erdido";
    case Ganado => assert id[0] == 'g' && id[1..] == "anado";
  }
}

=== FILE: text.dfy ===
/** The JavaScript string operations the application relies on: `trim`,
    `toLowerCase`, `toUpperCase`, `includes` and the `\s` character class.
    Case mapping is modelled for ASCII letters only; every other character is
    its own lower and upper case here. */
module Text {

  /** JavaScript's white space and line terminators: the set both `String.prototype.trim` and `\s` use. */
  predicate IsSpace(c: char) {
    || c == '\t' || c == '\n' || c == '\U{000B}' || c == '\U{000C}' || c == '\r'
    || c == ' ' || c == '\U{00A0}' || c == '\U{1680}'
    || ('\U{2000}' <= c <= '\U{200A}')
    || c == '\U{2028}' || c == '\U{2029}' || c == '\U{202F}' || c == '\U{205F}'
    || c == '\U{3000}' || c == '\U{FEFF}'
  }

  predicate IsUpperAscii(c: char) { 'A' <= c <= 'Z' }

  predicate IsLowerAscii(c: char) { 'a' <= c <= 'z' }

  predicate IsDigit(c: char) { '0' <= c <= '9' }

  predicate AllDigits(s: string) { forall i :: 0 <= i < |s| ==> IsDigit(s[i]) }

  predicate IsAscii(s: string) { forall i :: 0 <= i < |s| ==> s[i] < '\U{0080}' }

  predicate NoSpace(s: string) { forall i :: 0 <= i < |s| ==> !IsSpace(s[i]) }

  predicate NoUpper(s: string) { forall i :: 0 <= i < |s| ==> !IsUpperAscii(s[i]) }

  function LowerChar(c: char): (d: char)
    ensures !IsUpperAscii(d)
    ensures IsUpperAscii(c) ==> IsLowerAscii(d)
    ensures !IsUpperAscii(c) ==> d == c
  {
    if IsUpperAscii(c) then (c as int + 32) as char else c
  }

  function UpperChar(c: char): (d: char)
    ensures !IsLowerAscii(d)
    ensures !IsLowerAscii(c) ==> d == c
    ensures LowerChar(d) == LowerChar(c)
  {
    if IsLowerAscii(c) then (c as int - 32) as char else c
  }

  /** `s.toLowerCase()`. */
  function ToLower(s: string): (r: string)
    ensures |r| == |s|
    ensures forall i :: 0 <= i < |s| ==> r[i] == LowerChar(s[i])
    ensures NoUpper(r)
  {
    seq(|s|, i requires 0 <= i < |s| => LowerChar(s[i]))
  }

  /** Lower-casing changes nothing in a string with no upper-case letter; in particular it is idempotent. */
  lemma ToLowerFixesLower(s: string)
    requires NoUpper(s)
    ensures ToLower(s) == s
  {
  }

  /** Lower-casing leaves white space where it was. */
  lemma ToLowerKeepsSpaces(s: string)
    ensures forall i :: 0 <= i < |s| ==> (IsSpace(ToLower(s)[i]) <==> IsSpace(s[i]))
  {
  }

  /** Lower-casing commutes with concatenation. */
  lemma ToLowerAppend(a: string, b: string)
    ensures ToLower(a + b) == ToLower(a) + ToLower(b)
  {
  }

  /** `s.trimStart()`: drops the leading white space. */
  function TrimStart(s: string): (r: string)
    ensures |r| <= |s|
    ensures r == s[|s| - |r|..]
    ensures r == [] || !IsSpace(r[0])
    ensures forall i :: 0 <= i < |s| - |r| ==> IsSpace(s[i])
  {
    if |s| > 0 && IsSpace(s[0]) then TrimStart(s[1..]) else s
  }

  /** `s.trimEnd()`: drops the trailing white space. */
  function TrimEnd(s: string): (r: string)
    ensures |r| <= |s|
    ensures r == s[..|r|]
    ensures r == [] || !IsSpace(r[|r| - 1])
    ensures forall i :: |r| <= i < |s| ==> IsSpace(s[i])
  {
    if |s| > 0 && IsSpace(s[|s| - 1]) then TrimEnd(s[..|s| - 1]) else s
  }

  /** `s.trim()`. */
  function Trim(s: string): (r: string)
    ensures |r| <= |s|
    ensures r == [] || (!IsSpace(r[0]) && !IsSpace(r[|r| - 1]))
  {
    TrimEnd(TrimStart(s))
  }

  /** Trimming yields the empty string exactly when the input is all white space. */
  lemma TrimEmptyIffAllSpace(s: string)
    ensures Trim(s) == [] <==> forall i :: 0 <= i < |s| ==> IsSpace(s[i])
  {
    var t := TrimStart(s);
    if Trim(s) == [] {
      forall i | 0 <= i < |s|
        ensures IsSpace(s[i])
      {
        if i >= |s| - |t| {
          assert s[i] == t[i - (|s| - |t|)];
        }
      }
    } else {
      assert !IsSpace(Trim(s)[0]);
      assert Trim(s)[0] == t[0] == s[|s| - |t|];
    }
  }

  /** Trimming a string without white space returns it. */
  lemma TrimNoSpace(s: string)
    requires NoSpace(s)
    ensures Trim(s) == s
  {
  }

  /** White space followed by a string that does not start with white space trims to that string. */
  lemma {:induction false} TrimStartAfterSpaces(sp: string, v: string)
    requires forall i :: 0 <= i < |sp| ==> IsSpace(sp[i])
    requires v == [] || !IsSpace(v[0])
    ensures TrimStart(sp + v) == v
  {
    if sp == [] {
      assert sp + v == v;
    } else {
      assert (sp + v)[1..] == sp[1..] + v;
      TrimStartAfterSpaces(sp[1..], v);
    }
  }

  /** A string that does not end in white space, followed by white space, trims to that string. */
  lemma {:induction false} TrimEndBeforeSpaces(a: string, sp: string)
    requires forall i :: 0 <= i < |sp| ==> IsSpace(sp[i])
    requires a == [] || !IsSpace(a[|a| - 1])
    ensures TrimEnd(a + sp) == a
  {
    if sp == [] {
      assert a + sp == a;
    } else {
      var s := a + sp;
      assert s[..|s| - 1] == a + sp[..|sp| - 1];
      TrimEndBeforeSpaces(a, sp[..|sp| - 1]);
    }
  }

  /** `needle` occurs at the front of `hay`. */
  predicate StartsWith(hay: string, needle: string) {
    |needle| <= |hay| && hay[..|needle|] == needle
  }

  /** `hay.includes(needle)`: `needle` occurs somewhere in `hay`. */
  predicate Contains(hay: string, needle: string)
    decreases |hay|
  {
    StartsWith(hay, needle) || (|hay| > 0 && Contains(hay[1..], needle))
  }

  /** `needle` occurs in `hay` starting at position `k`. */
  predicate OccursAt(hay: string, needle: string, k: int) {
    0 <= k && k + |needle| <= |hay| && hay[k..k + |needle|] == needle
  }

  /** Contains agrees with the positional definition of a substring. */
  lemma {:induction false} ContainsIffOccurs(hay: string, needle: string)
    ensures Contains(hay, needle) <==> exists k :: OccursAt(hay, needle, k)
    decreases |hay|
  {
    if StartsWith(hay, needle) {
      assert OccursAt(hay, needle, 0);
    }
    if |hay| > 0 {
      ContainsIffOccurs(hay[1..], needle);
      if Contains(hay[1..], needle) {
        var k :| OccursAt(hay[1..], needle, k);
        assert hay[k + 1..k + 1 + |needle|] == hay[1..][k..k + |needle|];
        assert OccursAt(hay, needle, k + 1);
      }
      if exists k :: OccursAt(hay, needle, k) {
        var k :| OccursAt(hay, needle, k);
        if k > 0 {
          assert hay[1..][k - 1..k - 1 + |needle|] == hay[k..k + |needle|];
          assert OccursAt(hay[1..], needle, k - 1);
        }
      }
    }
  }

  /** Every string includes the empty string. */
  lemma ContainsEmpty(hay: string)
    ensures Contains(hay, "")
  {
    assert StartsWith(hay, "");
  }

  /** Every string includes itself. */
  lemma ContainsSelf(s: string)
    ensures Contains(s, s)
  {
    assert s[..|s|] == s;
  }
}

=== FILE: whatsapp.dfy ===
/** The board's WhatsApp drawer: the guard against blank messages, the single
    relay request, and how the reply decides whether the drawer closes. */
module WhatsApp {
  import opened Base
  import opened Text
  import opened Prospects

  /** The drawer's state: the typed message, whether the drawer is open, and the prospect last selected. */
  datatype Drawer = Drawer(message: string, open: bool, selected: Option<Prospect>)

  /** The request body posted to the relay endpoint. */
  datatype Post = Post(message: string, to: string)

  /** How the relay call settled: a 2xx reply carrying its `success` flag, or a rejected request
      (network error or non-2xx status, which the HTTP client throws). */
  datatype RelayReply = Replied(success: bool) | Rejected

  /** The alert the user sees. */
  datatype Alert = AskForMessage | Sent | SendError

  datatype SendOutcome = SendOutcome(drawer: Drawer, posts: seq<Post>, alert: Alert)

  const InitialDrawer: Drawer := Drawer("", false, None)

  /** Opening the drawer for a card selects that prospect; the typed message is kept. */
  function OpenDrawer(d: Drawer, p: Prospect): (r: Drawer)
    ensures r.open && r.selected == Some(p) && r.message == d.message
  {
    d.(selected := Some(p), open := true)
  }

  /** Closing the drawer keeps the message and the selection. */
  function CloseDrawer(d: Drawer): (r: Drawer)
    ensures !r.open && r.message == d.message && r.selected == d.selected
  {
    d.(open := false)
  }

  /** `sendMessage`, with the relay's reply as a parameter.  A message that trims to nothing is
      refused before any request; reading the phone of a missing selection throws inside the
      `try`, so no request goes out and the error alert shows; otherwise exactly one request with
      the untrimmed message goes out, and only a reply with `success` set clears the message and
      closes the drawer. */
  function SendMessage(d: Drawer, reply: RelayReply): (r: SendOutcome)
    ensures Trim(d.message) == "" ==> r == SendOutcome(d, [], AskForMessage)
    ensures Trim(d.message) != "" && d.selected.Some? ==> r.posts == [Post(d.message, d.selected.value.phone)]
    ensures |r.posts| <= 1
    ensures r.posts == [] <==> Trim(d.message) == "" || d.selected.None?
    ensures r.alert == Sent <==> r.posts != [] && reply == Replied(true)
    ensures r.alert == Sent ==> r.drawer == d.(message := "", open := false)
    ensures r.alert != Sent ==> r.drawer == d
  {
    if Trim(d.message) == "" then SendOutcome(d, [], AskForMessage)
    else
      match d.selected
      case None => SendOutcome(d, [], SendError)
      case Some(p) =>
        var posts := [Post(d.message, p.phone)];
        match reply
        case Replied(true) => SendOutcome(d.(message := "", open := false), posts, Sent)
        case _ => SendOutcome(d, posts, SendError)
  }

  /** After opening the drawer on a card, a non-blank message goes to that card's phone in one request,
      and a failed send keeps the message so it can be retried. */
  lemma SendAfterOpen(d: Drawer, p: Prospect, reply: RelayReply)
    requires Trim(d.message) != ""
    ensures var r := SendMessage(OpenDrawer(d, p), reply);
      && r.posts == [Post(d.message, p.phone)]
      && (reply != Replied(true) ==> r.drawer.message == d.message && r.drawer.open)
      && (reply == Replied(true) ==> r.drawer.message == "" && !r.drawer.open)
  {
  }

  /** A message of white space only never reaches the relay, whatever the relay would answer. */
  lemma BlankMessageNeverSent(d: Drawer, reply: RelayReply)
    requires forall i :: 0 <= i < |d.message| ==> IsSpace(d.message[i])
    ensures SendMessage(d, reply).posts == []
    ensures SendMessage(d, reply).drawer == d
  {
    TrimEmptyIffAllSpace(d.message);
  }
}
